=== FILE: README.md ===
# LoRA metadata, library index and presets — a Dafny model

This project models the pure core of FwdFooocus's LoRA handling:

- **Metadata extraction** (`modules/lora_metadata.py`). A safetensors header is a map from string keys to string values. From it the code derives:
  - the base model, through a first-match table of six model-name patterns;
  - trigger words, merged from four keys of three shapes;
  - a description;
  - training epochs and steps, network dimension and alpha;
  - the training resolution;
  - character names and style keywords.

  Every field is a priority-ordered chain of keys, where an absent or unusable value falls through to the next key. Trigger words, characters and styles are deduplicated case-insensitively, keeping first-seen order and casing. `extract_metadata` assembles the record and collects up to two errors.
- **The scanner index** (`LoraMetadataScanner`) as a sequential state machine. Its state is the ordered index of records by path, the `is_scanning`, `scan_complete` and stop flags, and two counters. The model covers `start_scan`, the blocking `_run_scan`, `refresh_file`, `remove_file`, `clear_index` and the lookup and search methods. It also covers the index-level helpers `get_all_library_data`, `get_distinct_base_models`, `get_trigger_words_for_filename` and `search_library`.
- **The library page's identifiers and truncations** (`modules/lora_library.py`): `_sanitize_id`, plus the counts a LoRA card shows. A card shows 5 tags and "+N more", at most 3 characters or styles with " (+k)", and a description cut to 200 characters.
- **Presets** (`modules/lora_presets.py`): `sanitize_preset_name`, plus save, load, list, delete, exists and info. These operate on a directory modelled as an ordered map from sanitised names to decoded preset files.

The modules follow the program's structure:

| module | file | role |
|---|---|---|
| `Common`, `Text`, `Seqs`, `Dicts`, `Numbers` | common.dfy, text.dfy, seqs.dfy, dict.dfy, numbers.dfy | shared vocabulary |
| `Metadata` | metadata.dfy | header shape, key tables, the first-`Some` chain |
| `BaseModel` | basemodel.dfy | the pattern table and `_normalize_base_model` |
| `Fields` | fields.dfy | single-valued fields |
| `Caseless` | dedup.dfy | the dedup rule |
| `Words` | words.dfy | trigger words, characters, styles |
| `Records` | record.dfy | `extract_metadata` |
| `Scanner` | scanner.dfy | the scanner |
| `Library` | library.dfy | index-level helpers |
| `Cards` | card.dfy | `_sanitize_id` and card counts |
| `Presets` | presets.dfy | presets |

Shared vocabulary: Python strings are `seq<char>`. `str.lower()` is ASCII lower-casing. `str.strip()` strips the `str.isspace` characters. Python dicts whose order matters are `Dict`s, an insertion-ordered key sequence with a map. Sorting is a stable insertion sort, so `sorted(..., reverse=True)` keeps ties in input order. `int(float(v))` is the truncation toward zero of an exact decimal.

JSON-valued keys come already decoded:
- `ss_tag_frequency` is a sequence of datasets of (tag, count);
- `ss_dataset_dirs` is the sequence of directory names;
- `ss_bucket_info` is the sequence of bucket keys. Each is either a two-element JSON list, given as the text Python prints for its two elements (`512`, `512.0`, ...), or not such a list.

A value that is not valid JSON or not an object is `None` and contributes nothing.

Reading the header, the file size, the directory walk and the per-file extractor used by the scan are all inputs. So are the clock and the character-name regular expressions.

When `_run_scan` has no directories, it returns from inside its `try`. The `finally` block (`modules/lora_metadata.py:751-754`) then still clears `is_scanning` and sets `scan_complete`. Accordingly, every exit of `Scanner.RunScan` ends with the scan finished and complete.

## Model

| member | source | states |
|---|---|---|
| Metadata.FirstSome | modules/lora_metadata.py:192-197 | the chain's result is the first key's pick that is present; every earlier key picks nothing; nothing when no key picks |
| Metadata.FirstSomeAt | modules/lora_metadata.py:292-301 | when key `i` is the first usable one, the chain returns exactly its pick |
| Fields.ExtractBaseModel | modules/lora_metadata.py:190-197 | `None` iff no base-model key (lines 27-33, in order) holds a non-empty value; otherwise the normalisation of the first one that does |
| Fields.ExtractDescription | modules/lora_metadata.py:277-283 | `None` iff no description key holds a non-empty value; otherwise the first such value, trimmed |
| Fields.IntAt | modules/lora_metadata.py:293-300 | a key yields an integer iff it is present and `float()` accepts its value; that integer is the value truncated |
| Fields.ExtractInt | modules/lora_metadata.py:286-301 | the numeric chain gives `None` iff every key is absent or unparsable |
| Fields.ExtractReal | modules/lora_metadata.py:286-301 | the `as_float` chain gives `None` iff every key is absent or unparsable |
| Fields.ExtractIntAt | modules/lora_metadata.py:292-300 | unusable keys fall through: the first usable key's truncated value is the result |
| Fields.ExtractRealAt | modules/lora_metadata.py:292-297 | the first usable key's `float()` value is the result |
| Fields.ChainThird | modules/lora_metadata.py:292-301 | with two unusable leading keys, a three-key chain returns the third key's value |
| Fields.EpochFallthroughExample | modules/lora_metadata.py:46-50 | an empty `ss_epoch` and a non-numeric `ss_num_epochs` fall through; `epochs` "7.9" gives 7 |
| Fields.NetworkDimExample | modules/lora_metadata.py:61-65 | "32" under `ss_network_dim` reads as 32 |
| Fields.NetworkAlphaExample | modules/lora_metadata.py:66-70 | "16.0" under `ss_network_alpha` reads as the float 16.0 |
| Fields.BucketNames | modules/lora_metadata.py:323-330 | the rendered names are exactly "AxB" of the bucket keys that decode to two-element lists, whatever the elements; empty iff none does |
| Fields.FloatBucketExample | modules/lora_metadata.py:323-328 | a key "[512.0, 768]" is kept and renders as "512.0x768"; a key that is not a two-element list adds nothing |
| Fields.BucketResolution | modules/lora_metadata.py:315-332 | `None` iff the value is not an object or no key is a two-element list; otherwise the distinct names sorted as strings and joined by ", " |
| Fields.ExtractResolution | modules/lora_metadata.py:304-339 | `ss_resolution` wins when non-empty; else a bucket summary when one exists; else `resolution` trimmed; else `None` |
| Numbers.ParseIntTruncating | modules/lora_metadata.py:298 | `int(float(v))` fails iff `float(v)` fails; otherwise it is `float(v)` truncated toward zero |
| Numbers.IntRoundTrip | modules/lora_metadata.py:297-298 | the decimal rendering of any integer parses back to that integer, and as a float to the same value |
| BaseModel.FirstRule | modules/lora_metadata.py:204-206 | the chosen pattern matches, and no earlier pattern of the table does; `None` only when none matches |
| BaseModel.Normalize | modules/lora_metadata.py:200-209 | the result is the label of a pattern matching the lower-cased input, or the stripped input when no pattern matches |
| BaseModel.NormalizeFirstWins | modules/lora_metadata.py:74-81 | when pattern `k` is the first match in declaration order, its label is the result |
| BaseModel.NoRuleGivesStrip | modules/lora_metadata.py:209 | when none of the six patterns matches, the result is the input stripped |
| BaseModel.LabelsAreFixed | modules/lora_metadata.py:74-81 | each label normalises to itself |
| BaseModel.NormalizeIdempotent | modules/lora_metadata.py:200-209 | normalising a normalised name changes nothing |
| BaseModel.SdxlExampleLower | tests/test_lora_metadata.py:34-39 | "sdxl" normalises to "SDXL 1.0" |
| BaseModel.SdxlExampleUpper | tests/test_lora_metadata.py:34-39 | "SDXL" normalises to "SDXL 1.0" |
| BaseModel.SdxlExampleVersion | tests/test_lora_metadata.py:34-39 | "sdxl1.0" normalises to "SDXL 1.0" |
| BaseModel.SdxlExampleUnderscore | tests/test_lora_metadata.py:170-189 | "sdxl_1.0" normalises to "SDXL 1.0" |
| BaseModel.SdxlExampleLong | modules/lora_metadata.py:77 | "stable-diffusion-xl" normalises to "SDXL 1.0" |
| BaseModel.Sd15ExampleJoined | tests/test_lora_metadata.py:41-46 | "sd1.5" normalises to "SD 1.5" |
| BaseModel.Sd15ExampleDashed | tests/test_lora_metadata.py:41-46 | "sd-1.5" normalises to "SD 1.5" |
| BaseModel.Sd15ExampleLong | modules/lora_metadata.py:75 | "stable-diffusion-1.5" normalises to "SD 1.5" |
| BaseModel.Sd15ExampleSpaced | modules/lora_metadata.py:75 | "SD 1.5" matches no pattern (a space is not `[-_]?`), so it is kept stripped, which is the same text |
| BaseModel.PonyExamples | tests/test_lora_metadata.py:48-53 | "pony" and "PONY" normalise to "Pony" |
| BaseModel.PdxlExample | tests/test_lora_metadata.py:48-53 | "pdxl" normalises to "Pony" |
| BaseModel.UnknownExample | tests/test_lora_metadata.py:55-58 | "custom_model_v1" is returned unchanged |
| Caseless.DedupCaseless | modules/lora_metadata.py:265-274 | the loop with its `seen` set computes the reference `Dedup` |
| Caseless.DedupSpec | modules/lora_metadata.py:265-274 | the output has no empty entry, no two entries equal after lower-casing, is a subsequence of the input, and covers every non-empty input entry case-insensitively |
| Caseless.DedupMembership | modules/lora_metadata.py:268-272 | a word is kept iff it occurs at a position that is non-empty and whose lower-cased form did not occur earlier |
| Caseless.DedupKeepsClean | modules/lora_metadata.py:265-274 | an input already free of empties and case-insensitive repeats comes back unchanged |
| Caseless.DedupIdempotent | modules/lora_metadata.py:265-274 | deduplicating twice equals deduplicating once |
| Caseless.DedupPrefix | modules/lora_metadata.py:265-274 | deduplicating a prefix of the input gives a prefix of the result |
| Caseless.DedupExample | tests/test_lora_metadata.py:98-105 | ["tag1", "tag2", "TAG1", "tag2"] becomes ["tag1", "tag2"] |
| Text.SplitRoundTrip | modules/lora_metadata.py:260 | `re.split` on single delimiter characters loses nothing: pieces interleaved with the delimiters rebuild the input |
| Text.SplitPiecesClean | modules/lora_metadata.py:260 | no piece holds a delimiter |
| Words.CleanPiecesMembers | modules/lora_metadata.py:261 | the kept pieces are exactly the non-empty stripped pieces |
| Words.SplitWordsJoin | modules/lora_metadata.py:260-261 | splitting words joined by ", " gives the words back |
| Words.TopEntries | modules/lora_metadata.py:233-238 | at most 20 entries per dataset, in non-increasing count order, none outranked by an entry left behind |
| Words.TopEntriesStable | modules/lora_metadata.py:233-237 | among equal counts the kept entries are the earliest ones, in input order |
| Words.DirWord | modules/lora_metadata.py:250-252 | a name contributes iff it holds '_'; the contribution has no '_' |
| Words.DirWordConvention | modules/lora_metadata.py:250-252 | the text after the first '_' is kept, with every further '_' turned into a space |
| Words.SourcesInOrder | modules/lora_metadata.py:215-274 | key priority survives deduplication: the words kept from `ss_tag_frequency` are a prefix of the result, then those from `trigger_words`, then `activation_text`, then `ss_dataset_dirs` |
| Words.SourceAbsent | modules/lora_metadata.py:216-218 | an absent key contributes nothing |
| Words.PlainSource | modules/lora_metadata.py:257-261 | a present plain-string key contributes its pieces split on ',', ';' and newline, trimmed, empties dropped |
| Words.ExtractTriggerWords | modules/lora_metadata.py:212-274 | the result is case-insensitively distinct, a subsequence of the merged sources, and covers each of them |
| Words.PlainTriggersExample | tests/test_lora_metadata.py:87-91 | "word1, word2, word3" gives exactly those three words |
| Words.RepeatedTriggersExample | tests/test_lora_metadata.py:98-105 | "tag1, tag2, TAG1, tag2" gives ["tag1", "tag2"] |
| Words.DatasetDirsExample | tests/test_lora_metadata.py:75-85 | directories "10_anime_girl" and "5_cyberpunk_style" give "anime girl", "cyberpunk style" |
| Words.TagFrequencyExample | tests/test_lora_metadata.py:64-73 | counts 50, 30, 5 give their tags in that order |
| Words.EmptyHeaderTriggers | tests/test_lora_metadata.py:93-96 | an empty header gives no trigger words |
| Words.KeywordHits | modules/lora_metadata.py:401-404 | a title-cased keyword is listed iff the keyword occurs in the lower-cased text |
| Words.ExtractCharacters | modules/lora_metadata.py:342-380 | the character-key names then the pattern hits, deduplicated by the shared rule |
| Words.ExtractStyles | modules/lora_metadata.py:383-425 | keyword hits then style-key values, deduplicated by the shared rule |
| Words.StyleKeywordFound | modules/lora_metadata.py:401-404 | any keyword found in the text appears, title-cased, among the styles |
| Words.CharacterKeyExample | tests/test_lora_metadata.py:111-116 | "Hatsune Miku, Luka Megurine" under `character` gives both names |
| Words.StyleTextExample | tests/test_lora_metadata.py:128-134 | "anime style illustration with watercolor effects" yields Anime, Illustration and Watercolor |
| Words.StyleKeyExample | tests/test_lora_metadata.py:136-141 | "fantasy, sci-fi" under `style` gives both values |
| Records.AllText | modules/lora_metadata.py:175-178 | the scanned text contains the description and every trigger word |
| Records.ExtractMetadata | modules/lora_metadata.py:111-187 | basename and path always set; the size error iff the size is unavailable; "no metadata" iff the header has none, with every other field left empty; the read error iff the header cannot be read; with a header, each field is its extractor's result over it (base model, trigger words, description, the four numeric chains, resolution, characters and styles over the joined text) and the only possible error is the size error |
| Records.RecordListsDistinct | modules/lora_metadata.py:265-274 | trigger words, characters and styles of every record are case-insensitively distinct |
| Records.StyleInText | modules/lora_metadata.py:175-180 | a style keyword inside a trigger word or the description is reported as a style |
| Records.NonexistentFileExample | tests/test_lora_metadata.py:147-151 | an unreadable "/nonexistent/path/file.safetensors" keeps the basename "file.safetensors" and reports an error |
| Scanner.Initial | modules/lora_metadata.py:533-542 | a new scanner keeps the given directories, has an empty index and zero counters, and is neither scanning, complete nor stopping |
| Scanner.StartScan | modules/lora_metadata.py:591-602 | while scanning nothing changes; otherwise scanning, not complete, stop cleared, counters zero, index kept |
| Scanner.StartScanTwice | tests/test_lora_metadata.py:394-402 | a second start while the first runs changes nothing |
| Scanner.StopScan | modules/lora_metadata.py:615-617 | the stop request is raised and nothing else changes |
| Scanner.StopBeforeLoop | modules/lora_metadata.py:718-721 | with the stop raised before the loop, no file is visited: the index and both counters stay as they were |
| Scanner.ClearIndex | modules/lora_metadata.py:832-836 | the index is emptied and `scan_complete` cleared; every other field (flags, stop request, counters, directories) is untouched |
| Scanner.RemoveFile | modules/lora_metadata.py:816-830 | true iff the path was indexed; only that path is removed, nothing else changes |
| Scanner.RefreshFile | modules/lora_metadata.py:797-814 | a successful extraction is stored under the path and returned; a failed one changes nothing; only the index changes, no stored path is lost and at most the refreshed path is added |
| Scanner.GetMetadata | modules/lora_metadata.py:622-636 | a record iff the path is indexed, and then the stored one |
| Scanner.ByFilename | modules/lora_metadata.py:638-653 | exactly the records stored under paths whose basename is the file name, one per path, in index order; the first result is the record of the first such path |
| Scanner.FirstNamedExists | modules/lora_metadata.py:650-652 | some stored path has the basename iff a first such path in index order exists |
| Scanner.SearchByBaseModel | modules/lora_metadata.py:655-672 | exactly the records with a non-empty base model containing the query case-insensitively, in index order, each as many times as it is stored |
| Scanner.SearchByTriggerWord | modules/lora_metadata.py:674-692 | exactly the records with a trigger word containing the query case-insensitively, in index order, each as many times as it is stored (once per entry, however many words match) |
| Scanner.SearchIgnoresQueryCase | modules/lora_metadata.py:665-690 | both searches give the same answer for a query and its lower-cased form |
| Scanner.ScanFilesSorted | modules/lora_metadata.py:795 | files are visited in sorted order and are the discovered files |
| Scanner.RunScan | modules/lora_metadata.py:694-754 | every exit ends not scanning and complete; exactly a prefix of the sorted files is visited, stopping where the stop flag is first seen; successes are stored and counted as scanned, failures counted as failed |
| Scanner.VisitedAccounted | modules/lora_metadata.py:718-740 | scanned plus failed equals the number of files visited |
| Scanner.AbsorbEntries | modules/lora_metadata.py:724-727 | after a scan a path is indexed iff it was already or it was visited and extracted; visited successes hold their record; other paths are untouched |
| Scanner.SecondFailsExample | tests/test_lora_metadata.py:461-497 | of three files with the second failing, two are scanned, one failed, and the index holds the first and third |
| Library.WithFallbacks | modules/lora_metadata.py:886-892 | a missing or empty base model becomes "Unknown", a missing description ""; a present base model and description are kept, and every other field is unchanged |
| Library.AllLibraryData | modules/lora_metadata.py:872-898 | a permutation of the processed records, sorted by lower-cased file name, each with a base model and description |
| Library.LibraryStable | modules/lora_metadata.py:896 | records with the same lower-cased file name keep their index order |
| Library.ModelNames | modules/lora_metadata.py:912-915 | a name is collected iff some record has it as a non-empty base model |
| Library.UnknownLast | modules/lora_metadata.py:918-921 | the same names, 'Unknown' last if present, the others strictly sorted |
| Library.DistinctBaseModels | modules/lora_metadata.py:901-923 | each non-empty base model once, sorted, with 'Unknown' moved to the end |
| Library.TriggerWordsForFilename | modules/lora_metadata.py:926-942 | no words when no record has the file name; otherwise the trigger words of the record at the first path, in index order, with that basename |
| Library.SearchLibrary | modules/lora_metadata.py:945-988 | exactly the library records passing the base-model filter and containing the trimmed lower-cased query in their searchable text, in library order, each as many times as it is listed |
| Library.SearchBlank | modules/lora_metadata.py:971 | a blank query without a filter returns the whole library |
| Library.SearchIgnoresCase | modules/lora_metadata.py:962 | a query and its lower-cased form give the same results |
| Library.FilenameHit | modules/lora_metadata.py:973-983 | a query inside the lower-cased file name is found in the searchable text |
| Cards.Stem | modules/lora_library.py:605 | everything from the last '.' on is dropped; a name without '.' is kept |
| Cards.StemDropsExtension | modules/lora_library.py:605 | `name.ext` with no '.' in `ext` gives `name` |
| Cards.SanitizeId | modules/lora_library.py:593-609 | never empty; only `[a-z0-9-]`; no "--"; no leading or trailing '-'; "lora" when nothing alphanumeric remains; otherwise the stem's maximal runs of letters and digits, lower-cased, joined by single dashes |
| Cards.SlugRuns | modules/lora_library.py:605-609 | with a letter or digit in the stem, the replace-collapse-trim-lower pipeline equals the independent description: the runs of letters and digits joined by "-", lower-cased |
| Cards.RunsCollapse | modules/lora_library.py:608 | collapsing dash runs keeps every run of letters and digits: each run of dashes becomes one dash and nothing else changes |
| Cards.SanitizeIdempotent | modules/lora_library.py:605-609 | sanitising an id changes nothing |
| Cards.SanitizeIdExample | modules/lora_library.py:605-609 | "my.lora.safetensors" gives "my-lora" |
| Cards.SanitizeIdFallback | modules/lora_library.py:609 | a stem without letters or digits gives "lora" |
| Cards.VisibleTags | modules/lora_library.py:493 | the first min(5, n) trigger words |
| Cards.MoreTags | modules/lora_library.py:498-499 | "+N more" shows iff there are more than 5; shown plus hidden is the total |
| Cards.Summary | modules/lora_library.py:538-552 | nothing for an empty list; up to 3 joined by ", "; beyond 3, the first 3 then " (+k)" with k the decimal rendering of the number left, without leading zeros |
| Numbers.NatToString | modules/lora_library.py:540-541 | the rendering of a count is a digit string with no leading zero (a single "0" for zero) |
| Cards.ShownDescription | modules/lora_library.py:527-528 | nothing for an absent or empty description; otherwise its first min(200, n) characters |
| Cards.LoraCard | modules/lora_library.py:477-552 | the card's id, tag counts, character and style presence and description bound |
| Presets.ReplaceInvalid | modules/lora_presets.py:62 | each of the nine invalid characters becomes '_', every other character is kept |
| Presets.SanitizePresetName | modules/lora_presets.py:49-71 | never empty; holds none of the nine characters; neither starts nor ends with '.' or ' ' |
| Presets.SanitizeShape | modules/lora_presets.py:62-69 | only dots and spaces give "unnamed_preset"; otherwise the result is the replaced name with only dots and spaces cut from its ends |
| Presets.SanitizeIdempotent | modules/lora_presets.py:62-71 | sanitising a sanitised name changes nothing |
| Presets.SanitizeTrims | modules/lora_presets.py:65 | dots and spaces around a clean core are removed and the core kept |
| Presets.NormalNameExample | test_lora_presets.py:33 | "Normal Name" is kept |
| Presets.SlashesExample | test_lora_presets.py:34 | "Name/With\Slashes" gives "Name_With_Slashes" |
| Presets.SpecialCharsExample | test_lora_presets.py:35 | "Name:With*Special?Chars" gives "Name_With_Special_Chars" |
| Presets.LeadingSpacesExample | test_lora_presets.py:36 | "  Leading Spaces  " gives "Leading Spaces" |
| Presets.HiddenExample | test_lora_presets.py:37 | ".hidden.preset." gives "hidden.preset" |
| Presets.EmptyNameExample | test_lora_presets.py:38 | "" gives "unnamed_preset" |
| Presets.SavePreset | modules/lora_presets.py:74-119 | the file under the sanitised name holds the original name, the time stamp and the slots; other files untouched |
| Presets.PresetExists | modules/lora_presets.py:238-254 | true iff a file has the sanitised name |
| Presets.LoadPreset | modules/lora_presets.py:122-168 | "not found" iff no file has the sanitised name; otherwise what the stored file decodes to |
| Presets.Decode | modules/lora_presets.py:150-166 | a stored file never loads as "not found"; "invalid JSON" iff the file does not parse; "invalid format" iff `loras` is not a list; an absent `loras` loads as no slots; a list of slots loads as exactly those slots |
| Presets.ListPresets | modules/lora_presets.py:171-196 | every stored name once, strictly sorted |
| Presets.DeletePreset | modules/lora_presets.py:199-235 | true iff the preset existed; afterwards it does not exist; other files untouched |
| Presets.LoraCount | modules/lora_presets.py:281 | at most the slot count; zero iff every slot's file is "None"; all iff none is |
| Presets.LoraCountConcat | modules/lora_presets.py:281 | the count of two slot lists together is the sum of their counts |
| Presets.GetPresetInfo | modules/lora_presets.py:257-286 | `None` for a missing preset; info iff the preset loads; the LoRA count is the number of loaded slots whose file is not "None"; the name falls back to the name asked for and the date to "Unknown" |
| Presets.SaveThenLoad | modules/lora_presets.py:99-163 | loading under any name with the same sanitised form returns the saved slots |
| Presets.SaveKeepsOthers | modules/lora_presets.py:99-112 | saving leaves every other preset loading as before |
| Presets.SaveThenInfo | modules/lora_presets.py:277-282 | after a save the info is the original name, the stamp and the LoRA count |
| Presets.DeleteShrinksList | modules/lora_presets.py:219-225 | deleting an existing preset succeeds and removes exactly its name from the sorted list; a second delete fails |
| Presets.ListedNamesExist | modules/lora_presets.py:171-196 | every listed name that is its own sanitised form exists |
| Presets.LoadMissing | test_load_preset.py:153-165 | an absent preset loads as "not found" and has no info |

## Left out

- Reading the safetensors header, the file size and `is_valid_lora_file` are I/O through a foreign library. The header, the size and the read outcome are inputs of `Records.ExtractMetadata`.
- The directory walk (`Path.rglob`, `exists`, `is_dir`) and the configuration import in `_load_lora_paths_from_config` are I/O. They are the `discover` and `configured` inputs of `Scanner.RunScan`.
- Threading is not modelled: the background thread, the lock, the `stop_scan` join timeout and the `get_scanner` singleton. A stop arriving during a scan is the `stopAt` input, the first file index at which the loop sees the flag. Deep copies are not modelled either, since Dafny values are immutable.
- The clock, elapsed times, progress logging and `scan_stats` formatting are not modelled.
- `get_metadata_summary` is not modelled: it is float formatting of megabytes.
- The HTML, CSS and JavaScript templating in `modules/lora_library.py` and `html.escape` are not modelled. Only the id and the counts a card shows are.
- JSON decoding is not modelled: `ss_tag_frequency`, `ss_dataset_dirs` and `ss_bucket_info` are given in decoded form, and preset files are given decoded. For a bucket key this includes Python's `str()` of each list element, which the model takes as given text.
- Words.ExtractCharacters: the two character-name regular expressions are not modelled; their matches are the `found` input.
- Words.SourceWords: list-valued header values, which only arise for a header that is not a string map, are not modelled; every raw value is a string.
- Numbers.ParseFloat: accepts optional sign, digits and an optional fraction, read as an exact `real`. Exponents, `inf`, `nan`, underscores and binary rounding are not modelled.
- Words.Rank: counts are numbers or non-numbers (ranking 0). Python booleans counting as integers are not modelled.
- Text.Lower: ASCII lower-casing only; full Unicode case mapping is not modelled.
- BaseModel.Normalize: the six regular expressions are hand-coded matchers (alternatives of literal atoms, character classes and optional atoms), not a general regex engine.
- Presets.SavePreset: permission and file-system errors are not modelled (a save always succeeds), and the time stamp is the `now` input.
- Presets.ListPresets: files that are not `.json` or not regular files are not modelled; the directory is just the preset map.
- Presets.GetPresetInfo: a `loras` member that is not a list gives no info, where Python would iterate over whatever it is.
- Records.ExtractMetadata: no extractor raises in the model, so a present header with a known size never records "Failed to extract metadata". In Python, a numeric value that `float()` reads as infinite ("inf", "1e999") makes `int()` raise `OverflowError`, and an `ss_bucket_info` whose `buckets` is not an object makes `.keys()` raise `AttributeError`. Neither exception is caught by the field's own handler, so the record gets that error and keeps only the fields set before it. In the model such values are simply unusable and fall through to the next key.
- Text.Basename: splits on '/' only, as POSIX `os.path.basename` does; the Windows form, which also splits on a backslash, is not modelled. This affects `filename`, `get_metadata_by_filename` and `get_trigger_words_for_filename` for paths written with backslashes.
- Text.IsDigit: ASCII digits only. That is exact for the `[a-zA-Z0-9]` class of `_sanitize_id`, but Python's `float()` also accepts other Unicode decimal digits (full-width digits, for instance), which Numbers.ParseFloat rejects.
- Presets.LoadPreset: converting each slot from a list to a tuple is not modelled; slots are stored already typed. A file whose JSON parses but is not an object is not representable either: in Python `.get` then raises, `load_preset` answers "Failed to load preset" and `get_preset_info` gives None.
- Presets.DeletePreset: permission and file-system errors on an existing file are not modelled, so a delete of a stored preset always succeeds; in Python `os.remove` failing gives `(False, message)` with the file kept.

=== FILE: basemodel.dfy ===
/**
 * Base-model normalisation: an ordered table of patterns, each searched in the
 * lower-cased model string; the first rule with a hit gives the label, and a
 * string no rule recognises comes back trimmed.
 */
module BaseModel {
  import opened Common
  import opened Text

  /** One regex position: a character class, possibly marked optional (`?`). */
  datatype Atom = Atom(chars: set<char>, optional: bool)

  /** A regex without alternation: a concatenation of atoms. */
  type Pattern = seq<Atom>

  /** One entry of the pattern table: alternatives (`a|b`) and the label they map to. */
  datatype Rule = Rule(alternatives: seq<Pattern>, name: string)

  /** The pattern matches `s` starting exactly at position `i` (regex anchored at `i`). */
  predicate MatchAt(p: Pattern, s: string, i: nat)
    requires i <= |s|
    decreases |p|
  {
    if p == [] then true
    else
      (i < |s| && s[i] in p[0].chars && MatchAt(p[1..], s, i + 1))
      || (p[0].optional && MatchAt(p[1..], s, i))
  }

  /** `re.search`: the pattern matches somewhere in `s`. */
  predicate Search(p: Pattern, s: string) {
    exists i: nat | i <= |s| :: MatchAt(p, s, i)
  }

  predicate RuleMatches(r: Rule, s: string) {
    exists k: nat | k < |r.alternatives| :: Search(r.alternatives[k], s)
  }

  function Lit(s: string): (p: Pattern)
    ensures |p| == |s|
    ensures forall k :: 0 <= k < |s| ==> p[k] == Atom({s[k]}, false)
  {
    seq(|s|, k requires 0 <= k < |s| => Atom({s[k]}, false))
  }

  /** `[-_]?` */
  const Sep: Atom := Atom({'-', '_'}, true)
  /** `\.?` */
  const Dot: Atom := Atom({'.'}, true)
  /** `stable[-_]?diffusion[-_]?` */
  const StableDiffusion: Pattern := Lit("stable") + [Sep] + Lit("diffusion") + [Sep]

  const Sd15Short: Pattern := Lit("sd") + [Sep] + Lit("1") + [Dot] + Lit("5")
  const Sd15Long: Pattern := StableDiffusion + Lit("1") + [Dot] + Lit("5")
  const Sd21Short: Pattern := Lit("sd") + [Sep] + Lit("2") + [Dot] + Lit("1")
  const Sd21Long: Pattern := StableDiffusion + Lit("2") + [Dot] + Lit("1")
  const SdxlVersioned: Pattern := Lit("sdxl") + [Atom({'-', '_', ' '}, true)] + Lit("1") + [Dot] + Lit("0")
  const SdxlBare: Pattern := Lit("sdxl")
  const SdxlLong: Pattern := StableDiffusion + Lit("xl")
  const PonyWord: Pattern := Lit("pony")
  const PdxlWord: Pattern := Lit("pdxl")
  const Sd3Short: Pattern := Lit("sd") + [Sep] + Lit("3")
  const Sd3Long: Pattern := StableDiffusion + Lit("3")
  const FluxWord: Pattern := Lit("flux")

  /**
   * The SDXL rule's `sdxl(?:[-_ ]?1\.?0)?` is written as its two expansions,
   * `sdxl[-_ ]?1\.?0` and `sdxl`, which match the same strings.
   */
  const Sd15: Rule := Rule([Sd15Short, Sd15Long], "SD 1.5")
  const Sd21: Rule := Rule([Sd21Short, Sd21Long], "SD 2.1")
  const Sdxl: Rule := Rule([SdxlVersioned, SdxlBare, SdxlLong], "SDXL 1.0")
  const Pony: Rule := Rule([PonyWord, PdxlWord], "Pony")
  const Sd3: Rule := Rule([Sd3Short, Sd3Long], "SD 3")
  const Flux: Rule := Rule([FluxWord], "Flux")

  /** The pattern table, in declaration order. */
  const Table: seq<Rule> := [Sd15, Sd21, Sdxl, Pony, Sd3, Flux]

  /** Index of the first rule at or after `from` that matches `s`. */
  function FirstRuleFrom(table: seq<Rule>, s: string, from: nat): (r: Option<nat>)
    requires from <= |table|
    ensures r.Some? ==> from <= r.value < |table| && RuleMatches(table[r.value], s)
                        && forall k :: from <= k < r.value ==> !RuleMatches(table[k], s)
    ensures r.None? ==> forall k :: from <= k < |table| ==> !RuleMatches(table[k], s)
    decreases |table| - from
  {
    if from == |table| then None
    else if RuleMatches(table[from], s) then Some(from)
    else FirstRuleFrom(table, s, from + 1)
  }

  function FirstRule(table: seq<Rule>, s: string): (r: Option<nat>)
    ensures r.Some? ==> r.value < |table| && RuleMatches(table[r.value], s)
                        && forall k :: 0 <= k < r.value ==> !RuleMatches(table[k], s)
    ensures r.None? ==> forall k :: 0 <= k < |table| ==> !RuleMatches(table[k], s)
  {
    FirstRuleFrom(table, s, 0)
  }

  lemma FirstRuleIs(table: seq<Rule>, s: string, k: nat)
    requires k < |table| && RuleMatches(table[k], s)
    requires forall j :: 0 <= j < k ==> !RuleMatches(table[j], s)
    ensures FirstRule(table, s) == Some(k)
  {
  }

  /** `_normalize_base_model`: first matching label, otherwise the trimmed input. */
  function Normalize(model: string): (r: string)
    ensures (exists k :: 0 <= k < |Table| && RuleMatches(Table[k], Lower(model)) && r == Table[k].name)
            || (r == Strip(model) && forall k :: 0 <= k < |Table| ==> !RuleMatches(Table[k], Lower(model)))
  {
    match FirstRule(Table, Lower(model))
    case Some(k) => Table[k].name
    case None => Strip(model)
  }

  /** The label is decided by the first rule in table order, never a later one. */
  lemma NormalizeFirstWins(model: string, k: nat)
    requires k < |Table| && RuleMatches(Table[k], Lower(model))
    requires forall j :: 0 <= j < k ==> !RuleMatches(Table[j], Lower(model))
    ensures Normalize(model) == Table[k].name
  {
    FirstRuleIs(Table, Lower(model), k);
  }

  /** A match inside an infix is a match in the whole string, shifted. */
  lemma {:induction false} MatchAtInfix(p: Pattern, s: string, a: nat, b: nat, i: nat)
    requires a <= b <= |s| && i <= b - a
    requires MatchAt(p, s[a..b], i)
    ensures MatchAt(p, s, a + i)
    decreases |p|
  {
    if p != [] {
      var t := s[a..b];
      if i < |t| && t[i] in p[0].chars && MatchAt(p[1..], t, i + 1) {
        MatchAtInfix(p[1..], s, a, b, i + 1);
      } else {
        MatchAtInfix(p[1..], s, a, b, i);
      }
    }
  }

  lemma SearchInfix(p: Pattern, s: string, a: nat, b: nat)
    requires a <= b <= |s|
    requires Search(p, s[a..b])
    ensures Search(p, s)
  {
    var i: nat :| i <= b - a && MatchAt(p, s[a..b], i);
    MatchAtInfix(p, s, a, b, i);
  }

  lemma RuleMatchesInStripped(model: string, k: nat)
    requires k < |Table|
    ensures RuleMatches(Table[k], Lower(Strip(model))) ==> RuleMatches(Table[k], Lower(model))
  {
    var i, j :| 0 <= i <= j <= |model| && Strip(model) == model[i..j];
    LowerSlice(model, i, j);
    if RuleMatches(Table[k], Lower(Strip(model))) {
      var n: nat :| n < |Table[k].alternatives| && Search(Table[k].alternatives[n], Lower(Strip(model)));
      SearchInfix(Table[k].alternatives[n], Lower(model), i, j);
    }
  }

  /** Trimming never creates a pattern hit that the untrimmed string lacked. */
  lemma NoRuleAfterStrip(model: string)
    requires forall k :: 0 <= k < |Table| ==> !RuleMatches(Table[k], Lower(model))
    ensures forall k :: 0 <= k < |Table| ==> !RuleMatches(Table[k], Lower(Strip(model)))
  {
    forall k | 0 <= k < |Table| {
      RuleMatchesInStripped(model, k);
    }
  }

  /** A mandatory atom must consume some character at or after the start. */
  lemma {:induction false} MatchNeedsChar(p: Pattern, s: string, i: nat, m: nat)
    requires i <= |s| && m < |p| && !p[m].optional
    ensures MatchAt(p, s, i) ==> exists t :: i <= t < |s| && s[t] in p[m].chars
    decreases |p|
  {
    if MatchAt(p, s, i) && m > 0 {
      if i < |s| && s[i] in p[0].chars && MatchAt(p[1..], s, i + 1) {
        MatchNeedsChar(p[1..], s, i + 1, m - 1);
      } else {
        MatchNeedsChar(p[1..], s, i, m - 1);
      }
    }
  }

  /** A pattern cannot be found when one of its mandatory classes is absent from `s`. */
  lemma AbsentClass(p: Pattern, s: string, m: nat)
    requires m < |p| && !p[m].optional
    requires forall t :: 0 <= t < |s| ==> s[t] !in p[m].chars
    ensures !Search(p, s)
  {
    forall i: nat | i <= |s|
      ensures !MatchAt(p, s, i)
    {
      MatchNeedsChar(p, s, i, m);
    }
  }

  /** `sd[-_]?N...` cannot be found when the only "sd" in `s` is followed by a space. */
  lemma SdThenSpace(p: Pattern, s: string)
    requires |p| >= 4 && p[0] == Atom({'s'}, false) && p[1] == Atom({'d'}, false)
    requires p[2] == Sep && !p[3].optional && ' ' !in p[3].chars
    requires |s| >= 3 && s[0] == 's' && s[1] == 'd' && s[2] == ' '
    requires forall t :: 0 < t < |s| ==> s[t] != 's'
    ensures !Search(p, s)
  {
    forall i: nat | i <= |s|
      ensures !MatchAt(p, s, i)
    {
      if i == 0 {
        assert !MatchAt(p[2..], s, 2);
      } else {
        assert i == |s| || s[i] != 's';
      }
    }
  }

  /** Facts about a lower-cased label of the form "sd <version>". */
  predicate SpacedSd(s: string) {
    |s| >= 3 && s[0] == 's' && s[1] == 'd' && s[2] == ' '
    && forall t :: 0 < t < |s| ==> s[t] !in {'s', 't', 'x', 'p', 'f'}
  }

  /** "sd 1.5", "sd 2.1" and "sd 3" (the lower-cased labels) match no rule. */
  lemma SpacedSdMatchesNothing(s: string)
    requires SpacedSd(s)
    ensures forall k :: 0 <= k < |Table| ==> !RuleMatches(Table[k], s)
  {
    // No "stable...": there is no 't'; no Pony, SDXL or Flux: no 'p', 'x', 'f'.
    AbsentClass(Sd15Long, s, 1);
    AbsentClass(Sd21Long, s, 1);
    AbsentClass(SdxlVersioned, s, 2);
    AbsentClass(SdxlBare, s, 2);
    AbsentClass(SdxlLong, s, 1);
    AbsentClass(PonyWord, s, 0);
    AbsentClass(PdxlWord, s, 0);
    AbsentClass(Sd3Long, s, 1);
    AbsentClass(FluxWord, s, 0);
    // The only "sd" is followed by a space.
    SdThenSpace(Sd15Short, s);
    SdThenSpace(Sd21Short, s);
    SdThenSpace(Sd3Short, s);
  }

  /** A string with no '5' and no '2' matches neither SD 1.5 nor SD 2.1. */
  lemma NotSd15OrSd21(s: string)
    requires forall i :: 0 <= i < |s| ==> s[i] != '5' && s[i] != '2'
    ensures !RuleMatches(Sd15, s) && !RuleMatches(Sd21, s)
  {
    AbsentClass(Sd15Short, s, 5);
    AbsentClass(Sd15Long, s, 19);
    AbsentClass(Sd21Short, s, 3);
    AbsentClass(Sd21Long, s, 17);
  }

  /** A string without 's' matches none of the SD and SDXL rules. */
  lemma NoSdWithoutS(s: string)
    requires forall i :: 0 <= i < |s| ==> s[i] != 's'
    ensures !RuleMatches(Sd15, s) && !RuleMatches(Sd21, s) && !RuleMatches(Sdxl, s) && !RuleMatches(Sd3, s)
  {
    AbsentClass(Sd15Short, s, 0);
    AbsentClass(Sd15Long, s, 0);
    AbsentClass(Sd21Short, s, 0);
    AbsentClass(Sd21Long, s, 0);
    AbsentClass(SdxlVersioned, s, 0);
    AbsentClass(SdxlBare, s, 0);
    AbsentClass(SdxlLong, s, 0);
    AbsentClass(Sd3Short, s, 0);
    AbsentClass(Sd3Long, s, 0);
  }

  /** A literal pattern matches where its text occurs. */
  lemma {:induction false} LitMatches(w: string, s: string, i: nat)
    requires i + |w| <= |s| && s[i..i + |w|] == w
    ensures MatchAt(Lit(w), s, i)
    decreases |w|
  {
    if w != [] {
      assert s[i + 1..i + 1 + |w[1..]|] == w[1..];
      LitMatches(w[1..], s, i + 1);
      assert Lit(w)[1..] == Lit(w[1..]);
    }
  }

  /** A literal followed by a pattern matches where the text is followed by a match. */
  lemma {:induction false} LitThen(w: string, rest: Pattern, s: string, i: nat)
    requires i + |w| <= |s| && s[i..i + |w|] == w && MatchAt(rest, s, i + |w|)
    ensures MatchAt(Lit(w) + rest, s, i)
    decreases |w|
  {
    if w != [] {
      assert s[i + 1..i + 1 + |w[1..]|] == w[1..];
      LitThen(w[1..], rest, s, i + 1);
      assert MatchAt(Lit(w[1..]) + rest, s, i + 1);
      assert s[i] == w[0];
      assert (Lit(w) + rest)[0] == Atom({w[0]}, false);
      assert s[i] in (Lit(w) + rest)[0].chars;
      assert (Lit(w) + rest)[1..] == Lit(w[1..]) + rest;
    } else {
      assert Lit(w) + rest == rest;
    }
  }

  lemma AtomThen(a: Atom, rest: Pattern, s: string, i: nat)
    requires i < |s| && s[i] in a.chars && MatchAt(rest, s, i + 1)
    ensures MatchAt([a] + rest, s, i)
  {
    assert ([a] + rest)[1..] == rest;
  }

  lemma SkipThen(a: Atom, rest: Pattern, s: string, i: nat)
    requires i <= |s| && a.optional && MatchAt(rest, s, i)
    ensures MatchAt([a] + rest, s, i)
  {
    assert ([a] + rest)[1..] == rest;
  }

  lemma SpacedLabelFixed(l: string)
    requires SpacedSd(Lower(l))
    requires !IsSpace(l[0]) && !IsSpace(l[|l| - 1])
    ensures Normalize(l) == l
  {
    SpacedSdMatchesNothing(Lower(l));
    StripByKeeps(l, IsSpace);
  }

  lemma SdxlLabelFixed()
    ensures Normalize(Sdxl.name) == Sdxl.name
  {
    assert Lower("SDXL 1.0") == "sdxl 1.0";
    LitMatches("sdxl", "sdxl 1.0", 0);
    NormalizesToSdxl("SDXL 1.0", 1, 0);
  }

  lemma PonySpelling(l: string)
    requires Lower(l) == "pony"
    ensures Normalize(l) == Pony.name
  {
    NoSdWithoutS(Lower(l));
    LitMatches("pony", Lower(l), 0);
    assert Search(Pony.alternatives[0], Lower(l));
    NormalizeFirstWins(l, 3);
  }

  lemma FluxNotPony(s: string)
    requires s == "flux"
    ensures !RuleMatches(Pony, s)
  {
    AbsentClass(PonyWord, s, 0);
    AbsentClass(PdxlWord, s, 0);
  }

  lemma FluxSpelling(l: string)
    requires Lower(l) == "flux"
    ensures Normalize(l) == Flux.name
  {
    var low := Lower(l);
    NoSdWithoutS(low);
    FluxNotPony(low);
    LitMatches("flux", low, 0);
    assert Search(Flux.alternatives[0], low);
    assert Table == [Sd15, Sd21, Sdxl, Pony, Sd3, Flux];
    assert forall j :: 0 <= j < 5 ==> !RuleMatches(Table[j], low);
    NormalizeFirstWins(l, 5);
  }

  lemma Sd15LabelFixed()
    ensures Normalize(Sd15.name) == Sd15.name
  {
    assert Lower("SD 1.5") == "sd 1.5";
    SpacedLabelFixed("SD 1.5");
  }

  lemma Sd21LabelFixed()
    ensures Normalize(Sd21.name) == Sd21.name
  {
    assert Lower("SD 2.1") == "sd 2.1";
    SpacedLabelFixed("SD 2.1");
  }

  lemma Sd3LabelFixed()
    ensures Normalize(Sd3.name) == Sd3.name
  {
    assert Lower("SD 3") == "sd 3";
    SpacedLabelFixed("SD 3");
  }

  /** Every label normalises to itself. */
  lemma LabelsAreFixed(k: nat)
    requires k < |Table|
    ensures Normalize(Table[k].name) == Table[k].name
  {
    if k == 0 {
      assert Table[k] == Sd15;
      Sd15LabelFixed();
    } else if k == 1 {
      assert Table[k] == Sd21;
      Sd21LabelFixed();
    } else if k == 2 {
      assert Table[k] == Sdxl;
      SdxlLabelFixed();
    } else if k == 3 {
      assert Table[k] == Pony;
      PonyLabelFixed();
    } else if k == 4 {
      assert Table[k] == Sd3;
      Sd3LabelFixed();
    } else {
      assert Table[k] == Flux;
      FluxLabelFixed();
    }
  }

  lemma PonyLabelFixed()
    ensures Normalize(Pony.name) == Pony.name
  {
    assert Lower("Pony") == "pony";
    PonySpelling("Pony");
  }

  lemma FluxLabelFixed()
    ensures Normalize(Flux.name) == Flux.name
  {
    assert Lower("Flux") == "flux";
    FluxSpelling("Flux");
  }

  /** Any SDXL alternative found in a string with no '5' and no '2' gives the SDXL label. */
  lemma NormalizesToSdxl(l: string, n: nat, i: nat)
    requires n < |Sdxl.alternatives| && i <= |Lower(l)|
    requires MatchAt(Sdxl.alternatives[n], Lower(l), i)
    requires forall t :: 0 <= t < |Lower(l)| ==> Lower(l)[t] != '5' && Lower(l)[t] != '2'
    ensures Normalize(l) == "SDXL 1.0"
  {
    NotSd15OrSd21(Lower(l));
    assert Table == [Sd15, Sd21, Sdxl, Pony, Sd3, Flux];
    NormalizeFirstWins(l, 2);
  }

  /** A model starting with "sdxl" and free of '5' and '2' normalises to SDXL. */
  lemma StartsWithSdxl(l: string)
    requires |Lower(l)| >= 4 && Lower(l)[..4] == "sdxl"
    requires forall t :: 0 <= t < |Lower(l)| ==> Lower(l)[t] != '5' && Lower(l)[t] != '2'
    ensures Normalize(l) == "SDXL 1.0"
  {
    LitMatches("sdxl", Lower(l), 0);
    NormalizesToSdxl(l, 1, 0);
  }

  lemma SdxlExampleLower()
    ensures Normalize("sdxl") == "SDXL 1.0"
  {
    assert Lower("sdxl") == "sdxl";
    StartsWithSdxl("sdxl");
  }

  lemma SdxlExampleUpper()
    ensures Normalize("SDXL") == "SDXL 1.0"
  {
    assert Lower("SDXL") == "sdxl";
    StartsWithSdxl("SDXL");
  }

  lemma SdxlExampleVersion()
    ensures Normalize("sdxl1.0") == "SDXL 1.0"
  {
    assert Lower("sdxl1.0") == "sdxl1.0";
    StartsWithSdxl("sdxl1.0");
  }

  lemma SdxlExampleUnderscore()
    ensures Normalize("sdxl_1.0") == "SDXL 1.0"
  {
    assert Lower("sdxl_1.0") == "sdxl_1.0";
    StartsWithSdxl("sdxl_1.0");
  }

  lemma SdxlLongShape()
    ensures SdxlLong == Lit("stable") + ([Sep] + (Lit("diffusion") + ([Sep] + Lit("xl"))))
  {
  }

  lemma SdxlLongMatches(s: string)
    requires s == "stable-diffusion-xl"
    ensures MatchAt(SdxlLong, s, 0)
  {
    LitMatches("xl", s, 17);
    AtomThen(Sep, Lit("xl"), s, 16);
    LitThen("diffusion", [Sep] + Lit("xl"), s, 7);
    var tail := Lit("diffusion") + ([Sep] + Lit("xl"));
    AtomThen(Sep, tail, s, 6);
    LitThen("stable", [Sep] + tail, s, 0);
    SdxlLongShape();
  }

  lemma SdxlExampleLong()
    ensures Normalize("stable-diffusion-xl") == "SDXL 1.0"
  {
    var s := "stable-diffusion-xl";
    assert Lower(s) == s;
    SdxlLongMatches(s);
    NormalizesToSdxl(s, 2, 0);
  }

  lemma NormalizesToSd15(l: string, n: nat, i: nat)
    requires n < |Sd15.alternatives| && i <= |Lower(l)|
    requires MatchAt(Sd15.alternatives[n], Lower(l), i)
    ensures Normalize(l) == "SD 1.5"
  {
    assert Table[0] == Sd15;
    NormalizeFirstWins(l, 0);
  }

  lemma Sd15ShortShape()
    ensures Sd15Short == Lit("sd") + ([Sep] + (Lit("1") + ([Dot] + Lit("5"))))
  {
  }

  lemma Sd15LongShape()
    ensures Sd15Long == Lit("stable") + ([Sep] + (Lit("diffusion") + ([Sep] + (Lit("1") + ([Dot] + Lit("5"))))))
  {
  }

  /** "1.5" at position `i` matches the version tail `1\.?5`. */
  lemma VersionTail15(s: string, i: nat)
    requires i + 3 <= |s| && s[i..i + 3] == "1.5"
    ensures MatchAt(Lit("1") + ([Dot] + Lit("5")), s, i)
  {
    LitMatches("5", s, i + 2);
    AtomThen(Dot, Lit("5"), s, i + 1);
    LitThen("1", [Dot] + Lit("5"), s, i);
  }

  lemma Sd15ExampleJoined()
    ensures Normalize("sd1.5") == "SD 1.5"
  {
    var s := "sd1.5";
    assert Lower(s) == s;
    VersionTail15(s, 2);
    SkipThen(Sep, Lit("1") + ([Dot] + Lit("5")), s, 2);
    LitThen("sd", [Sep] + (Lit("1") + ([Dot] + Lit("5"))), s, 0);
    Sd15ShortShape();
    NormalizesToSd15(s, 0, 0);
  }

  lemma Sd15ExampleDashed()
    ensures Normalize("sd-1.5") == "SD 1.5"
  {
    var s := "sd-1.5";
    assert Lower(s) == s;
    VersionTail15(s, 3);
    AtomThen(Sep, Lit("1") + ([Dot] + Lit("5")), s, 2);
    LitThen("sd", [Sep] + (Lit("1") + ([Dot] + Lit("5"))), s, 0);
    Sd15ShortShape();
    NormalizesToSd15(s, 0, 0);
  }

  lemma Sd15LongMatches(s: string)
    requires s == "stable-diffusion-1.5"
    ensures MatchAt(Sd15Long, s, 0)
  {
    var version := Lit("1") + ([Dot] + Lit("5"));
    VersionTail15(s, 17);
    AtomThen(Sep, version, s, 16);
    assert s[7..16] == "diffusion";
    LitThen("diffusion", [Sep] + version, s, 7);
    var tail := Lit("diffusion") + ([Sep] + version);
    AtomThen(Sep, tail, s, 6);
    LitThen("stable", [Sep] + tail, s, 0);
    Sd15LongShape();
  }

  lemma Sd15ExampleLong()
    ensures Normalize("stable-diffusion-1.5") == "SD 1.5"
  {
    var s := "stable-diffusion-1.5";
    assert Lower(s) == s;
    Sd15LongMatches(s);
    NormalizesToSd15(s, 1, 0);
  }

  /** "SD 1.5" matches no rule (the space is not a separator) and comes back trimmed, i.e. unchanged. */
  lemma Sd15ExampleSpaced()
    ensures Normalize("SD 1.5") == "SD 1.5"
  {
    Sd15LabelFixed();
  }

  lemma PonyExamples()
    ensures Normalize("pony") == "Pony"
    ensures Normalize("PONY") == "Pony"
  {
    assert Lower("pony") == "pony";
    PonySpelling("pony");
    assert Lower("PONY") == "pony";
    PonySpelling("PONY");
  }

  lemma PdxlSpelling(l: string)
    requires Lower(l) == "pdxl"
    ensures Normalize(l) == Pony.name
  {
    NoSdWithoutS(Lower(l));
    LitMatches("pdxl", Lower(l), 0);
    assert Search(Pony.alternatives[1], Lower(l));
    assert Table == [Sd15, Sd21, Sdxl, Pony, Sd3, Flux];
    NormalizeFirstWins(l, 3);
  }

  lemma PdxlExample()
    ensures Normalize("pdxl") == "Pony"
  {
    assert Lower("pdxl") == "pdxl";
    PdxlSpelling("pdxl");
  }

  /** No rule matches "custom_model_v1": each alternative needs a character it lacks. */
  lemma CustomNotSd(s: string)
    requires s == "custom_model_v1"
    ensures !RuleMatches(Sd15, s) && !RuleMatches(Sd21, s) && !RuleMatches(Sdxl, s)
  {
    AbsentClass(Sd15Short, s, 5);
    AbsentClass(Sd15Long, s, 2);
    AbsentClass(Sd21Short, s, 3);
    AbsentClass(Sd21Long, s, 2);
    AbsentClass(SdxlVersioned, s, 2);
    AbsentClass(SdxlBare, s, 2);
    AbsentClass(SdxlLong, s, 2);
  }

  lemma CustomNotOthers(s: string)
    requires s == "custom_model_v1"
    ensures !RuleMatches(Pony, s) && !RuleMatches(Sd3, s) && !RuleMatches(Flux, s)
  {
    AbsentClass(PonyWord, s, 0);
    AbsentClass(PdxlWord, s, 0);
    AbsentClass(Sd3Short, s, 3);
    AbsentClass(Sd3Long, s, 2);
    AbsentClass(FluxWord, s, 0);
  }

  /** A name that no rule recognises comes back trimmed. */
  lemma NoRuleGivesStrip(l: string)
    requires !RuleMatches(Sd15, Lower(l)) && !RuleMatches(Sd21, Lower(l)) && !RuleMatches(Sdxl, Lower(l))
    requires !RuleMatches(Pony, Lower(l)) && !RuleMatches(Sd3, Lower(l)) && !RuleMatches(Flux, Lower(l))
    ensures Normalize(l) == Strip(l)
  {
    assert Table == [Sd15, Sd21, Sdxl, Pony, Sd3, Flux];
  }

  /** An unrecognised name is returned as it is. */
  lemma UnknownExample()
    ensures Normalize("custom_model_v1") == "custom_model_v1"
  {
    var s := "custom_model_v1";
    assert Lower(s) == s;
    assert !IsSpace(s[0]) && !IsSpace(s[|s| - 1]);
    CustomNotSd(s);
    CustomNotOthers(s);
    NoRuleGivesStrip(s);
    StripByKeeps(s, IsSpace);
  }

  /** Normalising an already normalised name changes nothing. */
  lemma NormalizeIdempotent(model: string)
    ensures Normalize(Normalize(model)) == Normalize(model)
  {
    match FirstRule(Table, Lower(model))
    case Some(k) =>
      LabelsAreFixed(k);
    case None =>
      NoRuleAfterStrip(model);
      StripByIdempotent(model, IsSpace);
  }
}

=== FILE: card.dfy ===
/**
 * The parts of a library card that are computed rather than templated: the
 * element id derived from the file name (`_sanitize_id`) and how many tags,
 * characters, styles and description characters the card shows.
 */
module Cards {
  import opened Common
  import opened Text
  import opened Seqs
  import opened Numbers
  import opened Records

  predicate IsDash(c: char) { c == '-' }

  /** A character allowed in a card id: a lower-case letter, a digit or '-'. */
  predicate IdChar(c: char) { IsLowerLetter(c) || IsDigit(c) || c == '-' }

  /** No two dashes in a row. */
  predicate NoDoubleDash(s: string) {
    forall i :: 0 <= i < |s| - 1 ==> !(s[i] == '-' && s[i + 1] == '-')
  }

  /** The letters and digits of `s`, in order. */
  function Alnums(s: string): string
    decreases |s|
  {
    if s == [] then [] else (if IsAlnum(s[0]) then [s[0]] else []) + Alnums(s[1..])
  }

  lemma {:induction false} AlnumsConcat(a: string, b: string)
    ensures Alnums(a + b) == Alnums(a) + Alnums(b)
    decreases |a|
  {
    if a != [] {
      var h := if IsAlnum(a[0]) then [a[0]] else [];
      assert (a + b)[0] == a[0];
      assert (a + b)[1..] == a[1..] + b;
      AlnumsConcat(a[1..], b);
      assert Alnums(a + b) == h + Alnums(a[1..] + b);
      assert Alnums(a) == h + Alnums(a[1..]);
    } else {
      assert a + b == b;
    }
  }

  lemma {:induction false} AlnumsOfDashes(s: string)
    requires forall k :: 0 <= k < |s| ==> s[k] == '-'
    ensures Alnums(s) == []
    decreases |s|
  {
    if s != [] {
      AlnumsOfDashes(s[1..]);
    }
  }

  /** A dashed string keeps that shape in any slice. */
  lemma DashedSlice(s: string, i: nat, j: nat)
    requires Dashed(s) && i <= j <= |s|
    ensures Dashed(s[i..j])
  {
    assert forall k :: 0 <= k < j - i ==> s[i..j][k] == s[i + k];
  }

  /** `filename.rsplit('.', 1)[0] if '.' in filename else filename`. */
  function Stem(filename: string): (r: string)
    ensures r <= filename
    ensures '.' !in filename ==> r == filename
    ensures '.' in filename ==> |r| < |filename| && filename[|r|] == '.'
                                && forall k :: |r| < k < |filename| ==> filename[k] != '.'
  {
    match LastIndexOf(filename, '.')
    case None => filename
    case Some(i) => filename[..i]
  }

  /** Only letters, digits and dashes. */
  predicate Dashed(s: string) {
    forall k :: 0 <= k < |s| ==> IsAlnum(s[k]) || s[k] == '-'
  }

  /** `re.sub(r'[^a-zA-Z0-9]', '-', name)`. */
  function Dashes(s: string): (r: string)
    ensures |r| == |s| && Dashed(r)
    ensures forall k :: 0 <= k < |s| ==> (IsAlnum(s[k]) ==> r[k] == s[k])
  {
    seq(|s|, k requires 0 <= k < |s| => if IsAlnum(s[k]) then s[k] else '-')
  }

  /** `re.sub(r'-+', '-', s)`: each run of dashes becomes one dash. */
  function Collapse(s: string): (r: string)
    ensures NoDoubleDash(r)
    ensures r == [] <==> s == []
    ensures s != [] ==> r[0] == s[0] && r[|r| - 1] == s[|s| - 1]
    decreases |s|
  {
    if |s| <= 1 then s
    else
      var rest := Collapse(s[1..]);
      if s[0] == '-' && s[1] == '-' then
        rest
      else
        var r := [s[0]] + rest;
        assert forall i :: 1 <= i < |r| ==> r[i] == rest[i - 1];
        r
  }

  /** Collapsing keeps the letters and digits, in order. */
  lemma {:induction false} CollapseAlnums(s: string)
    ensures Alnums(Collapse(s)) == Alnums(s)
    decreases |s|
  {
    if |s| > 1 {
      var rest := Collapse(s[1..]);
      CollapseAlnums(s[1..]);
      if !(s[0] == '-' && s[1] == '-') {
        assert Collapse(s) == [s[0]] + rest;
        assert ([s[0]] + rest)[1..] == rest;
      }
    }
  }

  /** Collapsing adds no character other than the dashes and letters and digits it had. */
  lemma {:induction false} CollapseDashed(s: string)
    requires Dashed(s)
    ensures Dashed(Collapse(s))
    decreases |s|
  {
    if |s| > 1 {
      DashedSlice(s, 1, |s|);
      CollapseDashed(s[1..]);
      var rest := Collapse(s[1..]);
      if !(s[0] == '-' && s[1] == '-') {
        assert Collapse(s) == [s[0]] + rest;
        assert forall k :: 1 <= k < |rest| + 1 ==> ([s[0]] + rest)[k] == rest[k - 1];
      }
    }
  }

  /** `s.strip('-')`. */
  function TrimDashes(s: string): (r: string)
    ensures r == [] || (r[0] != '-' && r[|r| - 1] != '-')
    ensures exists i, j :: 0 <= i <= j <= |s| && r == s[i..j]
              && (forall k :: 0 <= k < i ==> s[k] == '-')
              && (forall k :: j <= k < |s| ==> s[k] == '-')
  {
    StripBy(s, IsDash)
  }

  /** Trimming keeps the letters and digits, the character set and the absence of double dashes. */
  lemma TrimContents(s: string)
    ensures Alnums(TrimDashes(s)) == Alnums(s)
    ensures Dashed(s) ==> Dashed(TrimDashes(s))
    ensures NoDoubleDash(s) ==> NoDoubleDash(TrimDashes(s))
  {
    var r := TrimDashes(s);
    var i, j :| 0 <= i <= j <= |s| && r == s[i..j]
                && (forall k :: 0 <= k < i ==> s[k] == '-')
                && (forall k :: j <= k < |s| ==> s[k] == '-');
    DashesAround(s, i, j);
    if Dashed(s) {
      DashedSlice(s, i, j);
    }
    NoDoubleDashSlice(s, i, j);
  }

  lemma NoDoubleDashSlice(s: string, i: nat, j: nat)
    requires i <= j <= |s|
    ensures NoDoubleDash(s) ==> NoDoubleDash(s[i..j])
  {
    assert forall k :: 0 <= k < j - i ==> s[i..j][k] == s[i + k];
  }

  lemma DashesAround(s: string, i: nat, j: nat)
    requires i <= j <= |s|
    requires forall k :: 0 <= k < i ==> s[k] == '-'
    requires forall k :: j <= k < |s| ==> s[k] == '-'
    ensures Alnums(s[i..j]) == Alnums(s)
  {
    SplitThree(s, i, j);
    AlnumsConcat(s[..i] + s[i..j], s[j..]);
    AlnumsConcat(s[..i], s[i..j]);
    DashedPrefix(s, i);
    DashedSuffix(s, j);
  }

  lemma DashedPrefix(s: string, i: nat)
    requires i <= |s| && forall k :: 0 <= k < i ==> s[k] == '-'
    ensures Alnums(s[..i]) == []
  {
    assert forall k :: 0 <= k < i ==> s[..i][k] == s[k];
    AlnumsOfDashes(s[..i]);
  }

  lemma DashedSuffix(s: string, j: nat)
    requires j <= |s| && forall k :: j <= k < |s| ==> s[k] == '-'
    ensures Alnums(s[j..]) == []
  {
    assert forall k :: 0 <= k < |s| - j ==> s[j..][k] == s[j + k];
    AlnumsOfDashes(s[j..]);
  }

  // ---- an independent description of the id: the stem's letter-and-digit runs joined by dashes ----

  /** The run being built, closed: nothing when it is empty. */
  function Flush(cur: string): (r: seq<string>)
    ensures cur != [] ==> r == [cur]
    ensures cur == [] ==> r == []
  {
    if cur == [] then [] else [cur]
  }

  /** The maximal runs of letters and digits of `s`, in order, continuing the run `cur`. */
  function RunsFrom(s: string, cur: string): (r: seq<string>)
    ensures cur != [] ==> r != []
    decreases |s|
  {
    if s == [] then Flush(cur)
    else if IsAlnum(s[0]) then RunsFrom(s[1..], cur + [s[0]])
    else Flush(cur) + RunsFrom(s[1..], [])
  }

  /** The maximal runs of letters and digits of `s`, in order. */
  function Runs(s: string): seq<string> {
    RunsFrom(s, [])
  }

  /** Turning the other characters into dashes keeps the runs. */
  lemma {:induction false} RunsDashes(s: string, cur: string)
    ensures RunsFrom(Dashes(s), cur) == RunsFrom(s, cur)
    decreases |s|
  {
    if s != [] {
      assert Dashes(s)[1..] == Dashes(s[1..]);
      if IsAlnum(s[0]) {
        RunsDashes(s[1..], cur + [s[0]]);
      } else {
        assert Dashes(s)[0] == '-';
        RunsDashes(s[1..], []);
      }
    }
  }

  /** `re.sub(r'-+', '-', s)` keeps the runs of letters and digits: only dashes between them are merged. */
  lemma {:induction false} RunsCollapse(s: string, cur: string)
    ensures RunsFrom(Collapse(s), cur) == RunsFrom(s, cur)
    decreases |s|
  {
    if |s| > 1 {
      if s[0] == '-' && s[1] == '-' {
        RunsCollapse(s[1..], cur);
        assert s[1..][1..] == s[2..];
        assert RunsFrom(s[1..], []) == RunsFrom(s[2..], []);
      } else {
        var rest := Collapse(s[1..]);
        assert Collapse(s) == [s[0]] + rest;
        assert ([s[0]] + rest)[1..] == rest;
        if IsAlnum(s[0]) {
          RunsCollapse(s[1..], cur + [s[0]]);
        } else {
          RunsCollapse(s[1..], []);
        }
      }
    }
  }

  lemma {:induction false} RunsLeadingDashes(p: string, x: string)
    requires forall k :: 0 <= k < |p| ==> p[k] == '-'
    ensures RunsFrom(p + x, []) == RunsFrom(x, [])
    decreases |p|
  {
    if p != [] {
      assert (p + x)[0] == '-';
      assert (p + x)[1..] == p[1..] + x;
      RunsLeadingDashes(p[1..], x);
    } else {
      assert p + x == x;
    }
  }

  lemma {:induction false} RunsTrailingDash(x: string, cur: string)
    ensures RunsFrom(x + "-", cur) == RunsFrom(x, cur)
    decreases |x|
  {
    if x == [] {
      assert x + "-" == "-";
      assert "-"[1..] == [];
    } else {
      assert (x + "-")[0] == x[0];
      assert (x + "-")[1..] == x[1..] + "-";
      if IsAlnum(x[0]) {
        RunsTrailingDash(x[1..], cur + [x[0]]);
      } else {
        RunsTrailingDash(x[1..], []);
      }
    }
  }

  lemma {:induction false} RunsTrailingDashes(x: string, q: string, cur: string)
    requires forall k :: 0 <= k < |q| ==> q[k] == '-'
    ensures RunsFrom(x + q, cur) == RunsFrom(x, cur)
    decreases |q|
  {
    if q != [] {
      assert x + q == (x + "-") + q[1..];
      RunsTrailingDashes(x + "-", q[1..], cur);
      RunsTrailingDash(x, cur);
    } else {
      assert x + q == x;
    }
  }

  /** `s.strip('-')` keeps the runs. */
  lemma RunsTrim(s: string)
    ensures Runs(TrimDashes(s)) == Runs(s)
  {
    var i, j := StripBounds(s, IsDash);
    SplitThree(s, i, j);
    assert s == s[..i] + (s[i..j] + s[j..]);
    RunsLeadingDashes(s[..i], s[i..j] + s[j..]);
    RunsTrailingDashes(s[i..j], s[j..], []);
  }

  /** A dashed string without double or trailing dashes, read after an open run, joins back to itself. */
  lemma {:induction false} JoinRunsFrom(t: string, cur: string)
    requires cur != []
    requires Dashed(t) && NoDoubleDash(t) && (t == [] || t[|t| - 1] != '-')
    ensures Join(RunsFrom(t, cur), "-") == cur + t
    decreases |t|
  {
    if t == [] {
      assert cur + t == cur;
    } else if IsAlnum(t[0]) {
      DashedSlice(t, 1, |t|);
      NoDoubleDashSlice(t, 1, |t|);
      JoinRunsFrom(t[1..], cur + [t[0]]);
      assert cur + [t[0]] + t[1..] == cur + t;
    } else {
      assert |t| >= 2 && t[1] != '-' && IsAlnum(t[1]);
      DashedSlice(t, 2, |t|);
      NoDoubleDashSlice(t, 2, |t|);
      JoinRunsFrom(t[2..], [t[1]]);
      var rest := RunsFrom(t[2..], [t[1]]);
      assert t[1..][0] == t[1] && t[1..][1..] == t[2..];
      assert [] + [t[1]] == [t[1]];
      assert RunsFrom(t[1..], []) == rest;
      assert RunsFrom(t, cur) == [cur] + rest;
      assert ([cur] + rest)[1..] == rest;
      assert [t[1]] + t[2..] == t[1..];
      assert cur + "-" + t[1..] == cur + t;
    }
  }

  /** A non-empty dashed string without double or end dashes is its runs joined by single dashes. */
  lemma JoinRuns(t: string)
    requires Dashed(t) && NoDoubleDash(t) && t != [] && t[0] != '-' && t[|t| - 1] != '-'
    ensures Join(Runs(t), "-") == t
  {
    DashedSlice(t, 1, |t|);
    NoDoubleDashSlice(t, 1, |t|);
    JoinRunsFrom(t[1..], [t[0]]);
    assert [] + [t[0]] == [t[0]];
    assert [t[0]] + t[1..] == t;
  }

  /** With some letter or digit in the stem, the id is the stem's runs of letters and digits, lower-cased, joined by single dashes. */
  lemma SlugRuns(stem: string)
    ensures Alnums(stem) != [] ==> Slug(stem) == Lower(Join(Runs(stem), "-"))
  {
    if Alnums(stem) != [] {
      var d := Dashes(stem);
      var c := Collapse(d);
      var t := TrimDashes(c);
      TrimmedFacts(stem);
      assert t != [];
      RunsDashes(stem, []);
      RunsCollapse(d, []);
      RunsTrim(c);
      JoinRuns(t);
    }
  }

  /** The id built from a file name with its extension already removed. */
  function Slug(stem: string): string {
    var t := TrimDashes(Collapse(Dashes(stem)));
    if t == [] then "lora" else Lower(t)
  }

  /** The trimmed, collapsed string: dashed, without double or end dashes, with the stem's letters and digits. */
  lemma TrimmedFacts(stem: string)
    ensures var t := TrimDashes(Collapse(Dashes(stem)));
      && Dashed(t) && NoDoubleDash(t)
      && (t == [] || (t[0] != '-' && t[|t| - 1] != '-'))
      && Alnums(t) == Alnums(stem)
  {
    var d := Dashes(stem);
    var c := Collapse(d);
    DashesAlnums(stem);
    CollapseAlnums(d);
    CollapseDashed(d);
    TrimContents(c);
  }

  /** Lower-casing a dashed string without double or end dashes keeps those shapes and gives id characters. */
  lemma LowerFacts(t: string)
    requires Dashed(t) && NoDoubleDash(t) && t != [] && t[0] != '-' && t[|t| - 1] != '-'
    ensures var r := Lower(t);
      && (forall k :: 0 <= k < |r| ==> IdChar(r[k]))
      && NoDoubleDash(r) && r[0] != '-' && r[|r| - 1] != '-'
      && Alnums(r) == Lower(Alnums(t))
  {
    LowerAlnums(t);
  }

  /**
   * The id of a stem is never empty, has only lower-case letters, digits and
   * single dashes, and no dash at either end; its letters and digits are the
   * stem's, lower-cased, and it is 'lora' when the stem has none.
   */
  lemma SlugFacts(stem: string)
    ensures var r := Slug(stem);
      && r != ""
      && (forall k :: 0 <= k < |r| ==> IdChar(r[k]))
      && NoDoubleDash(r) && r[0] != '-' && r[|r| - 1] != '-'
      && (Alnums(stem) == [] ==> r == "lora")
      && (Alnums(stem) != [] ==> Alnums(r) == Lower(Alnums(stem)))
  {
    var t := TrimDashes(Collapse(Dashes(stem)));
    TrimmedFacts(stem);
    if t == [] {
      LoraChars();
    } else {
      NonEmptyHasAlnum(t);
      LowerFacts(t);
    }
  }

  /**
   * `_sanitize_id`: never empty, only lower-case letters, digits and single
   * dashes, no dash at either end; its letters and digits are those of the
   * name without extension, lower-cased, joined run by run with single
   * dashes, and it is 'lora' when that name has none.
   */
  function SanitizeId(filename: string): (r: string)
    ensures r != ""
    ensures forall k :: 0 <= k < |r| ==> IdChar(r[k])
    ensures NoDoubleDash(r) && r[0] != '-' && r[|r| - 1] != '-'
    ensures Alnums(Stem(filename)) == [] ==> r == "lora"
    ensures Alnums(Stem(filename)) != [] ==> Alnums(r) == Lower(Alnums(Stem(filename)))
    ensures Alnums(Stem(filename)) != [] ==> r == Lower(Join(Runs(Stem(filename)), "-"))
  {
    SlugFacts(Stem(filename));
    SlugRuns(Stem(filename));
    Slug(Stem(filename))
  }

  lemma LoraChars()
    ensures forall k :: 0 <= k < |"lora"| ==> IdChar("lora"[k])
    ensures NoDoubleDash("lora")
  {
  }

  /** Replacing the other characters with dashes keeps the letters and digits. */
  lemma {:induction false} DashesAlnums(s: string)
    ensures Alnums(Dashes(s)) == Alnums(s)
    decreases |s|
  {
    if s != [] {
      DashesAlnums(s[1..]);
      assert Dashes(s) == [Dashes(s)[0]] + Dashes(s[1..]);
      assert s == [s[0]] + s[1..];
    }
  }

  /** A string of letters, digits and dashes that does not start with a dash holds a letter or digit. */
  lemma NonEmptyHasAlnum(t: string)
    requires t != [] && t[0] != '-'
    requires forall k :: 0 <= k < |t| ==> IsAlnum(t[k]) || t[k] == '-'
    ensures Alnums(t) != []
  {
    assert t == [t[0]] + t[1..];
  }

  /** Lower-casing commutes with keeping the letters and digits. */
  lemma {:induction false} LowerAlnums(s: string)
    ensures Alnums(Lower(s)) == Lower(Alnums(s))
    decreases |s|
  {
    if s != [] {
      LowerAlnums(s[1..]);
      assert Lower(s) == [LowerChar(s[0])] + Lower(s[1..]);
      assert s == [s[0]] + s[1..];
      LowerConcat([s[0]], Alnums(s[1..]));
    }
  }

  /** Removes everything from the last '.' when the final part has no dot. */
  lemma StemDropsExtension(name: string, ext: string)
    requires '.' !in ext
    ensures Stem(name + "." + ext) == name
  {
    var f := name + "." + ext;
    assert f[|name|] == '.';
    forall k | |name| < k < |f| ensures f[k] != '.' {
      assert f[k] == ext[k - |name| - 1];
    }
    LastIndexOfIs(f, '.', |name|);
  }

  /** Sanitising an id again leaves it unchanged. */
  lemma SanitizeIdempotent(filename: string)
    ensures SanitizeId(SanitizeId(filename)) == SanitizeId(filename)
  {
    var r := SanitizeId(filename);
    IdCharsClean(r);
    SlugOfClean(r, r);
  }

  /** A string of id characters has no extension and no character `Dashes` would replace. */
  lemma IdCharsClean(r: string)
    requires forall k :: 0 <= k < |r| ==> IdChar(r[k])
    ensures Stem(r) == r && Dashes(r) == r
    ensures forall k :: 0 <= k < |r| ==> !IsUpper(r[k])
  {
    assert '.' !in r;
  }

  /** A string without double dashes is left alone by `Collapse`. */
  lemma {:induction false} CollapseKeeps(s: string)
    requires NoDoubleDash(s)
    ensures Collapse(s) == s
    decreases |s|
  {
    if |s| > 1 {
      assert NoDoubleDash(s[1..]) by {
        forall i | 0 <= i < |s[1..]| - 1 ensures !(s[1..][i] == '-' && s[1..][i + 1] == '-') {
          assert s[1..][i] == s[i + 1] && s[1..][i + 1] == s[i + 2];
        }
      }
      CollapseKeeps(s[1..]);
      assert s == [s[0]] + s[1..];
    }
  }

  /** A stem whose dashed form is already clean and lower-case gives that form as its id. */
  lemma SlugOfClean(stem: string, d: string)
    requires Dashes(stem) == d && d != [] && d[0] != '-' && d[|d| - 1] != '-'
    requires NoDoubleDash(d) && forall k :: 0 <= k < |d| ==> !IsUpper(d[k])
    ensures Slug(stem) == d
  {
    CollapseKeeps(d);
    StripByKeeps(d, IsDash);
    LowerKeeps(d);
  }

  lemma MyLoraDashes(stem: string)
    requires stem == "my.lora"
    ensures Dashes(stem) == "my-lora"
  {
    var d := Dashes(stem);
    assert d[0] == 'm' && d[1] == 'y' && d[2] == '-' && d[3] == 'l' && d[4] == 'o' && d[5] == 'r' && d[6] == 'a';
  }

  lemma MyLoraClean(d: string)
    requires d == "my-lora"
    ensures d != [] && d[0] != '-' && d[|d| - 1] != '-'
    ensures NoDoubleDash(d) && forall k :: 0 <= k < |d| ==> !IsUpper(d[k])
  {
  }

  /** 'my.lora.safetensors' becomes 'my-lora': only the last extension goes, the inner dot becomes a dash. */
  lemma SanitizeIdExample(stem: string, f: string)
    requires stem == "my.lora" && f == stem + "." + "safetensors"
    ensures SanitizeId(f) == "my-lora"
  {
    StemDropsExtension(stem, "safetensors");
    MyLoraDashes(stem);
    MyLoraClean("my-lora");
    SlugOfClean(stem, "my-lora");
  }

  /** A name with nothing alphanumeric before its extension gets the fallback id. */
  lemma SanitizeIdFallback(stem: string, ext: string)
    requires '.' !in ext
    requires forall k :: 0 <= k < |stem| ==> !IsAlnum(stem[k])
    ensures SanitizeId(stem + "." + ext) == "lora"
  {
    StemDropsExtension(stem, ext);
    NoAlnums(stem);
  }

  lemma {:induction false} NoAlnums(s: string)
    requires forall k :: 0 <= k < |s| ==> !IsAlnum(s[k])
    ensures Alnums(s) == []
    decreases |s|
  {
    if s != [] {
      NoAlnums(s[1..]);
    }
  }

  const VisibleTagLimit: nat := 5
  const SummaryLimit: nat := 3
  const DescriptionLimit: nat := 200

  /** The trigger tags a card shows: the first five. */
  function VisibleTags(words: seq<string>): (r: seq<string>)
    ensures r <= words
    ensures |r| == Min(VisibleTagLimit, |words|)
  {
    words[..Min(VisibleTagLimit, |words|)]
  }

  /** The "+N more" count: the tags not shown, and 0 (no badge) when all are shown. */
  function MoreTags(words: seq<string>): (n: nat)
    ensures n > 0 <==> |words| > VisibleTagLimit
    ensures |VisibleTags(words)| + n == |words|
  {
    if |words| > VisibleTagLimit then |words| - VisibleTagLimit else 0
  }

  /**
   * The characters and styles line: nothing for an empty list, otherwise the
   * first three joined by ", " with " (+k)" for the k not shown.
   */
  function Summary(items: seq<string>): (r: Option<string>)
    ensures r.None? <==> items == []
    ensures 0 < |items| <= SummaryLimit ==> r == Some(Join(items, ", "))
    ensures |items| > SummaryLimit ==> exists k :: r == Some(Join(items[..SummaryLimit], ", ") + " (+" + k + ")")
                                                && AllDigits(k) && DigitsValue(k) == |items| - SummaryLimit
    ensures |items| > SummaryLimit ==>
      r == Some(Join(items[..SummaryLimit], ", ") + " (+" + NatToString(|items| - SummaryLimit) + ")")
  {
    if items == [] then None
    else if |items| <= SummaryLimit then
      assert items[..Min(SummaryLimit, |items|)] == items;
      Some(Join(items, ", "))
    else
      var k := NatToString(|items| - SummaryLimit);
      NatToStringValue(|items| - SummaryLimit);
      Some(Join(items[..SummaryLimit], ", ") + " (+" + k + ")")
  }

  /** The description as the card shows it: its first 200 characters, nothing when empty. */
  function ShownDescription(description: Option<string>): (r: Option<string>)
    ensures r.None? <==> description.None? || description.value == ""
    ensures r.Some? ==> r.value <= description.value && |r.value| == Min(DescriptionLimit, |description.value|)
  {
    match description
    case None => None
    case Some(d) => if d == "" then None else Some(d[..Min(DescriptionLimit, |d|)])
  }

  /** The computed parts of `_generate_lora_card`. */
  datatype Card = Card(
    id: string,
    tags: seq<string>,
    moreTags: nat,
    description: Option<string>,
    characters: Option<string>,
    styles: Option<string>)

  function LoraCard(rec: Record): (c: Card)
    ensures c.id == SanitizeId(rec.filename)
    ensures |c.tags| + c.moreTags == |rec.triggerWords| && c.tags <= rec.triggerWords
    ensures c.characters.None? <==> rec.characters == []
    ensures c.styles.None? <==> rec.styles == []
    ensures c.description.Some? ==> |c.description.value| <= DescriptionLimit
  {
    Card(SanitizeId(rec.filename), VisibleTags(rec.triggerWords), MoreTags(rec.triggerWords),
         ShownDescription(rec.description), Summary(rec.characters), Summary(rec.styles))
  }
}

=== FILE: common.dfy ===
/** Optional values, used wherever the source returns `None` for "absent". */
module Common {

  datatype Option<+T> = None | Some(value: T) {

    /** Applies `f` to the carried value, keeping `None` as it is. */
    function Map<U>(f: T -> U): Option<U> {
      match this
      case None => None
      case Some(v) => Some(f(v))
    }

    /** The carried value, or `default` when there is none. */
    function GetOr(default: T): T {
      match this
      case None => default
      case Some(v) => v
    }
  }

  function Min(a: int, b: int): int {
    if a <= b then a else b
  }
}

=== FILE: dedup.dfy ===
/**
 * The duplicate-removal rule shared by trigger words, characters and styles:
 * walk the words in order, keep a word when it is non-empty and its
 * lower-case form has not been kept before.
 */
module Caseless {
  import opened Text
  import opened Seqs

  /** Position `i` of `xs` is the first non-empty word with its lower-case form. */
  predicate FirstSeen(xs: seq<string>, i: nat)
    requires i < |xs|
  {
    xs[i] != "" && forall j :: 0 <= j < i ==> Lower(xs[j]) != Lower(xs[i])
  }

  /** Reference definition: the words at first-seen positions, in input order. */
  function Dedup(xs: seq<string>): seq<string>
    decreases |xs|
  {
    if xs == [] then []
    else
      var init := xs[..|xs| - 1];
      Dedup(init) + (if FirstSeen(xs, |xs| - 1) then [xs[|xs| - 1]] else [])
  }

  /** No empty word, and no two words equal after lower-casing. */
  predicate CaselessDistinct(r: seq<string>) {
    && (forall k :: 0 <= k < |r| ==> r[k] != "")
    && (forall a, b :: 0 <= a < b < |r| ==> Lower(r[a]) != Lower(r[b]))
  }

  /** Every non-empty word of `xs` has a case-insensitive representative in `r`. */
  ghost predicate CoversCaseless(r: seq<string>, xs: seq<string>) {
    forall i :: 0 <= i < |xs| && xs[i] != "" ==> exists k :: 0 <= k < |r| && Lower(r[k]) == Lower(xs[i])
  }

  /** The source's loop: a `seen` set of lower-case forms and an output list. */
  method DedupCaseless(words: seq<string>) returns (unique: seq<string>)
    ensures unique == Dedup(words)
  {
    var seen: set<string> := {};
    unique := [];
    var i := 0;
    while i < |words|
      invariant 0 <= i <= |words|
      invariant seen == set j | 0 <= j < i && words[j] != "" :: Lower(words[j])
      invariant unique == Dedup(words[..i])
    {
      var word := words[i];
      var wordLower := Lower(word);
      var prefix := words[..i + 1];
      assert prefix[..i] == words[..i];
      assert FirstSeen(prefix, i) <==> wordLower !in seen && word != "" by {
        if word != "" {
          assert forall j :: 0 <= j < i && Lower(words[j]) == wordLower ==> words[j] != "";
        }
      }
      if wordLower !in seen && word != "" {
        seen := seen + {wordLower};
        unique := unique + [word];
      }
      i := i + 1;
    }
    assert words[..|words|] == words;
  }

  lemma FirstSeenPrefix(xs: seq<string>, n: nat, i: nat)
    requires i < n <= |xs|
    ensures FirstSeen(xs[..n], i) == FirstSeen(xs, i)
  {
  }

  /** A word is kept exactly when it sits at a first-seen position. */
  lemma {:induction false} DedupMembership(xs: seq<string>)
    ensures forall w :: w in Dedup(xs) <==> exists i :: 0 <= i < |xs| && xs[i] == w && FirstSeen(xs, i)
    decreases |xs|
  {
    if xs != [] {
      var n := |xs|;
      var init := xs[..n - 1];
      DedupMembership(init);
      forall i | 0 <= i < n - 1 {
        FirstSeenPrefix(xs, n - 1, i);
      }
      forall w
        ensures w in Dedup(xs) <==> exists i :: 0 <= i < n && xs[i] == w && FirstSeen(xs, i)
      {
        if w in Dedup(init) {
          var i :| 0 <= i < n - 1 && init[i] == w && FirstSeen(init, i);
          assert xs[i] == w && FirstSeen(xs, i);
        }
        if exists i :: 0 <= i < n && xs[i] == w && FirstSeen(xs, i) {
          var i :| 0 <= i < n && xs[i] == w && FirstSeen(xs, i);
          if i < n - 1 {
            assert init[i] == w && FirstSeen(init, i);
          }
        }
      }
    }
  }

  /** Deduplicating a prefix of the words gives a prefix of the result: later words never displace earlier ones. */
  lemma {:induction false} DedupPrefix(xs: seq<string>, n: nat)
    requires n <= |xs|
    ensures Dedup(xs[..n]) <= Dedup(xs)
    decreases |xs| - n
  {
    if n < |xs| {
      var init := xs[..|xs| - 1];
      assert init[..n] == xs[..n];
      DedupPrefix(init, n);
    } else {
      assert xs[..n] == xs;
    }
  }

  /** No kept word is empty, and no two kept words differ only in case. */
  lemma {:induction false} DedupClean(xs: seq<string>)
    ensures forall k :: 0 <= k < |Dedup(xs)| ==> Dedup(xs)[k] != ""
    ensures forall a, b :: 0 <= a < b < |Dedup(xs)| ==> Lower(Dedup(xs)[a]) != Lower(Dedup(xs)[b])
    decreases |xs|
  {
    if xs != [] {
      var n := |xs|;
      var init := xs[..n - 1];
      var d := Dedup(init);
      DedupClean(init);
      if FirstSeen(xs, n - 1) {
        DedupMembership(init);
        forall a | 0 <= a < |d|
          ensures Lower(d[a]) != Lower(xs[n - 1])
        {
          assert d[a] in d;
          var i :| 0 <= i < n - 1 && init[i] == d[a] && FirstSeen(init, i);
        }
      }
    }
  }

  /** The kept words appear in the input in the same order. */
  lemma {:induction false} DedupSubsequence(xs: seq<string>)
    ensures IsSubseq(Dedup(xs), xs)
    decreases |xs|
  {
    if xs != [] {
      var n := |xs|;
      var init := xs[..n - 1];
      DedupSubsequence(init);
      assert xs == init + [xs[n - 1]];
      if FirstSeen(xs, n - 1) {
        assert Dedup(xs) == Dedup(init) + [xs[n - 1]];
        SubseqSnoc(Dedup(init), init, xs[n - 1]);
      } else {
        assert Dedup(xs) == Dedup(init);
        SubseqExtend(Dedup(init), init, xs[n - 1]);
      }
    }
  }

  /** Every non-empty input word is represented, case-insensitively, in the output. */
  lemma {:induction false} DedupCovers(xs: seq<string>, i: nat)
    requires i < |xs| && xs[i] != ""
    ensures exists k :: 0 <= k < |Dedup(xs)| && Lower(Dedup(xs)[k]) == Lower(xs[i])
    decreases i
  {
    if FirstSeen(xs, i) {
      DedupMembership(xs);
      assert xs[i] in Dedup(xs);
      var k :| 0 <= k < |Dedup(xs)| && Dedup(xs)[k] == xs[i];
    } else {
      var j :| 0 <= j < i && Lower(xs[j]) == Lower(xs[i]);
      assert xs[j] != "" by { assert |Lower(xs[j])| == |xs[j]|; }
      DedupCovers(xs, j);
    }
  }

  /** A list that is already clean passes through unchanged. */
  lemma {:induction false} DedupKeepsClean(ys: seq<string>)
    requires forall k :: 0 <= k < |ys| ==> ys[k] != ""
    requires forall a, b :: 0 <= a < b < |ys| ==> Lower(ys[a]) != Lower(ys[b])
    ensures Dedup(ys) == ys
    decreases |ys|
  {
    if ys != [] {
      var n := |ys|;
      DedupKeepsClean(ys[..n - 1]);
      assert FirstSeen(ys, n - 1);
      assert ys == ys[..n - 1] + [ys[n - 1]];
    }
  }

  /** Applying the rule twice is the same as applying it once. */
  lemma DedupIdempotent(xs: seq<string>)
    ensures Dedup(Dedup(xs)) == Dedup(xs)
  {
    DedupClean(xs);
    DedupKeepsClean(Dedup(xs));
  }

  /** The rule's contract in one place: clean, order-preserving, complete. */
  lemma DedupSpec(xs: seq<string>)
    ensures CaselessDistinct(Dedup(xs))
    ensures IsSubseq(Dedup(xs), xs)
    ensures CoversCaseless(Dedup(xs), xs)
  {
    DedupClean(xs);
    DedupSubsequence(xs);
    forall i | 0 <= i < |xs| && xs[i] != ""
      ensures exists k :: 0 <= k < |Dedup(xs)| && Lower(Dedup(xs)[k]) == Lower(xs[i])
    {
      DedupCovers(xs, i);
    }
  }

  /** The earliest position whose lower-case form is `w`, given some position that has it. */
  lemma {:induction false} EarliestWith(xs: seq<string>, w: string, j: nat) returns (i: nat)
    requires j < |xs| && Lower(xs[j]) == w
    ensures i <= j && Lower(xs[i]) == w
    ensures forall m :: 0 <= m < i ==> Lower(xs[m]) != w
    decreases j
  {
    if exists m :: 0 <= m < j && Lower(xs[m]) == w {
      var m :| 0 <= m < j && Lower(xs[m]) == w;
      i := EarliestWith(xs, w, m);
    } else {
      i := j;
    }
  }

  /** 'tag1, tag2, TAG1, tag2' keeps the first casing of each tag. */
  lemma DedupExample()
    ensures Dedup(["tag1", "tag2", "TAG1", "tag2"]) == ["tag1", "tag2"]
  {
    var xs := ["tag1", "tag2", "TAG1", "tag2"];
    assert Lower("TAG1") == "tag1";
    assert Lower("tag1") == "tag1";
    assert Lower("tag2") == "tag2";
    var p1, p2, p3 := xs[..1], xs[..2], xs[..3];
    assert p3[..2] == p2 && p2[..1] == p1 && p1[..0] == [];
    assert Dedup(p1) == ["tag1"] by { assert FirstSeen(p1, 0); }
    assert Dedup(p2) == ["tag1", "tag2"] by { assert FirstSeen(p2, 1); }
    assert Dedup(p3) == ["tag1", "tag2"] by {
      assert Lower(p3[0]) == Lower(p3[2]);
      assert !FirstSeen(p3, 2);
    }
    assert xs[..3] == p3;
    assert Lower(xs[1]) == Lower(xs[3]);
    assert !FirstSeen(xs, 3);
  }
}

=== FILE: dict.dfy ===
/**
 * A Python `dict` with string keys: the key/value map plus the order in
 * which keys were first inserted, which is the order `values()` walks.
 */
module Dicts {
  import opened Common
  import opened Seqs

  datatype Dict<V> = Dict(keys: seq<string>, entries: map<string, V>)

  /** Keys are listed once each, and exactly the mapped keys are listed. */
  ghost predicate Valid<V>(d: Dict<V>) {
    NoDuplicates(d.keys) && forall k :: k in d.entries <==> k in d.keys
  }

  function Empty<V>(): (d: Dict<V>)
    ensures Valid(d) && |d.keys| == 0
  {
    Dict([], map[])
  }

  /** `d.get(k)`. */
  function Get<V>(d: Dict<V>, k: string): (r: Option<V>)
    ensures r.Some? <==> k in d.entries
  {
    if k in d.entries then Some(d.entries[k]) else None
  }

  /** `d[k] = v`: a new key goes to the end; an existing key keeps its place. */
  function Put<V>(d: Dict<V>, k: string, v: V): (r: Dict<V>)
    requires Valid(d)
    ensures Valid(r)
    ensures Get(r, k) == Some(v)
    ensures forall j :: j != k ==> Get(r, j) == Get(d, j)
    ensures d.keys <= r.keys && |r.keys| <= |d.keys| + 1
  {
    if k in d.entries then Dict(d.keys, d.entries[k := v])
    else Dict(d.keys + [k], d.entries[k := v])
  }

  /** `del d[k]`, or nothing when `k` is absent. */
  function Remove<V>(d: Dict<V>, k: string): (r: Dict<V>)
    requires Valid(d)
    ensures Valid(r)
    ensures Get(r, k).None?
    ensures forall j :: j != k ==> Get(r, j) == Get(d, j)
    ensures IsSubseq(r.keys, d.keys)
    ensures |r.keys| == |d.keys| - (if k in d.entries then 1 else 0)
  {
    var keys := Filter(d.keys, j => j != k);
    FilterMembers(d.keys, j => j != k);
    FilterIsSubseq(d.keys, j => j != k);
    SubseqNoDuplicates(keys, d.keys);
    if k in d.entries then
      RemoveOne(d.keys, k);
      Dict(keys, d.entries - {k})
    else
      FilterAll(d.keys, j => j != k);
      Dict(keys, d.entries - {k})
  }

  /** `d.values()` in key order. */
  function Values<V>(d: Dict<V>): (r: seq<V>)
    requires Valid(d)
    ensures |r| == |d.keys|
    ensures forall i :: 0 <= i < |d.keys| ==> r[i] == d.entries[d.keys[i]]
  {
    seq(|d.keys|, i requires 0 <= i < |d.keys| => d.entries[d.keys[i]])
  }

  /** The values stored under `paths`, in that order. */
  function ValuesOf<V>(d: Dict<V>, paths: seq<string>): (r: seq<V>)
    requires forall i :: 0 <= i < |paths| ==> paths[i] in d.entries
    ensures |r| == |paths|
    ensures forall i :: 0 <= i < |paths| ==> r[i] == d.entries[paths[i]]
  {
    seq(|paths|, i requires 0 <= i < |paths| => d.entries[paths[i]])
  }

  lemma {:induction false} SubseqNoDuplicates<T>(a: seq<T>, b: seq<T>)
    requires IsSubseq(a, b) && NoDuplicates(b)
    ensures NoDuplicates(a)
    decreases |b|
  {
    if a != [] && b != [] {
      if a[0] == b[0] && IsSubseq(a[1..], b[1..]) {
        SubseqNoDuplicates(a[1..], b[1..]);
        SubseqMembers(a[1..], b[1..]);
        assert b[0] !in b[1..];
        forall i, j | 0 <= i < j < |a| ensures a[i] != a[j] {
          if i == 0 {
            assert a[j] == a[1..][j - 1];
            assert a[j] in b[1..];
          } else {
            assert a[i] == a[1..][i - 1] && a[j] == a[1..][j - 1];
          }
        }
      } else {
        SubseqNoDuplicates(a, b[1..]);
      }
    }
  }

  lemma {:induction false} SubseqMembers<T>(a: seq<T>, b: seq<T>)
    requires IsSubseq(a, b)
    ensures forall x :: x in a ==> x in b
    decreases |b|
  {
    if a != [] && b != [] {
      if a[0] == b[0] && IsSubseq(a[1..], b[1..]) {
        SubseqMembers(a[1..], b[1..]);
        assert a == [a[0]] + a[1..];
      } else {
        SubseqMembers(a, b[1..]);
      }
    }
  }

  /** Filtering out a key that occurs once shortens the list by one. */
  lemma {:induction false} RemoveOne(keys: seq<string>, k: string)
    requires NoDuplicates(keys) && k in keys
    ensures |Filter(keys, j => j != k)| == |keys| - 1
    decreases |keys|
  {
    if keys[0] == k {
      assert k !in keys[1..];
      FilterAll(keys[1..], j => j != k);
    } else {
      assert k in keys[1..];
      RemoveOne(keys[1..], k);
    }
  }
}

=== FILE: fields.dfy ===
/**
 * The single-valued fields of a metadata record: base model, description,
 * the numeric training and network fields, and the training resolution.
 * Each is a fallback chain over its key list.
 */
module Fields {
  import opened Common
  import opened Text
  import opened Seqs
  import opened Numbers
  import opened BaseModel
  import opened Metadata

  /** The chain shared by base model and description: `f` of the first non-empty value. */
  function FirstValue(raw: map<string, string>, keys: seq<string>, f: string -> string): (r: Option<string>)
    ensures r.None? <==> forall i :: 0 <= i < |keys| ==> !HasValue(raw, keys[i])
    ensures r.Some? ==> exists i :: 0 <= i < |keys| && HasValue(raw, keys[i])
                          && (forall j :: 0 <= j < i ==> !HasValue(raw, keys[j]))
                          && r.value == f(raw[keys[i]])
  {
    FirstSome(keys, k => if HasValue(raw, k) then Some(f(raw[k])) else None)
  }

  /** `_extract_base_model`: the normalised value of the first key holding a non-empty value. */
  function ExtractBaseModel(h: Header): (r: Option<string>)
    ensures r.None? <==> forall i :: 0 <= i < |BaseModelKeys| ==> !HasValue(h.raw, BaseModelKeys[i])
    ensures r.Some? ==> exists i :: 0 <= i < |BaseModelKeys| && HasValue(h.raw, BaseModelKeys[i])
                          && (forall j :: 0 <= j < i ==> !HasValue(h.raw, BaseModelKeys[j]))
                          && r.value == Normalize(h.raw[BaseModelKeys[i]])
  {
    FirstValue(h.raw, BaseModelKeys, Normalize)
  }

  /** `_extract_description`: the trimmed value of the first key holding a non-empty value. */
  function ExtractDescription(h: Header): (r: Option<string>)
    ensures r.None? <==> forall i :: 0 <= i < |DescriptionKeys| ==> !HasValue(h.raw, DescriptionKeys[i])
    ensures r.Some? ==> exists i :: 0 <= i < |DescriptionKeys| && HasValue(h.raw, DescriptionKeys[i])
                          && (forall j :: 0 <= j < i ==> !HasValue(h.raw, DescriptionKeys[j]))
                          && r.value == Strip(h.raw[DescriptionKeys[i]])
  {
    FirstValue(h.raw, DescriptionKeys, Strip)
  }

  /** The key is present but `float()` rejects its value, so the chain moves on. */
  predicate Unusable(raw: map<string, string>, key: string) {
    key !in raw || ParseFloat(raw[key]).None?
  }

  /** The value under `key` read as `int(float(v))`; `None` when it is absent or does not parse. */
  function IntAt(raw: map<string, string>, key: string): (r: Option<int>)
    ensures r.None? <==> Unusable(raw, key)
    ensures r.Some? ==> r == ParseIntTruncating(raw[key])
  {
    if key in raw then ParseIntTruncating(raw[key]) else None
  }

  /** The value under `key` read as `float(v)`; `None` when it is absent or does not parse. */
  function RealAt(raw: map<string, string>, key: string): (r: Option<real>)
    ensures r.None? <==> Unusable(raw, key)
    ensures r.Some? ==> r == ParseFloat(raw[key])
  {
    if key in raw then ParseFloat(raw[key]) else None
  }

  /**
   * `_extract_numeric_field(..., as_float=False)`: `int(float(v))` of the
   * first present key whose value parses; present but unparseable values,
   * including the empty string, fall through.
   */
  function ExtractInt(h: Header, keys: seq<string>): (r: Option<int>)
    ensures r.None? <==> forall i :: 0 <= i < |keys| ==> Unusable(h.raw, keys[i])
  {
    FirstSome(keys, k => IntAt(h.raw, k))
  }

  /** `_extract_numeric_field(..., as_float=True)`: `float(v)` of the first present key that parses. */
  function ExtractReal(h: Header, keys: seq<string>): (r: Option<real>)
    ensures r.None? <==> forall i :: 0 <= i < |keys| ==> Unusable(h.raw, keys[i])
  {
    FirstSome(keys, k => RealAt(h.raw, k))
  }

  /** The f-string `f"{res[0]}x{res[1]}"` for a decoded bucket, given its elements' text. */
  function BucketName(bucket: (string, string)): string {
    bucket.0 + "x" + bucket.1
  }

  /** The rendered name of every bucket key that decoded to a two-element list, in key order. */
  function BucketNames(buckets: seq<Option<(string, string)>>): (r: seq<string>)
    ensures forall x :: x in r <==> exists k :: Yields(buckets, BucketName, k, x)
    ensures r == [] <==> forall k :: 0 <= k < |buckets| ==> buckets[k].None?
  {
    CollectMembers(buckets, BucketName);
    Collect(buckets, BucketName)
  }

  /**
   * The `ss_bucket_info` branch: the distinct bucket names sorted as strings
   * and joined by ", "; `None` (fall through) when the value is not an object
   * or no bucket key decodes to a two-element list.
   */
  function BucketResolution(info: Option<seq<Option<(string, string)>>>): (r: Option<string>)
    ensures r.None? <==> info.None? || forall k :: 0 <= k < |info.value| ==> info.value[k].None?
    ensures r.Some? ==> exists items :: SortedSetOf(items, BucketNames(info.value)) && r.value == Join(items, ", ")
  {
    match info
    case None => None
    case Some(buckets) =>
      var names := BucketNames(buckets);
      if names == [] then None
      else
        assert SortedSetOf(SortedSet(names), names);
        Some(Join(SortedSet(names), ", "))
  }

  /**
   * A bucket key `"[512.0, 768]"` is a two-element list whose first element
   * Python prints as `512.0`, so it renders as "512.0x768" rather than being
   * skipped; a key that is not such a list adds nothing.
   */
  lemma FloatBucketExample(info: Option<seq<Option<(string, string)>>>)
    requires info == Some([Some(("512.0", "768")), None])
    ensures BucketResolution(info) == Some("512.0x768")
  {
    var buckets := info.value;
    assert BucketName(("512.0", "768")) == "512.0x768";
    assert Collect(buckets[1..], BucketName) == [] by {
      assert buckets[1..][1..] == [];
    }
    assert BucketNames(buckets) == ["512.0x768"];
    SortedSetSingle("512.0x768");
  }

  function ResolutionPick(h: Header, key: string): Option<string> {
    if !HasValue(h.raw, key) then None
    else if key == "ss_bucket_info" then BucketResolution(h.bucketInfo)
    else Some(Strip(h.raw[key]))
  }

  /**
   * `_extract_resolution`: `ss_resolution` trimmed; else the bucket summary;
   * else `resolution` trimmed. An absent or empty key, or a bucket value that
   * yields no two-element list, falls through to the next key.
   */
  function ExtractResolution(h: Header): (r: Option<string>)
    ensures HasValue(h.raw, "ss_resolution") ==> r == Some(Strip(h.raw["ss_resolution"]))
    ensures (!HasValue(h.raw, "ss_resolution") && HasValue(h.raw, "ss_bucket_info")
             && BucketResolution(h.bucketInfo).Some?)
            ==> r == BucketResolution(h.bucketInfo)
    ensures (!HasValue(h.raw, "ss_resolution")
             && (!HasValue(h.raw, "ss_bucket_info") || BucketResolution(h.bucketInfo).None?))
            ==> r == (if HasValue(h.raw, "resolution") then Some(Strip(h.raw["resolution"])) else None)
  {
    var pick := k => ResolutionPick(h, k);
    var r := FirstSome(ResolutionKeys, pick);
    if pick(ResolutionKeys[0]).Some? then
      FirstSomeAt(ResolutionKeys, pick, 0); r
    else if pick(ResolutionKeys[1]).Some? then
      FirstSomeAt(ResolutionKeys, pick, 1); r
    else if pick(ResolutionKeys[2]).Some? then
      FirstSomeAt(ResolutionKeys, pick, 2); r
    else r
  }

  /** The numeric chain takes key `i` when it is the first usable one. */
  lemma ExtractIntAt(h: Header, keys: seq<string>, i: nat)
    requires i < |keys| && !Unusable(h.raw, keys[i])
    requires forall j :: 0 <= j < i ==> Unusable(h.raw, keys[j])
    ensures ExtractInt(h, keys) == ParseIntTruncating(h.raw[keys[i]])
  {
    var pick := k => IntAt(h.raw, k);
    assert forall j :: 0 <= j < i ==> pick(keys[j]).None?;
    FirstSomeAt(keys, pick, i);
  }

  lemma ExtractRealAt(h: Header, keys: seq<string>, i: nat)
    requires i < |keys| && !Unusable(h.raw, keys[i])
    requires forall j :: 0 <= j < i ==> Unusable(h.raw, keys[j])
    ensures ExtractReal(h, keys) == ParseFloat(h.raw[keys[i]])
  {
    var pick := k => RealAt(h.raw, k);
    assert forall j :: 0 <= j < i ==> pick(keys[j]).None?;
    FirstSomeAt(keys, pick, i);
  }

  lemma Parse32(s: string)
    requires s == "32"
    ensures ParseFloat(s) == Some(32.0)
  {
    assert IntToString(32) == s;
    IntRoundTrip(32);
  }

  lemma Parse16Point0(s: string)
    requires s == "16.0"
    ensures ParseFloat(s) == Some(16.0)
  {
    assert s == "16" + "." + "0";
    ParsedAs(s, "16", "0");
    DecimalValue16();
  }

  lemma DecimalValue16()
    ensures DecimalValue(Decimal(false, "16", "0")) == 16.0
  {
    assert "16"[..1] == "1" && "1"[..0] == "" && "0"[..0] == "";
    assert DigitsValue("16") == 16 && DigitsValue("0") == 0;
  }

  lemma Parse7Point9(s: string)
    requires s == "7.9"
    ensures ParseFloat(s) == Some(7.9)
  {
    assert s == "7" + "." + "9";
    ParsedAs(s, "7", "9");
    DecimalValue79();
  }

  lemma DecimalValue79()
    ensures DecimalValue(Decimal(false, "7", "9")) == 7.9
  {
    assert "7"[..0] == "" && "9"[..0] == "";
    assert DigitsValue("7") == 7 && DigitsValue("9") == 9 && Pow10(1) == 10;
  }

  lemma ParsedAs(s: string, w: string, f: string)
    requires |w| >= 1 && AllDigits(w) && AllDigits(f) && s == w + "." + f
    ensures ParseFloat(s) == Some(DecimalValue(Decimal(false, w, f)))
  {
    ParsePointString(w, f);
  }

  lemma UsableValue(raw: map<string, string>, key: string, v: string)
    requires key in raw && raw[key] == v && ParseFloat(v).Some?
    ensures !Unusable(raw, key) && ParseFloat(raw[key]) == ParseFloat(v)
  {
  }

  lemma UnusableValue(raw: map<string, string>, key: string, v: string)
    requires key in raw && raw[key] == v && ParseFloat(v).None?
    ensures Unusable(raw, key)
  {
  }

  /** A typical trainer header: dimension "32" reads as 32 ... */
  lemma NetworkDimExample(h: Header)
    requires h.raw == map["ss_network_dim" := "32", "ss_network_alpha" := "16.0"]
    ensures ExtractInt(h, NetworkDimKeys) == Some(32)
  {
    assert "ss_network_dim" in h.raw && h.raw["ss_network_dim"] == "32";
    Parse32(h.raw["ss_network_dim"]);
    UsableValue(h.raw, "ss_network_dim", "32");
    assert NetworkDimKeys[0] == "ss_network_dim";
    ExtractIntAt(h, NetworkDimKeys, 0);
  }

  /** ... and alpha "16.0" reads as 16.0. */
  lemma NetworkAlphaExample(h: Header)
    requires h.raw == map["ss_network_dim" := "32", "ss_network_alpha" := "16.0"]
    ensures ExtractReal(h, NetworkAlphaKeys) == Some(16.0)
  {
    assert "ss_network_alpha" in h.raw && h.raw["ss_network_alpha"] == "16.0";
    Parse16Point0(h.raw["ss_network_alpha"]);
    UsableValue(h.raw, "ss_network_alpha", "16.0");
    assert NetworkAlphaKeys[0] == "ss_network_alpha";
    ExtractRealAt(h, NetworkAlphaKeys, 0);
  }

  lemma RejectsEmptyAndWord(empty: string, word: string)
    requires empty == "" && word == "ten"
    ensures ParseFloat(empty) == None && ParseFloat(word) == None
  {
    NoDigitsRejected(empty);
    assert !IsDigit(word[0]) && !IsDigit(word[1]) && !IsDigit(word[2]);
    NoDigitsRejected(word);
  }

  lemma EpochHeaderValues(raw: map<string, string>)
    requires raw == map["ss_epoch" := "", "ss_num_epochs" := "ten", "epochs" := "7.9"]
    ensures Unusable(raw, "ss_epoch") && Unusable(raw, "ss_num_epochs")
    ensures !Unusable(raw, "epochs") && ParseFloat(raw["epochs"]) == Some(7.9)
  {
    RejectsEmptyAndWord(raw["ss_epoch"], raw["ss_num_epochs"]);
    Parse7Point9(raw["epochs"]);
  }

  lemma EpochHeaderFacts(raw: map<string, string>, keys: seq<string>)
    requires keys == EpochKeys
    requires raw == map["ss_epoch" := "", "ss_num_epochs" := "ten", "epochs" := "7.9"]
    ensures |keys| == 3 && IntAt(raw, keys[0]).None? && IntAt(raw, keys[1]).None?
    ensures IntAt(raw, keys[2]) == Some(7)
  {
    EpochKeyNames(keys);
    EpochHeaderValues(raw);
    TruncatedAt(raw, keys[2]);
  }

  lemma EpochKeyNames(keys: seq<string>)
    requires keys == EpochKeys
    ensures |keys| == 3 && keys[0] == "ss_epoch" && keys[1] == "ss_num_epochs" && keys[2] == "epochs"
  {
  }

  /** A usable value reading as 7.9 gives the integer 7. */
  lemma TruncatedAt(raw: map<string, string>, key: string)
    requires !Unusable(raw, key) && ParseFloat(raw[key]) == Some(7.9)
    ensures IntAt(raw, key) == Some(7)
  {
    TruncateSevenPointNine();
  }

  lemma TruncateSevenPointNine()
    ensures TruncateTowardZero(7.9) == 7
  {
  }

  /** An empty and an unparseable value both fall through; "7.9" truncates to 7. */
  lemma EpochFallthroughExample(h: Header, keys: seq<string>)
    requires keys == EpochKeys
    requires h.raw == map["ss_epoch" := "", "ss_num_epochs" := "ten", "epochs" := "7.9"]
    ensures ExtractInt(h, keys) == Some(7)
  {
    EpochHeaderFacts(h.raw, keys);
    ChainThird(h, keys);
  }

  /** With its first two keys unusable, a three-key chain reads the third. */
  lemma ChainThird(h: Header, keys: seq<string>)
    requires |keys| == 3 && IntAt(h.raw, keys[0]).None? && IntAt(h.raw, keys[1]).None? && IntAt(h.raw, keys[2]).Some?
    ensures ExtractInt(h, keys) == IntAt(h.raw, keys[2])
  {
    ThirdPicked(keys, k => IntAt(h.raw, k));
  }
}

=== FILE: library.dfy ===
/**
 * The helpers the library page uses on the scanner's index: the listing
 * with fallbacks sorted by file name, the distinct base models, the trigger
 * words of a file, and the text/base-model search.
 */
module Library {
  import opened Common
  import opened Text
  import opened Seqs
  import opened Dicts
  import opened Records
  import opened Scanner

  /** The fallbacks `get_all_library_data` applies: 'Unknown' for a missing base model, '' for a missing description. */
  function WithFallbacks(rec: Record): (r: Record)
    ensures r.baseModel.Some? && r.baseModel.value != "" && r.description.Some?
    ensures rec.baseModel.Some? && rec.baseModel.value != "" ==> r.baseModel == rec.baseModel
    ensures rec.description.Some? ==> r.description == rec.description
    ensures !(rec.baseModel.Some? && rec.baseModel.value != "") ==> r.baseModel == Some("Unknown")
    ensures rec.description.None? ==> r.description == Some("")
    ensures r.(baseModel := rec.baseModel, description := rec.description) == rec
  {
    var baseModel := if rec.baseModel.Some? && rec.baseModel.value != "" then rec.baseModel else Some("Unknown");
    var description := if rec.description.Some? && rec.description.value != "" then rec.description else Some("");
    rec.(baseModel := baseModel, description := description)
  }

  /** The sort key of the listing: file names compared after lower-casing. */
  predicate FilenameLe(a: Record, b: Record) {
    StrLe(Lower(a.filename), Lower(b.filename))
  }

  lemma FilenameLeIsTotalPreorder()
    ensures TotalPreorder(FilenameLe)
  {
    forall a, b ensures FilenameLe(a, b) || FilenameLe(b, a) {
      StrLeTotal(Lower(a.filename), Lower(b.filename));
    }
    forall a, b, c | FilenameLe(a, b) && FilenameLe(b, c) ensures FilenameLe(a, c) {
      StrLeTransitive(Lower(a.filename), Lower(b.filename), Lower(c.filename));
    }
  }

  function Processed(records: seq<Record>): (r: seq<Record>)
    ensures |r| == |records|
    ensures forall i :: 0 <= i < |records| ==> r[i] == WithFallbacks(records[i])
  {
    seq(|records|, i requires 0 <= i < |records| => WithFallbacks(records[i]))
  }

  /**
   * `get_all_library_data`: every indexed record with its fallbacks, ordered
   * by lower-cased file name; the sort is stable, so records whose names
   * compare equal stay in index order.
   */
  function AllLibraryData(s: State): (r: seq<Record>)
    requires Inv(s)
    ensures multiset(r) == multiset(Processed(Values(s.index)))
    ensures Sorted(r, FilenameLe)
    ensures forall i :: 0 <= i < |r| ==> r[i].baseModel.Some? && r[i].baseModel.value != "" && r[i].description.Some?
  {
    var processed := Processed(Values(s.index));
    FilenameLeIsTotalPreorder();
    SortSorted(processed, FilenameLe);
    var r := SortBy(processed, FilenameLe);
    forall i | 0 <= i < |r| ensures r[i].baseModel.Some? && r[i].baseModel.value != "" && r[i].description.Some? {
      assert r[i] in multiset(processed);
      var j :| 0 <= j < |processed| && processed[j] == r[i];
    }
    r
  }

  /** Records whose names compare equal keep their index order in the listing. */
  lemma LibraryStable(s: State, k: Record)
    requires Inv(s)
    ensures Filter(AllLibraryData(s), EquivTo(FilenameLe, k)) == Filter(Processed(Values(s.index)), EquivTo(FilenameLe, k))
  {
    FilenameLeIsTotalPreorder();
    SortStable(Processed(Values(s.index)), FilenameLe, k);
  }

  /** The non-empty base models of the records, in record order. */
  function ModelNames(records: seq<Record>): (r: seq<string>)
    ensures forall m :: m in r <==> exists i :: 0 <= i < |records| && records[i].baseModel == Some(m) && m != ""
    decreases |records|
  {
    if records == [] then []
    else
      var rest := ModelNames(records[1..]);
      assert forall m :: (exists i :: 1 <= i < |records| && records[i].baseModel == Some(m) && m != "")
                         <==> (exists i :: 0 <= i < |records[1..]| && records[1..][i].baseModel == Some(m) && m != "") by {
        forall m | exists i :: 1 <= i < |records| && records[i].baseModel == Some(m) && m != ""
          ensures exists i :: 0 <= i < |records[1..]| && records[1..][i].baseModel == Some(m) && m != ""
        {
          var i :| 1 <= i < |records| && records[i].baseModel == Some(m) && m != "";
          assert records[1..][i - 1] == records[i];
        }
      }
      var head := records[0].baseModel;
      if head.Some? && head.value != "" then [head.value] + rest else rest
  }

  /**
   * `get_distinct_base_models`: each non-empty base model once, in string
   * order, except that 'Unknown' is moved to the end.
   */
  function DistinctBaseModels(s: State): (r: seq<string>)
    requires Inv(s)
    ensures forall m :: m in r <==> m in ModelNames(Values(s.index))
    ensures NoDuplicates(r)
    ensures "Unknown" in r ==> r[|r| - 1] == "Unknown"
    ensures forall i, j :: 0 <= i < j < |r| && r[j] != "Unknown" ==> StrLe(r[i], r[j]) && r[i] != r[j]
  {
    UnknownLast(SortedSet(ModelNames(Values(s.index))))
  }

  /** Every model name other than 'Unknown'. */
  predicate Known(m: string) { m != "Unknown" }

  /** A strictly sorted list with 'Unknown', if present, moved to the end. */
  function UnknownLast(sorted: seq<string>): (r: seq<string>)
    requires StrictlySorted(sorted)
    ensures forall m :: m in r <==> m in sorted
    ensures NoDuplicates(r)
    ensures "Unknown" in r ==> r[|r| - 1] == "Unknown"
    ensures forall i, j :: 0 <= i < j < |r| && r[j] != "Unknown" ==> StrLe(r[i], r[j]) && r[i] != r[j]
  {
    if "Unknown" in sorted then
      var known := Filter(sorted, Known);
      FilterMembers(sorted, Known);
      FilterStrictlySorted(sorted, Known);
      AppendUnknown(known);
      known + ["Unknown"]
    else
      sorted
  }

  /** Appending 'Unknown' to a strictly sorted list without it. */
  lemma AppendUnknown(known: seq<string>)
    requires StrictlySorted(known) && "Unknown" !in known
    ensures NoDuplicates(known + ["Unknown"])
    ensures forall i, j :: 0 <= i < j < |known| + 1 && (known + ["Unknown"])[j] != "Unknown" ==>
              StrLe((known + ["Unknown"])[i], (known + ["Unknown"])[j]) && (known + ["Unknown"])[i] != (known + ["Unknown"])[j]
  {
    assert forall i :: 0 <= i < |known| ==> known[i] in known;
  }

  /** `get_trigger_words_for_filename`: the trigger words of the first record stored under that file name, or none. */
  function TriggerWordsForFilename(s: State, filename: string): (r: seq<string>)
    requires Inv(s)
    ensures (forall rec :: !StoredAs(s, filename, rec)) ==> r == []
    ensures forall i :: FirstNamed(s, filename, i) ==> r == s.index.entries[s.index.keys[i]].triggerWords
    ensures r != [] ==> exists rec :: StoredAs(s, filename, rec) && rec.triggerWords == r
  {
    var found := ByFilename(s, filename);
    if found != [] then
      assert found[0] in found;
      found[0].triggerWords
    else []
  }

  /** The lower-cased text `search_library` matches a query against. */
  function SearchText(rec: Record): string {
    Lower(Join([rec.filename, rec.baseModel.GetOr(""), rec.description.GetOr(""),
                Join(rec.triggerWords, " "), Join(rec.characters, " "), Join(rec.styles, " ")], " "))
  }

  /** The filter of `search_library` for one record, `q` already lower-cased and trimmed. */
  predicate LibraryMatches(rec: Record, q: string, baseModelFilter: string) {
    && (baseModelFilter == "" || rec.baseModel == Some(baseModelFilter))
    && (q == "" || Contains(SearchText(rec), q))
  }

  /** The filter of `search_library` as a predicate on records. */
  function Matcher(q: string, baseModelFilter: string): Record -> bool {
    rec => LibraryMatches(rec, q, baseModelFilter)
  }

  /** `search_library`: the library listing, in its order, narrowed by base model and query. */
  function SearchLibrary(s: State, query: string, baseModelFilter: string): (r: seq<Record>)
    requires Inv(s)
    ensures forall rec :: rec in r <==> rec in AllLibraryData(s) && LibraryMatches(rec, Strip(Lower(query)), baseModelFilter)
    ensures IsSubseq(r, AllLibraryData(s))
    ensures baseModelFilter != "" ==> forall i :: 0 <= i < |r| ==> r[i].baseModel == Some(baseModelFilter)
    ensures forall rec :: multiset(r)[rec] == (if LibraryMatches(rec, Strip(Lower(query)), baseModelFilter)
                                               then multiset(AllLibraryData(s))[rec] else 0)
  {
    var q := Strip(Lower(query));
    var all := AllLibraryData(s);
    MatcherFacts(all, q, baseModelFilter);
    Filter(all, Matcher(q, baseModelFilter))
  }

  lemma MatcherFacts(all: seq<Record>, q: string, baseModelFilter: string)
    ensures var r := Filter(all, Matcher(q, baseModelFilter));
      && (forall rec :: rec in r <==> rec in all && LibraryMatches(rec, q, baseModelFilter))
      && IsSubseq(r, all)
      && (baseModelFilter != "" ==> forall i :: 0 <= i < |r| ==> r[i].baseModel == Some(baseModelFilter))
      && (forall rec :: multiset(r)[rec] == (if LibraryMatches(rec, q, baseModelFilter) then multiset(all)[rec] else 0))
  {
    var r := Filter(all, Matcher(q, baseModelFilter));
    FilterMembers(all, Matcher(q, baseModelFilter));
    FilterIsSubseq(all, Matcher(q, baseModelFilter));
    FilterCounts(all, Matcher(q, baseModelFilter));
    assert forall i :: 0 <= i < |r| ==> r[i] in r;
  }

  /** With no query and no base-model filter the search returns the whole listing. */
  lemma SearchBlank(s: State, query: string)
    requires Inv(s)
    requires Strip(Lower(query)) == ""
    ensures SearchLibrary(s, query, "") == AllLibraryData(s)
  {
    FilterAll(AllLibraryData(s), Matcher(Strip(Lower(query)), ""));
  }

  /** The search ignores the case of the query. */
  lemma SearchIgnoresCase(s: State, query: string, baseModelFilter: string)
    requires Inv(s)
    ensures SearchLibrary(s, query, baseModelFilter) == SearchLibrary(s, Lower(query), baseModelFilter)
  {
    LowerIdempotent(query);
  }

  /** A query found in a record's file name, ignoring case, selects the record. */
  lemma FilenameHit(rec: Record, q: string)
    requires Contains(Lower(rec.filename), q)
    ensures Contains(SearchText(rec), q)
  {
    var parts := [rec.filename, rec.baseModel.GetOr(""), rec.description.GetOr(""),
                  Join(rec.triggerWords, " "), Join(rec.characters, " "), Join(rec.styles, " ")];
    var rest := " " + Join(parts[1..], " ");
    assert Join(parts, " ") == rec.filename + rest;
    LowerConcat(rec.filename, rest);
    var text := SearchText(rec);
    assert text[0..|rec.filename|] == Lower(rec.filename);
    ContainsInfix(text, 0, |rec.filename|, q);
  }
}

=== FILE: metadata.dfy ===
/**
 * The header of a LoRA file as the extractors see it, the key-priority lists
 * for each field, and the fallback chain they all share: walk the keys in
 * order and take the first one that yields a value.
 */
module Metadata {
  import opened Common

  /** A tag-frequency count: a JSON number ranks by its value, anything else ranks as 0. */
  datatype Count = Number(value: real) | NotNumber

  datatype TagEntry = TagEntry(tag: string, count: Count)

  /** One dataset of the decoded `ss_tag_frequency` object; `NotTags` when its value is not an object. */
  datatype TagGroup = Tags(entries: seq<TagEntry>) | NotTags

  /**
   * The string-to-string metadata map of a safetensors header, plus the
   * decoded form of its three JSON-bearing values. A decoded field is `None`
   * when the value is not valid JSON or not a JSON object; it is consulted
   * only when the raw map holds a non-empty string under that key.
   *  - `tagFrequency`: the datasets of `ss_tag_frequency`, in object order;
   *  - `datasetDirs`: the keys of `ss_dataset_dirs`, in object order;
   *  - `bucketInfo`: the keys of `ss_bucket_info["buckets"]`, each decoded
   *    as a two-element JSON list and given as the Python text of its two
   *    elements (`"512"`, `"512.0"`, ...), or `None` when it is not such a list.
   */
  datatype Header = Header(
    raw: map<string, string>,
    tagFrequency: Option<seq<TagGroup>>,
    datasetDirs: Option<seq<string>>,
    bucketInfo: Option<seq<Option<(string, string)>>>)

  const BaseModelKeys: seq<string> :=
    ["ss_base_model_version", "base_model", "ss_sd_model_name", "modelspec.architecture", "sd_model_name"]
  const TriggerKeys: seq<string> :=
    ["ss_tag_frequency", "trigger_words", "activation_text", "ss_dataset_dirs"]
  const DescriptionKeys: seq<string> :=
    ["ss_training_comment", "description", "modelspec.description", "ss_output_name"]
  const EpochKeys: seq<string> := ["ss_epoch", "ss_num_epochs", "epochs"]
  const StepKeys: seq<string> := ["ss_steps", "ss_max_train_steps", "steps"]
  const ResolutionKeys: seq<string> := ["ss_resolution", "ss_bucket_info", "resolution"]
  const NetworkDimKeys: seq<string> := ["ss_network_dim", "network_dim", "lora_network_dim"]
  const NetworkAlphaKeys: seq<string> := ["ss_network_alpha", "network_alpha", "lora_network_alpha"]
  const CharacterKeys: seq<string> := ["ss_character", "character", "characters"]
  const StyleKeys: seq<string> := ["ss_style", "style", "styles", "art_style"]

  /** The key is present with a truthy (non-empty) value. */
  predicate HasValue(raw: map<string, string>, key: string) {
    key in raw && raw[key] != ""
  }

  /**
   * The fallback chain: the value of the first key, in order, for which
   * `pick` yields one; `None` when no key does.
   */
  function FirstSome<T>(keys: seq<string>, pick: string -> Option<T>): (r: Option<T>)
    ensures r.Some? ==> exists i :: 0 <= i < |keys| && pick(keys[i]) == r
                          && forall j :: 0 <= j < i ==> pick(keys[j]).None?
    ensures r.None? ==> forall i :: 0 <= i < |keys| ==> pick(keys[i]).None?
  {
    if keys == [] then None
    else if pick(keys[0]).Some? then pick(keys[0])
    else
      var rest := FirstSome(keys[1..], pick);
      assert rest.Some? ==> exists i :: 1 <= i < |keys| && pick(keys[i]) == rest
                              && forall j :: 0 <= j < i ==> pick(keys[j]).None? by {
        if rest.Some? {
          var i :| 0 <= i < |keys[1..]| && pick(keys[1..][i]) == rest
                   && forall j :: 0 <= j < i ==> pick(keys[1..][j]).None?;
          assert pick(keys[i + 1]) == rest;
          assert forall j :: 0 <= j < i + 1 ==> pick(keys[j]).None? by {
            forall j | 0 <= j < i + 1 ensures pick(keys[j]).None? {
              if j > 0 { assert keys[j] == keys[1..][j - 1]; }
            }
          }
        }
      }
      rest
  }

  /** The chain picks key `i` exactly when it yields a value and no earlier key does. */
  lemma FirstSomeAt<T>(keys: seq<string>, pick: string -> Option<T>, i: nat)
    requires i < |keys| && pick(keys[i]).Some?
    requires forall j :: 0 <= j < i ==> pick(keys[j]).None?
    ensures FirstSome(keys, pick) == pick(keys[i])
  {
    var r := FirstSome(keys, pick);
    if r.Some? {
      var i' :| 0 <= i' < |keys| && pick(keys[i']) == r && forall j :: 0 <= j < i' ==> pick(keys[j]).None?;
      assert i' == i by {
        assert !(i' < i) by { assert pick(keys[i']).Some?; }
        assert !(i < i') by { assert pick(keys[i]).Some?; }
      }
    }
  }

  /** A three-key chain whose first two keys yield nothing reads the third. */
  lemma ThirdPicked<T>(keys: seq<string>, pick: string -> Option<T>)
    requires |keys| == 3 && pick(keys[0]).None? && pick(keys[1]).None? && pick(keys[2]).Some?
    ensures FirstSome(keys, pick) == pick(keys[2])
  {
    assert forall j :: 0 <= j < 2 ==> pick(keys[j]).None?;
    FirstSomeAt(keys, pick, 2);
  }
}

=== FILE: numbers.dfy ===
/**
 * Decimal numbers as the metadata header carries them: Python's `float(value)`
 * restricted to plain decimal literals, `int(float(value))`, and `str(n)` for
 * integers (used when rendering bucket resolutions and card counters).
 */
module Numbers {
  import opened Common
  import opened Text

  predicate AllDigits(s: string) {
    forall k :: 0 <= k < |s| ==> IsDigit(s[k])
  }

  function DigitValue(c: char): nat
    requires IsDigit(c)
  {
    c as int - '0' as int
  }

  function DigitChar(d: nat): (c: char)
    requires d < 10
    ensures IsDigit(c) && DigitValue(c) == d
  {
    ('0' as int + d) as char
  }

  /** The value of a string of decimal digits (0 for the empty string). */
  function DigitsValue(s: string): nat
    requires AllDigits(s)
    decreases |s|
  {
    if s == [] then 0 else DigitsValue(s[..|s| - 1]) * 10 + DigitValue(s[|s| - 1])
  }

  function Pow10(n: nat): (p: nat)
    ensures p >= 1
  {
    if n == 0 then 1 else 10 * Pow10(n - 1)
  }

  lemma {:induction false} DigitsValueBound(s: string)
    requires AllDigits(s)
    ensures DigitsValue(s) < Pow10(|s|)
    decreases |s|
  {
    if s != [] {
      var init := s[..|s| - 1];
      DigitsValueBound(init);
      assert DigitsValue(init) + 1 <= Pow10(|init|);
      assert DigitsValue(init) * 10 + 10 <= Pow10(|init|) * 10;
    }
  }

  /** Python's `str(n)` for a natural number. */
  function NatToString(n: nat): (r: string)
    ensures |r| >= 1 && AllDigits(r)
    ensures r[0] == '0' <==> n == 0
    ensures |r| == 1 || r[0] != '0'
    decreases n
  {
    if n < 10 then [DigitChar(n)] else NatToString(n / 10) + [DigitChar(n % 10)]
  }

  /** Python's `str(i)` for an integer. */
  function IntToString(i: int): (r: string)
    ensures |r| >= 1
  {
    if i < 0 then "-" + NatToString(-i) else NatToString(i)
  }

  lemma {:induction false} NatToStringValue(n: nat)
    ensures DigitsValue(NatToString(n)) == n
    decreases n
  {
    var r := NatToString(n);
    if n >= 10 {
      NatToStringValue(n / 10);
      assert r[..|r| - 1] == NatToString(n / 10);
    }
  }

  /** A decimal literal: sign, integer digits and fraction digits. */
  datatype Decimal = Decimal(negative: bool, whole: string, fraction: string) {
    predicate Valid() {
      AllDigits(whole) && AllDigits(fraction) && |whole| + |fraction| >= 1
    }
  }

  /** The text after an optional leading '+' or '-'. */
  function Unsigned(t: string): (r: string)
    ensures r == t || (t != [] && r == t[1..])
  {
    if t != [] && (t[0] == '-' || t[0] == '+') then t[1..] else t
  }

  /**
   * Digits with at most one '.' and at least one digit, split into the
   * digits before and after the point; `None` for anything else.
   */
  function SplitPoint(body: string): (r: Option<(string, string)>)
    ensures r.Some? ==> AllDigits(r.value.0) && AllDigits(r.value.1) && |r.value.0| + |r.value.1| >= 1
  {
    match LastIndexOf(body, '.')
    case None =>
      if body != [] && AllDigits(body) then Some((body, "")) else None
    case Some(i) =>
      var whole := body[..i];
      var fraction := body[i + 1..];
      if AllDigits(whole) && AllDigits(fraction) && |whole| + |fraction| >= 1
      then Some((whole, fraction))
      else None
  }

  /**
   * Python's `float(s)` on plain decimal literals: surrounding whitespace,
   * an optional sign, digits with at most one '.', at least one digit.
   */
  function ParseDecimal(s: string): (r: Option<Decimal>)
    ensures r.Some? ==> r.value.Valid()
  {
    var t := Strip(s);
    match SplitPoint(Unsigned(t))
    case None => None
    case Some(parts) => Some(Decimal(t != [] && t[0] == '-', parts.0, parts.1))
  }

  function DecimalValue(d: Decimal): real
    requires d.Valid()
  {
    var magnitude := DigitsValue(d.whole) as real
      + DigitsValue(d.fraction) as real / Pow10(|d.fraction|) as real;
    if d.negative then -magnitude else magnitude
  }

  /** Python's `int(x)` on a float: truncation toward zero. */
  function TruncateTowardZero(x: real): int {
    if x >= 0.0 then x.Floor else -((-x).Floor)
  }

  /** `float(value)` as an exact real; `None` where Python raises `ValueError`. */
  function ParseFloat(s: string): Option<real> {
    match ParseDecimal(s)
    case None => None
    case Some(d) => Some(DecimalValue(d))
  }

  /** The integer digits of a literal, with its sign. */
  function WholePart(d: Decimal): int
    requires d.Valid()
  {
    var w: int := DigitsValue(d.whole);
    if d.negative then -w else w
  }

  /**
   * `int(float(value))`: the integer digits with their sign, which is the
   * truncation toward zero of the parsed float.
   */
  function ParseIntTruncating(s: string): (r: Option<int>)
    ensures r.None? <==> ParseFloat(s).None?
    ensures r.Some? ==> r.value == TruncateTowardZero(ParseFloat(s).value)
  {
    match ParseDecimal(s)
    case None => None
    case Some(d) =>
      TruncationDropsFraction(d);
      Some(WholePart(d))
  }

  lemma FractionBelowOne(a: nat, b: nat)
    requires a < b
    ensures 0.0 <= a as real / b as real < 1.0
  {
  }

  lemma FloorOfWholePlusFraction(w: nat, f: real)
    requires 0.0 <= f < 1.0
    ensures (w as real + f).Floor == w
  {
  }

  lemma TruncationDropsFraction(d: Decimal)
    requires d.Valid()
    ensures TruncateTowardZero(DecimalValue(d)) == WholePart(d)
  {
    var w := DigitsValue(d.whole);
    var p := Pow10(|d.fraction|);
    DigitsValueBound(d.fraction);
    FractionBelowOne(DigitsValue(d.fraction), p);
    var f := DigitsValue(d.fraction) as real / p as real;
    FloorOfWholePlusFraction(w, f);
  }

  lemma DigitsHaveNoDot(digits: string)
    requires AllDigits(digits)
    ensures LastIndexOf(digits, '.') == None
  {
    assert '.' !in digits by {
      assert forall k :: 0 <= k < |digits| ==> digits[k] != '.';
    }
  }

  /** A digit string has no '.', so it splits into itself and an empty fraction. */
  lemma DigitsSplit(t: string)
    requires |t| >= 1 && AllDigits(t)
    ensures SplitPoint(t) == Some((t, ""))
  {
    DigitsHaveNoDot(t);
  }

  lemma PointStringStrip(w: string, f: string)
    requires |w| >= 1 && AllDigits(w) && AllDigits(f)
    ensures Strip(w + "." + f) == w + "." + f
  {
    var t := w + "." + f;
    assert t[0] == w[0];
    assert !IsSpace(t[|t| - 1]) by {
      if f == [] {
        assert t[|t| - 1] == '.';
      } else {
        assert t[|t| - 1] == f[|f| - 1];
      }
    }
    StripByKeeps(t, IsSpace);
  }

  lemma PointStringDot(w: string, f: string)
    requires AllDigits(f)
    ensures LastIndexOf(w + "." + f, '.') == Some(|w|)
  {
    var u := w + ".";
    var t := u + f;
    assert |u| == |w| + 1 && u[|w|] == '.';
    assert t[|w|] == '.';
    forall k | |u| <= k < |t|
      ensures t[k] != '.'
    {
      var m := k - |u|;
      assert t[k] == f[m];
      assert IsDigit(f[m]);
    }
    LastIndexOfIs(t, '.', |w|);
  }

  /** "<digits>.<digits>" parses to its whole and fractional digits. */
  lemma ParsePointString(w: string, f: string)
    requires |w| >= 1 && AllDigits(w) && AllDigits(f)
    ensures ParseDecimal(w + "." + f) == Some(Decimal(false, w, f))
  {
    var t := w + "." + f;
    PointStringStrip(w, f);
    assert t[0] == w[0] && IsDigit(t[0]);
    assert Unsigned(t) == t;
    PointSplit(w, f);
  }

  lemma PointSplit(w: string, f: string)
    requires |w| >= 1 && AllDigits(w) && AllDigits(f)
    ensures SplitPoint(w + "." + f) == Some((w, f))
  {
    var t := w + "." + f;
    PointStringDot(w, f);
    assert t[..|w|] == w;
    assert t[|w| + 1..] == f;
  }

  /** At least one digit in the string. */
  predicate HasDigit(s: string) {
    exists k :: 0 <= k < |s| && IsDigit(s[k])
  }

  lemma SplitNeedsDigit(body: string)
    ensures SplitPoint(body).Some? ==> HasDigit(body)
  {
    match LastIndexOf(body, '.')
    case None =>
      if body != [] && AllDigits(body) {
        assert IsDigit(body[0]);
      }
    case Some(i) =>
      var whole := body[..i];
      var fraction := body[i + 1..];
      if whole != [] && AllDigits(whole) {
        assert IsDigit(body[0]) by { assert whole[0] == body[0]; }
      } else if fraction != [] && AllDigits(fraction) {
        assert IsDigit(body[i + 1]) by { assert fraction[0] == body[i + 1]; }
      }
  }

  lemma UnsignedKeepsDigit(t: string)
    ensures HasDigit(Unsigned(t)) ==> HasDigit(t)
  {
    var u := Unsigned(t);
    if HasDigit(u) && u != t {
      var k :| 0 <= k < |u| && IsDigit(u[k]);
      assert u[k] == t[k + 1];
    }
  }

  lemma SliceKeepsDigit(s: string, i: nat, j: nat)
    requires i <= j <= |s|
    ensures HasDigit(s[i..j]) ==> HasDigit(s)
  {
    if HasDigit(s[i..j]) {
      var k :| 0 <= k < j - i && IsDigit(s[i..j][k]);
      assert s[i..j][k] == s[i + k];
    }
  }

  lemma StripKeepsDigit(s: string)
    ensures HasDigit(Strip(s)) ==> HasDigit(s)
  {
    var i, j :| 0 <= i <= j <= |s| && Strip(s) == s[i..j];
    SliceKeepsDigit(s, i, j);
  }

  /** A value without a single digit is never a number: `float()` rejects it. */
  lemma NoDigitsRejected(s: string)
    requires forall k :: 0 <= k < |s| ==> !IsDigit(s[k])
    ensures ParseFloat(s) == None
  {
    var t := Strip(s);
    assert !HasDigit(s);
    StripKeepsDigit(s);
    UnsignedKeepsDigit(t);
    SplitNeedsDigit(Unsigned(t));
  }

  /** The decimal literal `str(n)` spells. */
  function IntDecimal(n: int): (d: Decimal)
    ensures d.Valid()
  {
    Decimal(n < 0, NatToString(if n < 0 then -n else n), "")
  }

  /** `str(n)` has no surrounding whitespace. */
  lemma IntStringStripped(n: int)
    ensures Strip(IntToString(n)) == IntToString(n)
  {
    var t := IntToString(n);
    var digits := NatToString(if n < 0 then -n else n);
    assert t[|t| - 1] == digits[|digits| - 1];
    assert IsDigit(t[|t| - 1]);
    assert t[0] == '-' || IsDigit(t[0]);
    StripByKeeps(t, IsSpace);
  }

  /** Dropping the sign of `str(n)` leaves the digits of its magnitude. */
  lemma IntStringUnsigned(n: int)
    ensures IntToString(n) != [] && (IntToString(n)[0] == '-' <==> n < 0)
    ensures Unsigned(IntToString(n)) == NatToString(if n < 0 then -n else n)
  {
    var digits := NatToString(if n < 0 then -n else n);
    assert IsDigit(digits[0]);
    if n < 0 {
      assert ("-" + digits)[1..] == digits;
    }
  }

  lemma ParseIntString(n: int)
    ensures ParseDecimal(IntToString(n)) == Some(IntDecimal(n))
  {
    IntStringStripped(n);
    IntStringUnsigned(n);
    DigitsSplit(NatToString(if n < 0 then -n else n));
  }

  lemma IntDecimalValue(n: int)
    ensures WholePart(IntDecimal(n)) == n && DecimalValue(IntDecimal(n)) == n as real
  {
    NatToStringValue(if n < 0 then -n else n);
    assert Pow10(0) == 1;
  }

  /** Rendering an integer and parsing it back gives the integer. */
  lemma IntRoundTrip(n: int)
    ensures ParseIntTruncating(IntToString(n)) == Some(n)
    ensures ParseFloat(IntToString(n)) == Some(n as real)
  {
    ParseIntString(n);
    IntDecimalValue(n);
  }
}

=== FILE: presets.dfy ===
/**
 * LoRA presets: a name is sanitised into a file name, and the preset
 * directory is an ordered map from sanitised names to the decoded contents
 * of their JSON files. Saving, loading, listing, deleting and inspecting are
 * operations on that map; the file system's own failures are not modelled.
 */
module Presets {
  import opened Common
  import opened Text
  import opened Seqs
  import opened Dicts

  /** The nine characters replaced in preset names: \ / : * ? " < > | */
  predicate InvalidChar(c: char) {
    c == '\\' || c == '/' || c == ':' || c == '*' || c == '?' || c == '"' || c == '<' || c == '>' || c == '|'
  }

  /** The characters stripped from both ends: '.' and ' '. */
  predicate EdgeChar(c: char) { c == '.' || c == ' ' }

  const UnnamedPreset: string := "unnamed_preset"

  /** One character of `re.sub(r'[\\/:*?"<>|]', '_', name)`. */
  function Safe(c: char): (d: char)
    ensures !InvalidChar(d)
    ensures EdgeChar(d) <==> EdgeChar(c)
    ensures d == c || d == '_'
  {
    if InvalidChar(c) then '_' else c
  }

  /** Every invalid character replaced by '_', every other one kept. */
  function ReplaceInvalid(name: string): (r: string)
    ensures |r| == |name|
    ensures forall k :: 0 <= k < |r| ==> r[k] == Safe(name[k])
  {
    seq(|name|, k requires 0 <= k < |name| => Safe(name[k]))
  }

  /** The invalid characters replaced, then dots and spaces stripped from both ends. */
  function Stripped(name: string): (r: string)
    ensures r == [] || (!EdgeChar(r[0]) && !EdgeChar(r[|r| - 1]))
  {
    StripBy(ReplaceInvalid(name), EdgeChar)
  }

  /** The stripped name is a slice of the replaced name with only dots and spaces outside it. */
  lemma StrippedSlice(name: string) returns (i: nat, j: nat)
    ensures i <= j <= |name| && Stripped(name) == ReplaceInvalid(name)[i..j]
    ensures forall k :: 0 <= k < i ==> EdgeChar(name[k])
    ensures forall k :: j <= k < |name| ==> EdgeChar(name[k])
    ensures forall k :: 0 <= k < |Stripped(name)| ==> !InvalidChar(Stripped(name)[k])
  {
    var replaced := ReplaceInvalid(name);
    i, j := StripBounds(replaced, EdgeChar);
    EdgeTransfer(name, replaced, i, j);
    SliceClean(replaced, i, j);
  }

  /** Replacing keeps every character's membership in the edge set. */
  lemma EdgeTransfer(name: string, replaced: string, i: nat, j: nat)
    requires replaced == ReplaceInvalid(name) && i <= j <= |name|
    requires forall k :: 0 <= k < i ==> EdgeChar(replaced[k])
    requires forall k :: j <= k < |replaced| ==> EdgeChar(replaced[k])
    ensures forall k :: 0 <= k < i ==> EdgeChar(name[k])
    ensures forall k :: j <= k < |name| ==> EdgeChar(name[k])
  {
    forall k | 0 <= k < |name|
      ensures EdgeChar(replaced[k]) == EdgeChar(name[k])
    {
      assert replaced[k] == Safe(name[k]);
    }
  }

  /** A slice of a replaced name holds no invalid character. */
  lemma SliceClean(replaced: string, i: nat, j: nat)
    requires forall k :: 0 <= k < |replaced| ==> !InvalidChar(replaced[k])
    requires i <= j <= |replaced|
    ensures forall k :: 0 <= k < j - i ==> !InvalidChar(replaced[i..j][k])
  {
    forall k | 0 <= k < j - i
      ensures !InvalidChar(replaced[i..j][k])
    {
      assert replaced[i..j][k] == replaced[i + k];
    }
  }

  lemma StrippedChars(name: string)
    ensures forall k :: 0 <= k < |Stripped(name)| ==> !InvalidChar(Stripped(name)[k])
  {
    var _, _ := StrippedSlice(name);
  }

  lemma UnnamedChars()
    ensures forall k :: 0 <= k < |UnnamedPreset| ==> !InvalidChar(UnnamedPreset[k])
    ensures !EdgeChar(UnnamedPreset[0]) && !EdgeChar(UnnamedPreset[|UnnamedPreset| - 1])
  {
  }

  /**
   * `sanitize_preset_name`: invalid characters become '_', dots and spaces
   * are stripped from both ends, and an empty result becomes
   * "unnamed_preset". The result is never empty, holds no invalid character
   * and neither starts nor ends with '.' or ' '.
   */
  function SanitizePresetName(name: string): (r: string)
    ensures r != ""
    ensures forall k :: 0 <= k < |r| ==> !InvalidChar(r[k])
    ensures !EdgeChar(r[0]) && !EdgeChar(r[|r| - 1])
  {
    var t := Stripped(name);
    if t == [] then
      UnnamedChars();
      UnnamedPreset
    else
      StrippedChars(name);
      t
  }

  /**
   * The sanitised name is "unnamed_preset" when the name is nothing but dots
   * and spaces; otherwise it is the replaced name with only dots and spaces
   * cut from either end.
   */
  lemma SanitizeShape(name: string)
    ensures (forall k :: 0 <= k < |name| ==> EdgeChar(name[k])) ==> SanitizePresetName(name) == UnnamedPreset
    ensures (exists k :: 0 <= k < |name| && !EdgeChar(name[k])) ==>
              exists i, j :: 0 <= i < j <= |name| && SanitizePresetName(name) == ReplaceInvalid(name)[i..j]
                && (forall k :: 0 <= k < i ==> EdgeChar(name[k]))
                && (forall k :: j <= k < |name| ==> EdgeChar(name[k]))
  {
    var t := Stripped(name);
    var i, j := StrippedSlice(name);
    if t == [] {
      AllEdge(name, i, j);
    } else {
      assert t[0] == ReplaceInvalid(name)[i];
      assert !EdgeChar(name[i]);
    }
  }

  lemma AllEdge(name: string, i: nat, j: nat)
    requires i == j <= |name|
    requires forall k :: 0 <= k < i ==> EdgeChar(name[k])
    requires forall k :: j <= k < |name| ==> EdgeChar(name[k])
    ensures forall k :: 0 <= k < |name| ==> EdgeChar(name[k])
  {
  }

  /** Sanitising a sanitised name changes nothing. */
  lemma SanitizeIdempotent(name: string)
    ensures SanitizePresetName(SanitizePresetName(name)) == SanitizePresetName(name)
  {
    var r := SanitizePresetName(name);
    assert ReplaceInvalid(r) == r;
    StripByKeeps(r, EdgeChar);
    assert Stripped(r) == r;
  }

  lemma ReplaceConcat(a: string, b: string)
    ensures ReplaceInvalid(a + b) == ReplaceInvalid(a) + ReplaceInvalid(b)
  {
  }

  /** A name free of invalid characters is not changed by the replacement. */
  lemma ReplaceClean(s: string)
    requires forall k :: 0 <= k < |s| ==> !InvalidChar(s[k])
    ensures ReplaceInvalid(s) == s
  {
  }

  /**
   * A name made of dots and spaces around a core that holds no invalid
   * character and neither starts nor ends with a dot or space sanitises to
   * that core.
   */
  lemma SanitizeTrims(a: string, m: string, b: string)
    requires forall k :: 0 <= k < |a| ==> EdgeChar(a[k])
    requires forall k :: 0 <= k < |b| ==> EdgeChar(b[k])
    requires forall k :: 0 <= k < |m| ==> !InvalidChar(m[k])
    requires m != [] && !EdgeChar(m[0]) && !EdgeChar(m[|m| - 1])
    ensures SanitizePresetName(a + m + b) == m
  {
    var s := a + m + b;
    assert forall k :: 0 <= k < |s| ==> !InvalidChar(s[k]) by {
      forall k | 0 <= k < |s| ensures !InvalidChar(s[k]) {
        if k < |a| {
          assert s[k] == a[k];
        } else if k < |a| + |m| {
          assert s[k] == m[k - |a|];
        } else {
          assert s[k] == b[k - |a| - |m|];
        }
      }
    }
    ReplaceClean(s);
    StripAround(a, m, b, EdgeChar);
  }

  /** A name that is already clean is kept as it is. */
  lemma SanitizeClean(m: string)
    requires forall k :: 0 <= k < |m| ==> !InvalidChar(m[k])
    requires m != [] && !EdgeChar(m[0]) && !EdgeChar(m[|m| - 1])
    ensures SanitizePresetName(m) == m
  {
    assert [] + m + [] == m;
    SanitizeTrims([], m, []);
  }

  /** "Normal Name" is kept. */
  lemma NormalNameExample(n: string)
    requires n == "Normal Name"
    ensures SanitizePresetName(n) == n
  {
    SanitizeClean(n);
  }

  /** An invalid separator between two parts becomes '_'. */
  lemma ReplaceSep(x: string, sep: string, y: string)
    requires |sep| == 1 && InvalidChar(sep[0])
    ensures ReplaceInvalid(x + sep + y) == ReplaceInvalid(x) + "_" + ReplaceInvalid(y)
  {
    ReplaceConcat(x + sep, y);
    ReplaceConcat(x, sep);
    assert ReplaceInvalid(sep) == "_";
  }

  /** A replaced name that neither starts nor ends with a dot or space is the sanitised name. */
  lemma SanitizeReplaced(s: string, r: string)
    requires ReplaceInvalid(s) == r && r != [] && !EdgeChar(r[0]) && !EdgeChar(r[|r| - 1])
    ensures SanitizePresetName(s) == r
  {
    StripByKeeps(r, EdgeChar);
  }

  /** "Name/With\\Slashes" becomes "Name_With_Slashes". */
  lemma SlashesExample(w1: string, w2: string, w3: string)
    requires w1 == "Name" && w2 == "With" && w3 == "Slashes"
    ensures SanitizePresetName(w1 + "/" + w2 + "\\" + w3) == w1 + "_" + w2 + "_" + w3
  {
    SlashesReplaced(w1, w2, w3);
    SanitizeReplaced(w1 + "/" + w2 + "\\" + w3, w1 + "_" + w2 + "_" + w3);
  }

  lemma SlashesReplaced(w1: string, w2: string, w3: string)
    requires w1 == "Name" && w2 == "With" && w3 == "Slashes"
    ensures ReplaceInvalid(w1 + "/" + w2 + "\\" + w3) == w1 + "_" + w2 + "_" + w3
    ensures (w1 + "_" + w2 + "_" + w3)[0] == 'N'
    ensures (w1 + "_" + w2 + "_" + w3)[|w1 + "_" + w2 + "_" + w3| - 1] == 's'
  {
    ReplaceSep(w1 + "/" + w2, "\\", w3);
    ReplaceSep(w1, "/", w2);
    ReplaceClean(w1);
    ReplaceClean(w2);
    ReplaceClean(w3);
  }

  /** "Name:With*Special?Chars" becomes "Name_With_Special_Chars". */
  lemma SpecialCharsExample(w1: string, w2: string, w3: string, w4: string)
    requires w1 == "Name" && w2 == "With" && w3 == "Special" && w4 == "Chars"
    ensures SanitizePresetName(w1 + ":" + w2 + "*" + w3 + "?" + w4) == w1 + "_" + w2 + "_" + w3 + "_" + w4
  {
    SpecialCharsReplaced(w1, w2, w3, w4);
    SanitizeReplaced(w1 + ":" + w2 + "*" + w3 + "?" + w4, w1 + "_" + w2 + "_" + w3 + "_" + w4);
  }

  lemma SpecialCharsReplaced(w1: string, w2: string, w3: string, w4: string)
    requires w1 == "Name" && w2 == "With" && w3 == "Special" && w4 == "Chars"
    ensures ReplaceInvalid(w1 + ":" + w2 + "*" + w3 + "?" + w4) == w1 + "_" + w2 + "_" + w3 + "_" + w4
    ensures (w1 + "_" + w2 + "_" + w3 + "_" + w4)[0] == 'N'
    ensures (w1 + "_" + w2 + "_" + w3 + "_" + w4)[|w1 + "_" + w2 + "_" + w3 + "_" + w4| - 1] == 's'
  {
    ReplaceSep(w1 + ":" + w2 + "*" + w3, "?", w4);
    ReplaceSep(w1 + ":" + w2, "*", w3);
    ReplaceSep(w1, ":", w2);
    ReplaceClean(w1);
    ReplaceClean(w2);
    ReplaceClean(w3);
    ReplaceClean(w4);
  }

  /** "  Leading Spaces  " becomes "Leading Spaces". */
  lemma LeadingSpacesExample(m: string)
    requires m == "Leading Spaces"
    ensures SanitizePresetName("  " + m + "  ") == m
  {
    SanitizeTrims("  ", m, "  ");
  }

  /** ".hidden.preset." becomes "hidden.preset". */
  lemma HiddenExample(m: string)
    requires m == "hidden.preset"
    ensures SanitizePresetName("." + m + ".") == m
  {
    SanitizeTrims(".", m, ".");
  }

  /** The empty name becomes "unnamed_preset". */
  lemma EmptyNameExample()
    ensures SanitizePresetName("") == UnnamedPreset
  {
    assert Stripped("") == [];
  }

  /** One slot of a preset: enabled, LoRA file name ("None" for an empty slot), weight. */
  datatype LoraSlot = LoraSlot(enabled: bool, filename: string, weight: real)

  /** The `loras` member of a preset file: absent, present but not a list, or a list of slots. */
  datatype LorasField = NoLoras | NotAList | Slots(slots: seq<LoraSlot>)

  /** A preset file as read back: unparsable JSON, or an object with optional members. */
  datatype PresetFile =
    | Unparsable
    | PresetJson(presetName: Option<string>, createdDate: Option<string>, loras: LorasField)

  /** The preset directory: sanitised name to file. */
  type Store = Dict<PresetFile>

  /** `save_preset`: writes the original name, the time stamp `now` and the slots under the sanitised name. */
  function SavePreset(store: Store, name: string, loras: seq<LoraSlot>, now: string): (r: Store)
    requires Valid(store)
    ensures Valid(r)
    ensures Get(r, SanitizePresetName(name)) == Some(PresetJson(Some(name), Some(now), Slots(loras)))
    ensures forall n :: n != SanitizePresetName(name) ==> Get(r, n) == Get(store, n)
  {
    Put(store, SanitizePresetName(name), PresetJson(Some(name), Some(now), Slots(loras)))
  }

  /** `preset_exists`. */
  function PresetExists(store: Store, name: string): (b: bool)
    ensures b <==> SanitizePresetName(name) in store.entries
  {
    SanitizePresetName(name) in store.entries
  }

  /** The outcome of `load_preset`: the slots, or which of its three failures occurred. */
  datatype LoadResult = Loaded(loras: seq<LoraSlot>) | NotFound | InvalidFormat | InvalidJson

  /** What a stored file loads as: a missing `loras` member is no slots, a non-list one is an error. */
  function Decode(file: PresetFile): (r: LoadResult)
    ensures r != NotFound
    ensures r == InvalidJson <==> file.Unparsable?
    ensures r == InvalidFormat <==> file.PresetJson? && file.loras.NotAList?
    ensures file.PresetJson? && file.loras.NoLoras? ==> r == Loaded([])
    ensures file.PresetJson? && file.loras.Slots? ==> r == Loaded(file.loras.slots)
  {
    match file
    case Unparsable => InvalidJson
    case PresetJson(_, _, NoLoras) => Loaded([])
    case PresetJson(_, _, NotAList) => InvalidFormat
    case PresetJson(_, _, Slots(slots)) => Loaded(slots)
  }

  /** `load_preset`: "not found" exactly when no file has the sanitised name. */
  function LoadPreset(store: Store, name: string): (r: LoadResult)
    ensures r == NotFound <==> !PresetExists(store, name)
    ensures forall f :: Get(store, SanitizePresetName(name)) == Some(f) ==> r == Decode(f)
  {
    var file: Option<PresetFile> := Get(store, SanitizePresetName(name));
    if file.None? then NotFound else Decode(file.value)
  }

  /** `list_presets`: every stored name once, sorted. */
  function ListPresets(store: Store): (r: seq<string>)
    requires Valid(store)
    ensures StrictlySorted(r)
    ensures forall n :: n in r <==> n in store.entries
  {
    SortedSet(store.keys)
  }

  /** `delete_preset`: reports whether the sanitised name was stored, and removes only it. */
  function DeletePreset(store: Store, name: string): (r: (Store, bool))
    requires Valid(store)
    ensures Valid(r.0)
    ensures r.1 <==> PresetExists(store, name)
    ensures !r.1 ==> r.0 == store
    ensures !PresetExists(r.0, name)
    ensures forall n :: n != SanitizePresetName(name) ==> Get(r.0, n) == Get(store, n)
  {
    var key := SanitizePresetName(name);
    if key in store.entries then (Remove(store, key), true) else (store, false)
  }

  /** The slots that hold a LoRA, i.e. whose file name is not "None". */
  function LoraCount(slots: seq<LoraSlot>): (n: nat)
    ensures n <= |slots|
    ensures n == 0 <==> forall k :: 0 <= k < |slots| ==> slots[k].filename == "None"
    ensures n == |slots| <==> forall k :: 0 <= k < |slots| ==> slots[k].filename != "None"
    decreases |slots|
  {
    if slots == [] then 0
    else
      var rest := LoraCount(slots[1..]);
      assert forall k :: 1 <= k < |slots| ==> slots[k] == slots[1..][k - 1];
      (if slots[0].filename != "None" then 1 else 0) + rest
  }

  lemma {:induction false} LoraCountConcat(a: seq<LoraSlot>, b: seq<LoraSlot>)
    ensures LoraCount(a + b) == LoraCount(a) + LoraCount(b)
    decreases |a|
  {
    if a == [] {
      assert a + b == b;
    } else {
      assert (a + b)[0] == a[0];
      assert (a + b)[1..] == a[1..] + b;
      LoraCountConcat(a[1..], b);
    }
  }

  /** What `get_preset_info` reports. */
  datatype PresetInfo = PresetInfo(presetName: string, createdDate: string, loraCount: nat)

  /**
   * `get_preset_info`: the stored name (else the name asked for), the stored
   * date (else "Unknown") and the LoRA count; `None` when the preset is
   * missing or unreadable.
   */
  function GetPresetInfo(store: Store, name: string): (r: Option<PresetInfo>)
    ensures !PresetExists(store, name) ==> r.None?
    ensures r.Some? <==> LoadPreset(store, name).Loaded?
    ensures r.Some? ==> r.value.loraCount == LoraCount(LoadPreset(store, name).loras)
    ensures r.Some? ==> var f := store.entries[SanitizePresetName(name)];
      && r.value.presetName == (if f.presetName.Some? then f.presetName.value else name)
      && r.value.createdDate == (if f.createdDate.Some? then f.createdDate.value else "Unknown")
  {
    var file: Option<PresetFile> := Get(store, SanitizePresetName(name));
    if file.None? then None else Info(file.value, name)
  }

  /** The info of one stored file; `None` unless it loads. */
  function Info(file: PresetFile, name: string): (r: Option<PresetInfo>)
    ensures r.Some? <==> Decode(file).Loaded?
    ensures r.Some? ==> r.value.loraCount == LoraCount(Decode(file).loras)
    ensures r.Some? ==> file.PresetJson?
    ensures r.Some? ==> r.value.presetName == (if file.presetName.Some? then file.presetName.value else name)
    ensures r.Some? ==> r.value.createdDate == (if file.createdDate.Some? then file.createdDate.value else "Unknown")
  {
    match file
    case Unparsable => None
    case PresetJson(stored, date, NoLoras) => Some(PresetInfo(stored.GetOr(name), date.GetOr("Unknown"), 0))
    case PresetJson(_, _, NotAList) => None
    case PresetJson(stored, date, Slots(slots)) =>
      Some(PresetInfo(stored.GetOr(name), date.GetOr("Unknown"), LoraCount(slots)))
  }

  /** Loading a preset after saving it gives back the saved slots, under any spelling with the same sanitised name. */
  lemma SaveThenLoad(store: Store, name: string, other: string, loras: seq<LoraSlot>, now: string)
    requires Valid(store)
    requires SanitizePresetName(other) == SanitizePresetName(name)
    ensures LoadPreset(SavePreset(store, name, loras, now), other) == Loaded(loras)
  {
    var after := SavePreset(store, name, loras, now);
    assert Get(after, SanitizePresetName(other)) == Some(PresetJson(Some(name), Some(now), Slots(loras)));
  }

  /** Saving one preset leaves the loading of every differently sanitised name as it was. */
  lemma SaveKeepsOthers(store: Store, name: string, other: string, loras: seq<LoraSlot>, now: string)
    requires Valid(store)
    requires SanitizePresetName(other) != SanitizePresetName(name)
    ensures LoadPreset(SavePreset(store, name, loras, now), other) == LoadPreset(store, other)
  {
    var after := SavePreset(store, name, loras, now);
    assert Get(after, SanitizePresetName(other)) == Get(store, SanitizePresetName(other));
  }

  /** After saving, the info reports the original name, the time stamp and the count of filled slots. */
  lemma SaveThenInfo(store: Store, name: string, loras: seq<LoraSlot>, now: string)
    requires Valid(store)
    ensures GetPresetInfo(SavePreset(store, name, loras, now), name) == Some(PresetInfo(name, now, LoraCount(loras)))
  {
  }

  /** Deleting removes exactly the preset's name from the listing; deleting again fails. */
  lemma DeleteShrinksList(store: Store, name: string)
    requires Valid(store) && PresetExists(store, name)
    ensures var (after, ok) := DeletePreset(store, name);
      && ok
      && ListPresets(after) == Filter(ListPresets(store), n => n != SanitizePresetName(name))
      && |ListPresets(after)| == |ListPresets(store)| - 1
      && !DeletePreset(after, name).1
  {
    var key := SanitizePresetName(name);
    var after := DeletePreset(store, name).0;
    var before := ListPresets(store);
    var kept := Filter(before, n => n != key);
    FilterMembers(before, n => n != key);
    FilterStrictlySorted(before, n => n != key);
    assert forall n :: n in kept <==> n in after.entries by {
      forall n ensures n in kept <==> n in after.entries {
        assert n != key ==> Get(after, n) == Get(store, n);
      }
    }
    StrictlySortedUnique(ListPresets(after), kept);
    StrictlyNoDuplicates(before);
    RemoveOne(before, key);
  }

  /** Every listed name refers to its own preset: sanitising it again finds the same entry. */
  lemma ListedNamesExist(store: Store)
    requires Valid(store)
    requires forall n :: n in store.entries ==> SanitizePresetName(n) == n
    ensures forall n :: n in ListPresets(store) ==> PresetExists(store, n)
  {
  }

  /** Loading a name that was never saved fails with "not found". */
  lemma LoadMissing(store: Store, name: string)
    requires Valid(store) && !PresetExists(store, name)
    ensures LoadPreset(store, name) == NotFound && GetPresetInfo(store, name).None?
  {
  }
}

=== FILE: record.dfy ===
/**
 * `extract_metadata`: the record built for one LoRA file. The file size and
 * the safetensors header are inputs (reading them is I/O); so is the
 * regular-expression scan for character names, given as `findCharacters`.
 */
module Records {
  import opened Common
  import opened Text
  import opened Seqs
  import opened Caseless
  import opened Metadata
  import opened Fields
  import opened Words

  /** The three messages `extract_metadata` can append to `extraction_errors`. */
  datatype ExtractionError =
    | SizeUnavailable   // "Failed to get file size: ..."
    | NoMetadata        // "No metadata found in file"
    | ReadFailed        // "Failed to extract metadata: ..."

  /** What opening the header yields: an exception, no metadata map, or the map with its decoded values. */
  datatype HeaderRead = Unreadable | Missing | Present(header: Header)

  /** The result dictionary of `extract_metadata`. */
  datatype Record = Record(
    filename: string,
    filePath: string,
    fileSize: nat,
    baseModel: Option<string>,
    triggerWords: seq<string>,
    description: Option<string>,
    characters: seq<string>,
    styles: seq<string>,
    trainingEpochs: Option<int>,
    trainingSteps: Option<int>,
    resolution: Option<string>,
    networkDim: Option<int>,
    networkAlpha: Option<real>,
    rawMetadata: map<string, string>,
    errors: seq<ExtractionError>)

  /** No field has been extracted: every field still holds its initial value. */
  predicate Bare(r: Record) {
    && r.baseModel.None? && r.triggerWords == [] && r.description.None?
    && r.characters == [] && r.styles == []
    && r.trainingEpochs.None? && r.trainingSteps.None? && r.resolution.None?
    && r.networkDim.None? && r.networkAlpha.None? && r.rawMetadata == map[]
  }

  /** The text searched for characters and styles: the description (or nothing), a space, the trigger words joined by spaces. */
  function AllText(description: Option<string>, triggers: seq<string>): (r: string)
    ensures description.Some? ==> Contains(r, description.value)
    ensures forall i :: 0 <= i < |triggers| ==> Contains(r, triggers[i])
  {
    var d := description.GetOr("");
    var t := Join(triggers, " ");
    ContainsMiddle("", d, " " + t);
    assert "" + d + (" " + t) == d + " " + t;
    forall i | 0 <= i < |triggers| ensures Contains(d + " " + t, triggers[i]) {
      JoinContainsPart(triggers, " ", i);
      var whole := d + " " + t;
      assert whole[|d| + 1..|whole|] == t;
      ContainsInfix(whole, |d| + 1, |whole|, triggers[i]);
    }
    d + " " + t
  }

  /** The size error, when the size could not be read. */
  function SizeErrors(size: Option<nat>): (r: seq<ExtractionError>)
    ensures forall e :: e in r <==> e == SizeUnavailable && size.None?
    ensures |r| <= 1
  {
    if size.None? then [SizeUnavailable] else []
  }

  /** The record returned before any field is extracted, with the size error (if any) and `e`. */
  function Skeleton(path: string, size: Option<nat>, e: ExtractionError): (r: Record)
    ensures r.filename == Basename(path) && r.filePath == path && r.fileSize == size.GetOr(0)
    ensures Bare(r) && |r.errors| <= 2
    ensures forall x :: x in r.errors <==> x == e || (x == SizeUnavailable && size.None?)
  {
    var errors := SizeErrors(size) + [e];
    assert forall x :: x in errors <==> x in SizeErrors(size) || x == e;
    Record(Basename(path), path, size.GetOr(0), None, [], None, [], [], None, None, None, None, None,
           map[], errors)
  }

  /** The record with every field extracted from a header that has metadata. */
  function Populate(path: string, size: Option<nat>, h: Header, findCharacters: string -> seq<string>): (r: Record)
    ensures r.filename == Basename(path) && r.filePath == path && r.fileSize == size.GetOr(0)
    ensures r.rawMetadata == h.raw && r.errors == SizeErrors(size)
    ensures r.baseModel == ExtractBaseModel(h) && r.triggerWords == ExtractTriggerWords(h)
    ensures r.description == ExtractDescription(h) && r.resolution == ExtractResolution(h)
    ensures r.trainingEpochs == ExtractInt(h, EpochKeys) && r.trainingSteps == ExtractInt(h, StepKeys)
    ensures r.networkDim == ExtractInt(h, NetworkDimKeys) && r.networkAlpha == ExtractReal(h, NetworkAlphaKeys)
    ensures r.characters == ExtractCharacters(h, findCharacters(ScannedText(h)))
    ensures r.styles == ExtractStyles(h, ScannedText(h))
  {
    var triggers := ExtractTriggerWords(h);
    var description := ExtractDescription(h);
    var text := ScannedText(h);
    Record(
      Basename(path), path, size.GetOr(0),
      ExtractBaseModel(h), triggers, description,
      ExtractCharacters(h, findCharacters(text)), ExtractStyles(h, text),
      ExtractInt(h, EpochKeys), ExtractInt(h, StepKeys), ExtractResolution(h),
      ExtractInt(h, NetworkDimKeys), ExtractReal(h, NetworkAlphaKeys),
      h.raw, SizeErrors(size))
  }

  /**
   * `extract_metadata`. The skeleton is always returned; a missing size adds
   * its error and leaves the size 0; a header without metadata, or one that
   * cannot be read, adds its error and leaves every other field empty.
   */
  function ExtractMetadata(path: string, size: Option<nat>, read: HeaderRead,
                           findCharacters: string -> seq<string>): (r: Record)
    ensures r.filename == Basename(path) && r.filePath == path
    ensures r.fileSize == (if size.Some? then size.value else 0)
    ensures (SizeUnavailable in r.errors) <==> size.None?
    ensures |r.errors| <= 2
    ensures (NoMetadata in r.errors) <==> read.Missing?
    ensures (ReadFailed in r.errors) <==> read.Unreadable?
    ensures !read.Present? ==> Bare(r) && |r.errors| >= 1
    ensures read.Present? ==> r.rawMetadata == read.header.raw
    ensures read.Present? && size.Some? ==> r.errors == []
    ensures read.Present? ==> var h := read.header;
      && r.baseModel == ExtractBaseModel(h)
      && r.triggerWords == ExtractTriggerWords(h)
      && r.description == ExtractDescription(h)
      && r.trainingEpochs == ExtractInt(h, EpochKeys)
      && r.trainingSteps == ExtractInt(h, StepKeys)
      && r.networkDim == ExtractInt(h, NetworkDimKeys)
      && r.networkAlpha == ExtractReal(h, NetworkAlphaKeys)
      && r.resolution == ExtractResolution(h)
      && r.characters == ExtractCharacters(h, findCharacters(ScannedText(h)))
      && r.styles == ExtractStyles(h, ScannedText(h))
  {
    match read
    case Unreadable => Skeleton(path, size, ReadFailed)
    case Missing => Skeleton(path, size, NoMetadata)
    case Present(h) => Populate(path, size, h, findCharacters)
  }

  /** The three list fields of every record are free of empty and case-insensitively repeated entries. */
  lemma RecordListsDistinct(path: string, size: Option<nat>, read: HeaderRead, findCharacters: string -> seq<string>)
    ensures var r := ExtractMetadata(path, size, read, findCharacters);
      CaselessDistinct(r.triggerWords) && CaselessDistinct(r.characters) && CaselessDistinct(r.styles)
  {
  }

  /** The text scanned for styles includes the description and every trigger word. */
  lemma StyleInText(path: string, size: Option<nat>, h: Header, findCharacters: string -> seq<string>,
                    part: string, kw: string)
    requires part in ExtractTriggerWords(h) || ExtractDescription(h) == Some(part)
    requires kw in StyleKeywords && Contains(Lower(part), kw)
    ensures TitleCase(kw) in ExtractMetadata(path, size, Present(h), findCharacters).styles
  {
    var text := ScannedText(h);
    PartInText(h, part);
    LowerInText(text, part, kw);
    StyleKeywordFound(h, text, kw);
  }

  /** The description and trigger words joined, as searched for styles and characters. */
  function ScannedText(h: Header): (r: string)
    ensures forall t :: t in ExtractTriggerWords(h) ==> Contains(r, t)
    ensures ExtractDescription(h).Some? ==> Contains(r, ExtractDescription(h).value)
  {
    AllText(ExtractDescription(h), ExtractTriggerWords(h))
  }

  lemma PartInText(h: Header, part: string)
    requires part in ExtractTriggerWords(h) || ExtractDescription(h) == Some(part)
    ensures Contains(ScannedText(h), part)
  {
  }

  /** A keyword inside a lower-cased part is inside the lower-cased text holding that part. */
  lemma LowerInText(text: string, part: string, kw: string)
    requires Contains(text, part) && Contains(Lower(part), kw)
    ensures Contains(Lower(text), kw)
  {
    var i: nat :| i <= |text| && OccursAt(text, part, i);
    assert text[i..i + |part|] == part;
    LowerSlice(text, i, i + |part|);
    ContainsInfix(Lower(text), i, i + |part|, kw);
  }

  /** A file that cannot be opened keeps its basename and reports an error. */
  lemma NonexistentFileExample(dir: string, name: string, findCharacters: string -> seq<string>)
    requires dir == "/nonexistent/path" && name == "file.safetensors"
    ensures var r := ExtractMetadata(dir + "/" + name, None, Unreadable, findCharacters);
      r.filename == name && |r.errors| > 0 && Bare(r)
  {
    BasenameAfterSlash(dir, name);
  }
}

=== FILE: scanner.dfy ===
/**
 * `LoraMetadataScanner` as a sequential state machine: the index of records
 * keyed by file path, the two progress flags, the stop flag and the two
 * counters. The background thread, the lock and the clock are not part of
 * this model; a scan is the blocking `_run_scan`, whose discovery, per-file
 * extraction and moment of stopping are inputs.
 */
module Scanner {
  import opened Common
  import opened Text
  import opened Seqs
  import opened Dicts
  import opened Records

  datatype State = State(
    paths: seq<string>,
    index: Dict<Record>,
    isScanning: bool,
    scanComplete: bool,
    stopRequested: bool,
    filesScanned: nat,
    filesFailed: nat)

  ghost predicate Inv(s: State) {
    Valid(s.index)
  }

  /** A new scanner over the given directories: nothing indexed, nothing running. */
  function Initial(paths: seq<string>): (s: State)
    ensures Inv(s) && |s.index.keys| == 0
    ensures !s.isScanning && !s.scanComplete && !s.stopRequested
    ensures s.paths == paths && s.filesScanned == 0 && s.filesFailed == 0
  {
    State(paths, Empty(), false, false, false, 0, 0)
  }

  /**
   * The synchronous part of `start_scan`: ignored while a scan runs;
   * otherwise marks a scan as running and resets the stop flag and counters.
   */
  function StartScan(s: State): (t: State)
    ensures s.isScanning ==> t == s
    ensures !s.isScanning ==> t.isScanning && !t.scanComplete && !t.stopRequested
                               && t.filesScanned == 0 && t.filesFailed == 0
    ensures t.index == s.index && t.paths == s.paths
  {
    if s.isScanning then s
    else s.(isScanning := true, scanComplete := false, stopRequested := false,
            filesScanned := 0, filesFailed := 0)
  }

  /** `stop_scan` without the thread join: the flag the scan loop polls. */
  function StopScan(s: State): (t: State)
    ensures t.stopRequested
    ensures t == s.(stopRequested := true)
  {
    s.(stopRequested := true)
  }

  /** `clear_index`: empties the index and withdraws completion, running or not. */
  function ClearIndex(s: State): (t: State)
    ensures Inv(t) && |t.index.keys| == 0
    ensures !t.scanComplete && t.isScanning == s.isScanning
    ensures t.filesScanned == s.filesScanned && t.filesFailed == s.filesFailed
    ensures t == s.(index := t.index, scanComplete := false)
  {
    s.(index := Empty(), scanComplete := false)
  }

  /** `remove_file`: reports whether the path was indexed, and drops only that path. */
  function RemoveFile(s: State, path: string): (r: (State, bool))
    requires Inv(s)
    ensures Inv(r.0)
    ensures r.1 <==> path in s.index.entries
    ensures Get(r.0.index, path).None?
    ensures forall p :: p != path ==> Get(r.0.index, p) == Get(s.index, p)
    ensures r.0 == s.(index := r.0.index)
  {
    if path in s.index.entries then (s.(index := Remove(s.index, path)), true)
    else (s, false)
  }

  /**
   * `refresh_file`: re-extracts one path and stores the record under it;
   * when extraction raises, the index is untouched and the result is `None`.
   */
  function RefreshFile(s: State, path: string, extract: string -> Option<Record>): (r: (State, Option<Record>))
    requires Inv(s)
    ensures Inv(r.0)
    ensures r.1 == extract(path)
    ensures r.1.Some? ==> Get(r.0.index, path) == r.1
    ensures r.1.None? ==> r.0 == s
    ensures forall p :: p != path ==> Get(r.0.index, p) == Get(s.index, p)
    ensures r.0 == s.(index := r.0.index)
    ensures s.index.keys <= r.0.index.keys && |r.0.index.keys| <= |s.index.keys| + 1
  {
    match extract(path)
    case None => (s, None)
    case Some(record) => (s.(index := Put(s.index, path, record)), Some(record))
  }

  /** A second start while the first is running changes nothing. */
  lemma StartScanTwice(s: State)
    ensures StartScan(StartScan(s)) == StartScan(s)
  {
  }

  /** `get_metadata`: the record stored under the path, if any. */
  function GetMetadata(s: State, path: string): (r: Option<Record>)
    ensures r.Some? <==> path in s.index.entries
    ensures r.Some? ==> r.value == s.index.entries[path]
  {
    Get(s.index, path)
  }

  /** The record is stored under a path whose basename is `filename`. */
  ghost predicate StoredAs(s: State, filename: string, rec: Record) {
    exists p :: p in s.index.entries && Basename(p) == filename && s.index.entries[p] == rec
  }

  /** Index position `i` holds the first path whose basename is `filename`. */
  ghost predicate FirstNamed(s: State, filename: string, i: int) {
    && 0 <= i < |s.index.keys|
    && Basename(s.index.keys[i]) == filename
    && forall k :: 0 <= k < i ==> Basename(s.index.keys[k]) != filename
  }

  /** `r` holds the records of the paths named `filename`, one per path, in index order. */
  ghost predicate InIndexOrder(s: State, filename: string, r: seq<Record>) {
    exists paths: seq<string> ::
      && IsSubseq(paths, s.index.keys)
      && (forall p :: p in paths <==> p in s.index.keys && Basename(p) == filename)
      && |paths| == |r|
      && forall j :: 0 <= j < |r| ==> paths[j] in s.index.entries && r[j] == s.index.entries[paths[j]]
  }

  /** The basename test of `get_metadata_by_filename`. */
  function Named(filename: string): string -> bool {
    p => Basename(p) == filename
  }

  /** `get_metadata_by_filename`: the records whose path ends in `filename`, in index order. */
  function ByFilename(s: State, filename: string): (r: seq<Record>)
    requires Inv(s)
    ensures forall rec :: rec in r <==> StoredAs(s, filename, rec)
    ensures InIndexOrder(s, filename, r)
    ensures forall i :: FirstNamed(s, filename, i) ==> r != [] && r[0] == s.index.entries[s.index.keys[i]]
  {
    var paths := Filter(s.index.keys, Named(filename));
    FilterMembers(s.index.keys, Named(filename));
    FilterIsSubseq(s.index.keys, Named(filename));
    ByFilenameMembers(s, filename, paths);
    ByFilenameFirst(s, filename, paths);
    ByFilenameOrder(s, filename, paths);
    ValuesOf(s.index, paths)
  }

  lemma ByFilenameOrder(s: State, filename: string, paths: seq<string>)
    requires IsSubseq(paths, s.index.keys)
    requires forall p :: p in paths <==> p in s.index.keys && Basename(p) == filename
    requires forall i :: 0 <= i < |paths| ==> paths[i] in s.index.entries
    ensures InIndexOrder(s, filename, ValuesOf(s.index, paths))
  {
    var r := ValuesOf(s.index, paths);
    assert forall j :: 0 <= j < |r| ==> paths[j] in s.index.entries && r[j] == s.index.entries[paths[j]];
  }

  lemma ByFilenameFirst(s: State, filename: string, paths: seq<string>)
    requires Inv(s) && paths == Filter(s.index.keys, Named(filename))
    requires forall i :: 0 <= i < |paths| ==> paths[i] in s.index.entries
    ensures forall i :: FirstNamed(s, filename, i) ==> paths != [] && paths[0] == s.index.keys[i]
  {
    forall i | FirstNamed(s, filename, i) ensures paths != [] && paths[0] == s.index.keys[i] {
      FilterFirst(s.index.keys, Named(filename), i);
    }
  }

  /** Some path is named `filename` exactly when a first such path exists. */
  lemma FirstNamedExists(s: State, filename: string)
    requires Inv(s)
    ensures (exists rec :: StoredAs(s, filename, rec)) <==> exists i :: FirstNamed(s, filename, i)
  {
    if rec :| StoredAs(s, filename, rec) {
      var p :| p in s.index.entries && Basename(p) == filename && s.index.entries[p] == rec;
      var j :| 0 <= j < |s.index.keys| && s.index.keys[j] == p;
      FirstNamedBelow(s, filename, j);
    }
    if i :| FirstNamed(s, filename, i) {
      assert s.index.keys[i] in s.index.keys;
      assert StoredAs(s, filename, s.index.entries[s.index.keys[i]]);
    }
  }

  lemma {:induction false} FirstNamedBelow(s: State, filename: string, j: nat)
    requires j < |s.index.keys| && Basename(s.index.keys[j]) == filename
    ensures exists i :: FirstNamed(s, filename, i)
    decreases j
  {
    if k :| 0 <= k < j && Basename(s.index.keys[k]) == filename {
      FirstNamedBelow(s, filename, k);
    } else {
      assert FirstNamed(s, filename, j);
    }
  }

  lemma ByFilenameMembers(s: State, filename: string, paths: seq<string>)
    requires Inv(s)
    requires forall p :: p in paths <==> p in s.index.keys && Basename(p) == filename
    ensures forall i :: 0 <= i < |paths| ==> paths[i] in s.index.entries
    ensures forall rec :: rec in ValuesOf(s.index, paths) <==> StoredAs(s, filename, rec)
  {
    assert forall i :: 0 <= i < |paths| ==> paths[i] in paths;
    var r := ValuesOf(s.index, paths);
    forall rec | rec in r ensures StoredAs(s, filename, rec) {
      ValueStored(s, filename, paths, rec);
    }
    forall rec | StoredAs(s, filename, rec) ensures rec in r {
      StoredValue(s, filename, paths, rec);
    }
  }

  lemma ValueStored(s: State, filename: string, paths: seq<string>, rec: Record)
    requires forall p :: p in paths ==> p in s.index.entries && Basename(p) == filename
    requires rec in ValuesOf(s.index, paths)
    ensures StoredAs(s, filename, rec)
  {
    var r := ValuesOf(s.index, paths);
    var i :| 0 <= i < |r| && r[i] == rec;
    var p := paths[i];
    assert p in paths;
    assert p in s.index.entries && Basename(p) == filename && s.index.entries[p] == rec;
  }

  lemma StoredValue(s: State, filename: string, paths: seq<string>, rec: Record)
    requires forall i :: 0 <= i < |paths| ==> paths[i] in s.index.entries
    requires forall p :: p in s.index.entries && Basename(p) == filename ==> p in paths
    requires StoredAs(s, filename, rec)
    ensures rec in ValuesOf(s.index, paths)
  {
    var p :| p in s.index.entries && Basename(p) == filename && s.index.entries[p] == rec;
    assert p in paths;
    var i :| 0 <= i < |paths| && paths[i] == p;
    assert ValuesOf(s.index, paths)[i] == rec;
  }

  /** The record has a non-empty base model containing `q`, ignoring case. */
  predicate BaseModelMatches(rec: Record, q: string) {
    rec.baseModel.Some? && rec.baseModel.value != "" && Contains(Lower(rec.baseModel.value), Lower(q))
  }

  /** Some trigger word of the record contains `q`, ignoring case. */
  predicate TriggerMatches(rec: Record, q: string) {
    exists i :: 0 <= i < |rec.triggerWords| && Contains(Lower(rec.triggerWords[i]), Lower(q))
  }

  /** `search_by_base_model`: the matching records, each once, in index order. */
  function SearchByBaseModel(s: State, q: string): (r: seq<Record>)
    requires Inv(s)
    ensures forall rec :: rec in r <==> rec in Values(s.index) && BaseModelMatches(rec, q)
    ensures IsSubseq(r, Values(s.index))
    ensures forall rec :: multiset(r)[rec] == if BaseModelMatches(rec, q) then multiset(Values(s.index))[rec] else 0
  {
    FilterCounts(Values(s.index), rec => BaseModelMatches(rec, q));
    FilterMembers(Values(s.index), rec => BaseModelMatches(rec, q));
    FilterIsSubseq(Values(s.index), rec => BaseModelMatches(rec, q));
    Filter(Values(s.index), rec => BaseModelMatches(rec, q))
  }

  /**
   * `search_by_trigger_word`: records with a matching trigger word; the
   * inner loop stops at the first match, so each record appears once.
   */
  function SearchByTriggerWord(s: State, q: string): (r: seq<Record>)
    requires Inv(s)
    ensures forall rec :: rec in r <==> rec in Values(s.index) && TriggerMatches(rec, q)
    ensures IsSubseq(r, Values(s.index))
    ensures forall rec :: multiset(r)[rec] == if TriggerMatches(rec, q) then multiset(Values(s.index))[rec] else 0
  {
    FilterCounts(Values(s.index), rec => TriggerMatches(rec, q));
    FilterMembers(Values(s.index), rec => TriggerMatches(rec, q));
    FilterIsSubseq(Values(s.index), rec => TriggerMatches(rec, q));
    Filter(Values(s.index), rec => TriggerMatches(rec, q))
  }

  /** Both searches ignore the case of the query. */
  lemma SearchIgnoresQueryCase(s: State, q: string)
    requires Inv(s)
    ensures SearchByBaseModel(s, q) == SearchByBaseModel(s, Lower(q))
    ensures SearchByTriggerWord(s, q) == SearchByTriggerWord(s, Lower(q))
  {
    LowerIdempotent(q);
    FilterSame(Values(s.index), rec => BaseModelMatches(rec, q), rec => BaseModelMatches(rec, Lower(q)));
    FilterSame(Values(s.index), rec => TriggerMatches(rec, q), rec => TriggerMatches(rec, Lower(q)));
  }

  /** The index after storing, in order, the record of every file whose extraction succeeds. */
  function Absorb(index: Dict<Record>, files: seq<string>, extract: string -> Option<Record>): (d: Dict<Record>)
    requires Valid(index)
    ensures Valid(d)
    decreases |files|
  {
    if files == [] then index
    else
      var prev := Absorb(index, files[..|files| - 1], extract);
      var f := files[|files| - 1];
      if extract(f).Some? then Put(prev, f, extract(f).value) else prev
  }

  /** How many of `files` extract successfully. */
  function Succeeded(files: seq<string>, extract: string -> Option<Record>): (n: nat)
    ensures n <= |files|
    decreases |files|
  {
    if files == [] then 0
    else Succeeded(files[..|files| - 1], extract) + (if extract(files[|files| - 1]).Some? then 1 else 0)
  }

  /** How many of `files` fail to extract. */
  function Failed(files: seq<string>, extract: string -> Option<Record>): (n: nat)
    ensures n <= |files|
    decreases |files|
  {
    if files == [] then 0
    else Failed(files[..|files| - 1], extract) + (if extract(files[|files| - 1]).None? then 1 else 0)
  }

  /** The directories a scan uses: the configured ones when the scanner was built without any. */
  function ScanPaths(s: State, configured: seq<string>): seq<string> {
    if s.paths == [] then configured else s.paths
  }

  /** `_discover_lora_files` sorted; nothing when there are no directories or discovery raises. */
  function ScanFiles(paths: seq<string>, discover: seq<string> -> Option<seq<string>>): (files: seq<string>)
    ensures paths == [] ==> files == []
  {
    if paths == [] then []
    else match discover(paths)
      case None => []
      case Some(found) => SortBy(found, StrLe)
  }

  /**
   * How many files the loop gets through: it polls the stop flag before each
   * file, and a stop issued while the scan runs is first seen before file
   * `stopAt`.
   */
  function Visited(stopRequested: bool, stopAt: nat, total: nat): (n: nat)
    ensures n <= total
    ensures stopRequested ==> n == 0
  {
    if stopRequested then 0 else Min(stopAt, total)
  }

  /**
   * A stop requested before the loop starts: no file is visited, so the
   * scan leaves the index and both counters as they were.
   */
  lemma StopBeforeLoop(s: State, files: seq<string>, extract: string -> Option<Record>, stopAt: nat)
    requires Inv(s)
    ensures var n := Visited(StopScan(s).stopRequested, stopAt, |files|);
      && n == 0
      && Absorb(s.index, files[..n], extract) == s.index
      && Succeeded(files[..n], extract) == 0
      && Failed(files[..n], extract) == 0
  {
    assert files[..0] == [];
  }

  /**
   * `_run_scan`. Every exit, including an empty path list, no files found,
   * a stop and a failed discovery, ends with the scan marked finished and
   * complete. Exactly a prefix of the sorted files is visited; each success
   * is stored under its path and counted as scanned, each failure counted as
   * failed, and the loop carries on past failures.
   */
  method RunScan(s: State, configured: seq<string>, discover: seq<string> -> Option<seq<string>>,
                 extract: string -> Option<Record>, stopAt: nat) returns (t: State)
    requires Inv(s)
    ensures Inv(t)
    ensures !t.isScanning && t.scanComplete
    ensures t.paths == ScanPaths(s, configured)
    ensures var files := ScanFiles(t.paths, discover);
            var n := Visited(s.stopRequested, stopAt, |files|);
            && t.index == Absorb(s.index, files[..n], extract)
            && t.filesScanned == s.filesScanned + Succeeded(files[..n], extract)
            && t.filesFailed == s.filesFailed + Failed(files[..n], extract)
            && (n < |files| ==> t.stopRequested)
  {
    var paths := ScanPaths(s, configured);
    var files := ScanFiles(paths, discover);
    var n := Visited(s.stopRequested, stopAt, |files|);
    t := s.(paths := paths);
    var i := 0;
    while i < |files|
      invariant i <= n
      invariant t.paths == paths && Valid(t.index)
      invariant t.stopRequested == s.stopRequested
      invariant t.index == Absorb(s.index, files[..i], extract)
      invariant t.filesScanned == s.filesScanned + Succeeded(files[..i], extract)
      invariant t.filesFailed == s.filesFailed + Failed(files[..i], extract)
    {
      if t.stopRequested || i == stopAt {
        t := t.(stopRequested := true);
        break;
      }
      var f := files[i];
      assert files[..i + 1][..i] == files[..i];
      match extract(f) {
        case Some(record) =>
          t := t.(index := Put(t.index, f, record), filesScanned := t.filesScanned + 1);
        case None =>
          t := t.(filesFailed := t.filesFailed + 1);
      }
      i := i + 1;
    }
    t := t.(isScanning := false, scanComplete := true);
  }

  /** Every visited file is either scanned or failed. */
  lemma {:induction false} VisitedAccounted(files: seq<string>, extract: string -> Option<Record>)
    ensures Succeeded(files, extract) + Failed(files, extract) == |files|
    decreases |files|
  {
    if files != [] {
      VisitedAccounted(files[..|files| - 1], extract);
    }
  }

  /** The index after a scan holds exactly the earlier entries and the visited files that extracted. */
  lemma {:induction false} AbsorbEntries(index: Dict<Record>, files: seq<string>, extract: string -> Option<Record>, p: string)
    requires Valid(index)
    ensures var d := Absorb(index, files, extract);
      (p in d.entries <==> p in index.entries || (p in files && extract(p).Some?))
      && (p in files && extract(p).Some? ==> d.entries[p] == extract(p).value)
      && (p !in files ==> Get(d, p) == Get(index, p))
    decreases |files|
  {
    if files != [] {
      var init := files[..|files| - 1];
      AbsorbEntries(index, init, extract, p);
      assert files == init + [files[|files| - 1]];
      assert p in files <==> p in init || p == files[|files| - 1];
    }
  }

  /** A scan visits files in Python's string order, each discovered file once per discovery. */
  lemma ScanFilesSorted(paths: seq<string>, discover: seq<string> -> Option<seq<string>>)
    ensures Sorted(ScanFiles(paths, discover), StrLe)
    ensures paths != [] && discover(paths).Some? ==> multiset(ScanFiles(paths, discover)) == multiset(discover(paths).value)
  {
    StrLeIsTotalPreorder();
    if paths != [] && discover(paths).Some? {
      SortSorted(discover(paths).value, StrLe);
    }
  }

  /** Three files with the second failing: two scanned, one failed, the other two indexed in order. */
  lemma SecondFailsExample(a: string, b: string, c: string, extract: string -> Option<Record>)
    requires a != c
    requires extract(a).Some? && extract(b).None? && extract(c).Some?
    ensures Succeeded([a, b, c], extract) == 2 && Failed([a, b, c], extract) == 1
    ensures Absorb(Empty(), [a, b, c], extract).keys == [a, c]
  {
    var e: Dict<Record> := Empty();
    assert [a, b, c][..2] == [a, b];
    assert [a, b][..1] == [a];
    assert [a][..0] == [];
    assert Absorb(e, [], extract) == e;
    var d1 := Absorb(e, [a], extract);
    assert d1 == Put(e, a, extract(a).value);
    assert d1.keys == [a];
    var d2 := Absorb(e, [a, b], extract);
    assert d2 == d1;
    assert Absorb(e, [a, b, c], extract) == Put(d2, c, extract(c).value);
    assert Succeeded([a], extract) == 1 && Failed([a], extract) == 0;
  }
}

=== FILE: seqs.dfy ===
/**
 * Sequence tools for the list-valued results of the source: filtering,
 * the subsequence relation, Python's stable `sorted`, and `sorted(set(...))`.
 */
module Seqs {
  import opened Common
  import opened Text

  /** `[x for x in s if p(x)]`. */
  function Filter<T(!new)>(s: seq<T>, p: T -> bool): (r: seq<T>)
    ensures |r| <= |s|
    decreases |s|
  {
    if s == [] then [] else (if p(s[0]) then [s[0]] else []) + Filter(s[1..], p)
  }

  /** The filter keeps exactly the members that satisfy the predicate. */
  lemma {:induction false} FilterMembers<T(!new)>(s: seq<T>, p: T -> bool)
    ensures forall x :: x in Filter(s, p) <==> x in s && p(x)
    decreases |s|
  {
    if s != [] {
      FilterMembers(s[1..], p);
      assert s == [s[0]] + s[1..];
    }
  }

  /** `[f(x) for x in s if x is not None]`, in order. */
  function Collect<T, U>(s: seq<Option<T>>, f: T -> U): (r: seq<U>)
    ensures |r| <= |s|
    decreases |s|
  {
    if s == [] then [] else (if s[0].Some? then [f(s[0].value)] else []) + Collect(s[1..], f)
  }

  /** Entry `k` of `s` is present and `f` maps it to `y`. */
  ghost predicate Yields<T, U>(s: seq<Option<T>>, f: T -> U, k: int, y: U) {
    0 <= k < |s| && s[k].Some? && y == f(s[k].value)
  }

  /** The collected values are the images of exactly the present entries. */
  lemma {:induction false} CollectMembers<T, U>(s: seq<Option<T>>, f: T -> U)
    ensures forall y :: y in Collect(s, f) <==> exists k :: Yields(s, f, k, y)
    ensures Collect(s, f) == [] <==> forall k :: 0 <= k < |s| ==> s[k].None?
    decreases |s|
  {
    if s != [] {
      var rest := s[1..];
      var head: seq<U> := if s[0].Some? then [f(s[0].value)] else [];
      CollectMembers(rest, f);
      assert Collect(s, f) == head + Collect(rest, f);
      forall y | y in Collect(s, f)
        ensures exists k :: Yields(s, f, k, y)
      {
        if y in head {
          assert Yields(s, f, 0, y);
        } else {
          assert y in Collect(rest, f);
          var k :| Yields(rest, f, k, y);
          assert Yields(s, f, k + 1, y);
        }
      }
      forall y, k | Yields(s, f, k, y)
        ensures y in Collect(s, f)
      {
        if k > 0 {
          assert Yields(rest, f, k - 1, y);
        } else {
          assert y in head;
        }
      }
      if s[0].None? {
        assert forall k :: 0 <= k < |rest| ==> rest[k] == s[k + 1];
      }
    }
  }

  lemma {:induction false} FilterConcat<T(!new)>(a: seq<T>, b: seq<T>, p: T -> bool)
    ensures Filter(a + b, p) == Filter(a, p) + Filter(b, p)
    decreases |a|
  {
    if a == [] {
      assert a + b == b;
    } else {
      var h := if p(a[0]) then [a[0]] else [];
      assert (a + b)[1..] == a[1..] + b;
      assert Filter(a + b, p) == h + Filter(a[1..] + b, p);
      assert Filter(a, p) == h + Filter(a[1..], p);
      FilterConcat(a[1..], b, p);
    }
  }

  /** Filtering a prefix gives a prefix of the filtered whole. */
  lemma FilterPrefix<T(!new)>(s: seq<T>, n: nat, p: T -> bool)
    requires n <= |s|
    ensures Filter(s[..n], p) <= Filter(s, p)
  {
    assert s == s[..n] + s[n..];
    FilterConcat(s[..n], s[n..], p);
  }

  /** `a` can be obtained from `b` by deleting elements. */
  predicate IsSubseq<T(==)>(a: seq<T>, b: seq<T>)
    decreases |b|
  {
    if a == [] then true
    else if b == [] then false
    else (a[0] == b[0] && IsSubseq(a[1..], b[1..])) || IsSubseq(a, b[1..])
  }

  lemma {:induction false} SubseqExtend<T>(a: seq<T>, b: seq<T>, w: T)
    requires IsSubseq(a, b)
    ensures IsSubseq(a, b + [w])
    decreases |b|
  {
    if a != [] {
      assert (b + [w])[1..] == b[1..] + [w];
      if a[0] == b[0] && IsSubseq(a[1..], b[1..]) {
        SubseqExtend(a[1..], b[1..], w);
      } else {
        SubseqExtend(a, b[1..], w);
      }
    }
  }

  lemma {:induction false} SubseqSnoc<T>(a: seq<T>, b: seq<T>, w: T)
    requires IsSubseq(a, b)
    ensures IsSubseq(a + [w], b + [w])
    decreases |b|
  {
    if b != [] {
      assert (b + [w])[1..] == b[1..] + [w];
    }
    if a == [] {
      if b == [] {
        assert IsSubseq([w][1..], [w][1..]);
      } else {
        SubseqSnoc(a, b[1..], w);
      }
    } else {
      assert (a + [w])[1..] == a[1..] + [w];
      if a[0] == b[0] && IsSubseq(a[1..], b[1..]) {
        SubseqSnoc(a[1..], b[1..], w);
      } else {
        SubseqSnoc(a, b[1..], w);
      }
    }
  }

  /** The filter keeps every occurrence of a satisfying element and no other. */
  lemma {:induction false} FilterCounts<T(!new)>(s: seq<T>, p: T -> bool)
    ensures forall x :: multiset(Filter(s, p))[x] == if p(x) then multiset(s)[x] else 0
    decreases |s|
  {
    if s != [] {
      FilterCounts(s[1..], p);
      assert s == [s[0]] + s[1..];
      assert multiset(s) == multiset{s[0]} + multiset(s[1..]);
      var head := if p(s[0]) then [s[0]] else [];
      assert multiset(Filter(s, p)) == multiset(head) + multiset(Filter(s[1..], p));
    }
  }

  /** The filter starts with the first element that satisfies the predicate. */
  lemma {:induction false} FilterFirst<T(!new)>(s: seq<T>, p: T -> bool, i: nat)
    requires i < |s| && p(s[i])
    requires forall k :: 0 <= k < i ==> !p(s[k])
    ensures Filter(s, p) != [] && Filter(s, p)[0] == s[i]
    decreases i
  {
    if i > 0 {
      assert forall k :: 0 <= k < i - 1 ==> s[1..][k] == s[k + 1];
      FilterFirst(s[1..], p, i - 1);
    }
  }

  lemma {:induction false} FilterIsSubseq<T(!new)>(s: seq<T>, p: T -> bool)
    ensures IsSubseq(Filter(s, p), s)
    decreases |s|
  {
    if s != [] {
      FilterIsSubseq(s[1..], p);
      if p(s[0]) {
        assert Filter(s, p)[1..] == Filter(s[1..], p);
      } else if Filter(s, p) != [] {
        assert Filter(s, p) == Filter(s[1..], p);
      }
    }
  }

  /** `le` is total and transitive: a valid `key=` ordering for `sorted`. */
  ghost predicate TotalPreorder<T(!new)>(le: (T, T) -> bool) {
    && (forall a, b :: le(a, b) || le(b, a))
    && (forall a, b, c :: le(a, b) && le(b, c) ==> le(a, c))
  }

  ghost predicate Sorted<T>(s: seq<T>, le: (T, T) -> bool) {
    forall i, j :: 0 <= i < j < |s| ==> le(s[i], s[j])
  }

  /** Places `x` after every element that is not greater than it. */
  function Insert<T>(x: T, s: seq<T>, le: (T, T) -> bool): (r: seq<T>)
    ensures |r| == |s| + 1
    ensures multiset(r) == multiset(s) + multiset{x}
    decreases |s|
  {
    if s == [] then [x]
    else if le(s[0], x) then
      assert s == [s[0]] + s[1..];
      [s[0]] + Insert(x, s[1..], le)
    else [x] + s
  }

  /**
   * Python's stable `sorted`: insertion sort that puts each later element
   * behind all earlier elements it does not precede.
   */
  function SortBy<T>(xs: seq<T>, le: (T, T) -> bool): (r: seq<T>)
    ensures multiset(r) == multiset(xs)
    ensures |r| == |xs|
    decreases |xs|
  {
    if xs == [] then []
    else
      var init := xs[..|xs| - 1];
      assert xs == init + [xs[|xs| - 1]];
      Insert(xs[|xs| - 1], SortBy(init, le), le)
  }

  lemma {:induction false} InsertSorted<T(!new)>(x: T, s: seq<T>, le: (T, T) -> bool)
    requires TotalPreorder(le)
    requires Sorted(s, le)
    ensures Sorted(Insert(x, s, le), le)
    decreases |s|
  {
    if s != [] {
      if le(s[0], x) {
        var tail := Insert(x, s[1..], le);
        InsertSorted(x, s[1..], le);
        forall j | 0 <= j < |tail|
          ensures le(s[0], tail[j])
        {
          assert tail[j] in multiset(tail);
          assert tail[j] in s[1..] || tail[j] == x;
        }
      } else {
        assert le(x, s[0]);
      }
    }
  }

  /** Python's `sorted` result is ordered. */
  lemma {:induction false} SortSorted<T(!new)>(xs: seq<T>, le: (T, T) -> bool)
    requires TotalPreorder(le)
    ensures Sorted(SortBy(xs, le), le)
    decreases |xs|
  {
    if xs != [] {
      SortSorted(xs[..|xs| - 1], le);
      InsertSorted(xs[|xs| - 1], SortBy(xs[..|xs| - 1], le), le);
    }
  }

  /** An element no smaller than everything in `s` goes to the end. */
  lemma {:induction false} InsertAtEnd<T>(x: T, s: seq<T>, le: (T, T) -> bool)
    requires forall k :: 0 <= k < |s| ==> le(s[k], x)
    ensures Insert(x, s, le) == s + [x]
    decreases |s|
  {
    if s != [] {
      InsertAtEnd(x, s[1..], le);
      assert s == [s[0]] + s[1..];
    }
  }

  /** Sorting an already ordered sequence leaves it as it is. */
  lemma {:induction false} SortKeepsSorted<T>(xs: seq<T>, le: (T, T) -> bool)
    requires Sorted(xs, le)
    ensures SortBy(xs, le) == xs
    decreases |xs|
  {
    if xs != [] {
      var init := xs[..|xs| - 1];
      SortedInit(xs, init, le);
      SortKeepsSorted(init, le);
      InsertAtEnd(xs[|xs| - 1], init, le);
      SortStep(xs, le);
      LastSplit(xs);
    }
  }

  lemma SortedInit<T>(xs: seq<T>, init: seq<T>, le: (T, T) -> bool)
    requires Sorted(xs, le) && xs != [] && init == xs[..|xs| - 1]
    ensures Sorted(init, le)
    ensures forall k :: 0 <= k < |init| ==> le(init[k], xs[|xs| - 1])
  {
  }

  /** One step of the insertion sort: the last element goes into the sorted rest. */
  lemma SortStep<T>(xs: seq<T>, le: (T, T) -> bool)
    requires xs != []
    ensures SortBy(xs, le) == Insert(xs[|xs| - 1], SortBy(xs[..|xs| - 1], le), le)
  {
  }

  lemma LastSplit<T>(xs: seq<T>)
    requires xs != []
    ensures xs == xs[..|xs| - 1] + [xs[|xs| - 1]]
  {
  }

  /** The elements that `le` ranks equal to `k`. */
  function EquivTo<T>(le: (T, T) -> bool, k: T): T -> bool {
    e => le(e, k) && le(k, e)
  }

  lemma FilterNone<T(!new)>(s: seq<T>, p: T -> bool)
    requires forall e :: e in s ==> !p(e)
    ensures Filter(s, p) == []
  {
    FilterMembers(s, p);
    assert forall k :: 0 <= k < |Filter(s, p)| ==> Filter(s, p)[k] in Filter(s, p);
  }

  lemma {:induction false} FilterAll<T(!new)>(s: seq<T>, p: T -> bool)
    requires forall e :: e in s ==> p(e)
    ensures Filter(s, p) == s
    decreases |s|
  {
    if s != [] {
      assert s == [s[0]] + s[1..];
      FilterAll(s[1..], p);
    }
  }

  lemma {:induction false} FilterSame<T(!new)>(s: seq<T>, p: T -> bool, q: T -> bool)
    requires forall e :: e in s ==> p(e) == q(e)
    ensures Filter(s, p) == Filter(s, q)
    decreases |s|
  {
    if s != [] {
      assert forall e :: e in s[1..] ==> e in s;
      FilterSame(s[1..], p, q);
    }
  }

  /** In a sorted sequence headed by an element above `x`, nothing ranks equal to `x`. */
  lemma NothingEquivBelowHead<T(!new)>(x: T, s: seq<T>, le: (T, T) -> bool, k: T)
    requires TotalPreorder(le)
    requires Sorted(s, le)
    requires s != [] && !le(s[0], x)
    requires le(x, k) && le(k, x)
    ensures Filter(s, EquivTo(le, k)) == []
  {
    var p := EquivTo(le, k);
    forall j | 0 <= j < |s|
      ensures !p(s[j])
    {
      if j == 0 {
        assert !le(s[0], k);
      } else {
        assert le(s[0], s[j]);
        assert !le(s[j], x);
        assert !le(s[j], k);
      }
    }
    assert forall e :: e in s ==> !p(e);
    FilterNone(s, p);
  }

  lemma InsertStableStep<T(!new)>(x: T, s: seq<T>, le: (T, T) -> bool, k: T)
    requires s != [] && le(s[0], x)
    requires Filter(Insert(x, s[1..], le), EquivTo(le, k))
             == Filter(s[1..], EquivTo(le, k)) + Filter([x], EquivTo(le, k))
    ensures Filter(Insert(x, s, le), EquivTo(le, k))
            == Filter(s, EquivTo(le, k)) + Filter([x], EquivTo(le, k))
  {
    var p := EquivTo(le, k);
    var tail := Insert(x, s[1..], le);
    InsertStep(x, s, le);
    FilterConcat([s[0]], tail, p);
    FilterConcat([s[0]], s[1..], p);
  }

  /** Insertion behind a head that does not rank above `x` keeps the head in front. */
  lemma InsertStep<T>(x: T, s: seq<T>, le: (T, T) -> bool)
    requires s != [] && le(s[0], x)
    ensures s == [s[0]] + s[1..]
    ensures Insert(x, s, le) == [s[0]] + Insert(x, s[1..], le)
  {
  }

  lemma {:induction false} InsertStable<T(!new)>(x: T, s: seq<T>, le: (T, T) -> bool, k: T)
    requires TotalPreorder(le)
    requires Sorted(s, le)
    ensures Filter(Insert(x, s, le), EquivTo(le, k))
            == Filter(s, EquivTo(le, k)) + Filter([x], EquivTo(le, k))
    decreases |s|
  {
    var p := EquivTo(le, k);
    if s == [] {
      assert Insert(x, s, le) == [x];
    } else if le(s[0], x) {
      assert Sorted(s[1..], le);
      InsertStable(x, s[1..], le, k);
      InsertStableStep(x, s, le, k);
    } else {
      assert Insert(x, s, le) == [x] + s;
      FilterConcat([x], s, p);
      if p(x) {
        NothingEquivBelowHead(x, s, le, k);
      } else {
        assert Filter([x], p) == [];
      }
    }
  }

  /** Stability: elements ranked equal keep their input order. */
  lemma {:induction false} SortStable<T(!new)>(xs: seq<T>, le: (T, T) -> bool, k: T)
    requires TotalPreorder(le)
    ensures Filter(SortBy(xs, le), EquivTo(le, k)) == Filter(xs, EquivTo(le, k))
    decreases |xs|
  {
    if xs != [] {
      var init := xs[..|xs| - 1];
      SortStable(init, le, k);
      SortSorted(init, le);
      InsertStable(xs[|xs| - 1], SortBy(init, le), le, k);
      SortStep(xs, le);
      LastSplit(xs);
      FilterConcat(init, [xs[|xs| - 1]], EquivTo(le, k));
    }
  }

  predicate NoDuplicates<T(==)>(s: seq<T>) {
    forall i, j :: 0 <= i < j < |s| ==> s[i] != s[j]
  }

  /** First occurrences only, the order of `set(...)` being irrelevant once sorted. */
  function Distinct<T(==,!new)>(s: seq<T>): (r: seq<T>)
    ensures forall x :: x in r <==> x in s
    ensures NoDuplicates(r)
    decreases |s|
  {
    if s == [] then []
    else
      var init := s[..|s| - 1];
      var last := s[|s| - 1];
      assert s == init + [last];
      Distinct(init) + (if last in init then [] else [last])
  }

  lemma StrLeIsTotalPreorder()
    ensures TotalPreorder(StrLe)
  {
    forall a, b ensures StrLe(a, b) || StrLe(b, a) {
      StrLeTotal(a, b);
    }
    forall a, b, c | StrLe(a, b) && StrLe(b, c) ensures StrLe(a, c) {
      StrLeTransitive(a, b, c);
    }
  }

  /** Strictly increasing in Python's string order. */
  ghost predicate StrictlySorted(s: seq<string>) {
    forall i, j :: 0 <= i < j < |s| ==> StrLe(s[i], s[j]) && s[i] != s[j]
  }

  lemma {:induction false} NoDuplicatesCounts<T(!new)>(s: seq<T>)
    requires NoDuplicates(s)
    ensures forall x :: multiset(s)[x] <= 1
    decreases |s|
  {
    if s != [] {
      NoDuplicatesCounts(s[1..]);
      assert s == [s[0]] + s[1..];
      assert s[0] !in s[1..];
    }
  }

  lemma CountsNoDuplicates<T>(s: seq<T>)
    requires forall x :: multiset(s)[x] <= 1
    ensures NoDuplicates(s)
  {
    forall i, j | 0 <= i < j < |s|
      ensures s[i] != s[j]
    {
      assert s == s[..j] + s[j..];
      assert s[i] in s[..j];
      assert s[j] in s[j..];
      assert multiset(s) == multiset(s[..j]) + multiset(s[j..]);
      assert multiset(s[..j])[s[i]] >= 1 && multiset(s[j..])[s[j]] >= 1;
      assert multiset(s)[s[i]] <= 1;
    }
  }

  /** `items` lists the distinct members of `xs` in strictly increasing order. */
  ghost predicate SortedSetOf(items: seq<string>, xs: seq<string>) {
    StrictlySorted(items) && forall x :: x in items <==> x in xs
  }

  /** Python's `sorted(set(xs))` on strings. */
  function SortedSet(xs: seq<string>): (r: seq<string>)
    ensures forall x :: x in r <==> x in xs
    ensures StrictlySorted(r)
  {
    var d := Distinct(xs);
    var r := SortBy(d, StrLe);
    StrLeIsTotalPreorder();
    SortSorted(d, StrLe);
    NoDuplicatesCounts(d);
    CountsNoDuplicates(r);
    assert forall x :: x in r <==> x in multiset(r);
    assert forall x :: x in d <==> x in multiset(d);
    r
  }
  /** A single string is its own sorted set. */
  lemma SortedSetSingle(x: string)
    ensures SortedSet([x]) == [x]
  {
    StrictlySortedUnique(SortedSet([x]), [x]);
  }



  /** A subsequence of a strictly ordered sequence is strictly ordered. */
  lemma {:induction false} FilterStrictlySorted(s: seq<string>, p: string -> bool)
    requires StrictlySorted(s)
    ensures StrictlySorted(Filter(s, p))
    decreases |s|
  {
    if s != [] {
      var rest := Filter(s[1..], p);
      FilterStrictlySorted(s[1..], p);
      FilterMembers(s[1..], p);
      if p(s[0]) {
        var r := [s[0]] + rest;
        forall i, j | 0 <= i < j < |r| ensures StrLe(r[i], r[j]) && r[i] != r[j] {
          if i == 0 {
            assert r[j] == rest[j - 1] && rest[j - 1] in rest;
            var k :| 0 <= k < |s[1..]| && s[1..][k] == r[j];
            assert s[k + 1] == r[j];
          } else {
            assert r[i] == rest[i - 1] && r[j] == rest[j - 1];
          }
        }
      }
    }
  }

  lemma StrictlyNoDuplicates(s: seq<string>)
    requires StrictlySorted(s)
    ensures NoDuplicates(s)
  {
  }

  lemma NoMembersEmpty<T>(s: seq<T>)
    ensures (forall x :: x !in s) ==> s == []
  {
    if s != [] {
      assert s[0] in s;
    }
  }

  /** A strictly sorted sequence is fixed by its elements. */
  lemma {:induction false} StrictlySortedUnique(a: seq<string>, b: seq<string>)
    requires StrictlySorted(a) && StrictlySorted(b)
    requires forall x :: x in a <==> x in b
    ensures a == b
    decreases |a|
  {
    if a == [] {
      NoMembersEmpty(b);
    } else {
      assert b != [] by { assert a[0] in b; }
      assert b[0] in a;
      assert a[0] in b;
      var i :| 0 <= i < |a| && a[i] == b[0];
      var j :| 0 <= j < |b| && b[j] == a[0];
      StrLeTotal(a[0], a[0]);
      StrLeTotal(b[0], b[0]);
      assert StrLe(a[0], b[0]) by { if i > 0 { assert StrLe(a[0], a[i]); } }
      assert StrLe(b[0], a[0]) by { if j > 0 { assert StrLe(b[0], b[j]); } }
      StrLeAntisymmetric(a[0], b[0]);
      forall x ensures x in a[1..] <==> x in b[1..] {
        if x in a[1..] {
          var m :| 1 <= m < |a| && a[m] == x;
          assert x != a[0];
          assert x in b;
        }
        if x in b[1..] {
          var m :| 1 <= m < |b| && b[m] == x;
          assert x != b[0];
          assert x in a;
        }
      }
      StrictlySortedUnique(a[1..], b[1..]);
      assert a == [a[0]] + a[1..] && b == [b[0]] + b[1..];
    }
  }

  /** A sequence is the concatenation of its three slices around `i` and `j`. */
  lemma SplitThree<T>(s: seq<T>, i: nat, j: nat)
    requires i <= j <= |s|
    ensures s == s[..i] + s[i..j] + s[j..]
  {
  }

  lemma HeadSplit<T>(s: seq<T>)
    requires s != []
    ensures s == [s[0]] + s[1..]
  {
  }

  lemma FilterCons<T(!new)>(x: T, s: seq<T>, p: T -> bool)
    ensures Filter([x] + s, p) == (if p(x) then [x] else []) + Filter(s, p)
  {
    assert ([x] + s)[1..] == s;
  }
}

=== FILE: text.dfy ===
/**
 * String helpers shared by the extraction, query and sanitising code:
 * Python's `str.isspace`, ASCII case mapping, `strip`, substring search,
 * delimiter splitting, joining, `os.path.basename` and the code-point
 * ordering Python uses to compare strings.
 */
module Text {
  import opened Common

  /** Python's `str.isspace()` for one character (by code point). */
  predicate IsSpace(c: char) {
    var n := c as int;
    (9 <= n <= 13) || (28 <= n <= 32) || n == 0x85 || n == 0xA0 || n == 0x1680
    || (0x2000 <= n <= 0x200A) || n == 0x2028 || n == 0x2029 || n == 0x202F
    || n == 0x205F || n == 0x3000
  }

  predicate IsUpper(c: char) { 'A' <= c <= 'Z' }

  predicate IsLowerLetter(c: char) { 'a' <= c <= 'z' }

  predicate IsLetter(c: char) { IsUpper(c) || IsLowerLetter(c) }

  predicate IsDigit(c: char) { '0' <= c <= '9' }

  predicate IsAlnum(c: char) { IsLetter(c) || IsDigit(c) }

  function LowerChar(c: char): char {
    if IsUpper(c) then (c as int + 32) as char else c
  }

  function UpperChar(c: char): char {
    if IsLowerLetter(c) then (c as int - 32) as char else c
  }

  /** ASCII `str.lower()`: every upper-case letter replaced, everything else kept. */
  function Lower(s: string): (r: string)
    ensures |r| == |s|
    ensures forall k :: 0 <= k < |s| ==> r[k] == LowerChar(s[k])
  {
    seq(|s|, k requires 0 <= k < |s| => LowerChar(s[k]))
  }

  lemma LowerConcat(a: string, b: string)
    ensures Lower(a + b) == Lower(a) + Lower(b)
  {
  }

  lemma LowerSlice(s: string, i: nat, j: nat)
    requires i <= j <= |s|
    ensures Lower(s[i..j]) == Lower(s)[i..j]
  {
  }

  /** Text without upper-case letters is its own lower-case form. */
  lemma LowerKeeps(s: string)
    requires forall k :: 0 <= k < |s| ==> !IsUpper(s[k])
    ensures Lower(s) == s
  {
  }

  lemma LowerIdempotent(s: string)
    ensures Lower(Lower(s)) == Lower(s)
  {
  }

  /** Number of leading characters of `s` that `drop` accepts. */
  function LeadCount(s: string, drop: char -> bool): (n: nat)
    ensures n <= |s|
    ensures forall k :: 0 <= k < n ==> drop(s[k])
    ensures n < |s| ==> !drop(s[n])
    decreases |s|
  {
    if s == [] || !drop(s[0]) then 0 else 1 + LeadCount(s[1..], drop)
  }

  /** Number of trailing characters of `s` that `drop` accepts. */
  function TrailCount(s: string, drop: char -> bool): (n: nat)
    ensures n <= |s|
    ensures forall k :: |s| - n <= k < |s| ==> drop(s[k])
    ensures n < |s| ==> !drop(s[|s| - n - 1])
    decreases |s|
  {
    if s == [] || !drop(s[|s| - 1]) then 0 else 1 + TrailCount(s[..|s| - 1], drop)
  }

  /**
   * Python's `s.strip(chars)`: the longest infix of `s` that neither starts
   * nor ends with a dropped character, all of whose surroundings are dropped.
   */
  function StripBy(s: string, drop: char -> bool): (r: string)
    ensures r == [] || (!drop(r[0]) && !drop(r[|r| - 1]))
    ensures exists i, j :: 0 <= i <= j <= |s| && r == s[i..j]
              && (forall k :: 0 <= k < i ==> drop(s[k]))
              && (forall k :: j <= k < |s| ==> drop(s[k]))
  {
    var a := LeadCount(s, drop);
    var b := TrailCount(s[a..], drop);
    StripEnds(s, s[a..], a, b, drop);
    s[a..|s| - b]
  }

  /** A count of trailing droppable characters of a suffix counts them in the whole string. */
  lemma StripEnds(s: string, rest: string, a: nat, b: nat, drop: char -> bool)
    requires a <= |s| && rest == s[a..] && b <= |rest|
    requires forall k :: |rest| - b <= k < |rest| ==> drop(rest[k])
    requires b < |rest| ==> !drop(rest[|rest| - b - 1])
    ensures forall k :: |s| - b <= k < |s| ==> drop(s[k])
    ensures a + b < |s| ==> !drop(s[|s| - b - 1])
  {
    assert forall k :: |s| - b <= k < |s| ==> s[k] == rest[k - a];
    if a + b < |s| {
      assert s[|s| - b - 1] == rest[|rest| - b - 1];
    }
  }

  /** The bounds of the slice `StripBy` keeps. */
  lemma StripBounds(s: string, drop: char -> bool) returns (i: nat, j: nat)
    ensures i <= j <= |s| && StripBy(s, drop) == s[i..j]
    ensures forall k :: 0 <= k < i ==> drop(s[k])
    ensures forall k :: j <= k < |s| ==> drop(s[k])
  {
    i, j :| 0 <= i <= j <= |s| && StripBy(s, drop) == s[i..j]
             && (forall k :: 0 <= k < i ==> drop(s[k]))
             && (forall k :: j <= k < |s| ==> drop(s[k]));
  }

  /** Stripping leaves a string alone when neither end can be dropped. */
  lemma StripByKeeps(s: string, drop: char -> bool)
    requires s == [] || (!drop(s[0]) && !drop(s[|s| - 1]))
    ensures StripBy(s, drop) == s
  {
    assert LeadCount(s, drop) == 0;
    assert TrailCount(s, drop) == 0;
  }

  lemma StripByIdempotent(s: string, drop: char -> bool)
    ensures StripBy(StripBy(s, drop), drop) == StripBy(s, drop)
  {
    StripByKeeps(StripBy(s, drop), drop);
  }

  /** Python's `str.strip()` with no argument. */
  function Strip(s: string): (r: string)
    ensures r == [] || (!IsSpace(r[0]) && !IsSpace(r[|r| - 1]))
    ensures exists i, j :: 0 <= i <= j <= |s| && r == s[i..j]
  {
    StripBy(s, IsSpace)
  }

  /** `needle` occurs in `hay` starting at position `i`. */
  predicate OccursAt(hay: string, needle: string, i: nat) {
    i + |needle| <= |hay| && hay[i..i + |needle|] == needle
  }

  /** Python's `needle in hay` for strings. */
  predicate Contains(hay: string, needle: string) {
    exists i: nat | i <= |hay| :: OccursAt(hay, needle, i)
  }

  /** A string contains each of its infixes. */
  lemma ContainsMiddle(a: string, b: string, c: string)
    ensures Contains(a + b + c, b)
  {
    assert (a + b + c)[|a|..|a| + |b|] == b;
    assert OccursAt(a + b + c, b, |a|);
  }

  /** A substring of an infix is a substring of the whole. */
  lemma ContainsInfix(hay: string, a: nat, b: nat, needle: string)
    requires a <= b <= |hay|
    requires Contains(hay[a..b], needle)
    ensures Contains(hay, needle)
  {
    var i: nat :| i <= b - a && OccursAt(hay[a..b], needle, i);
    assert i + |needle| <= b - a && hay[a..b][i..i + |needle|] == needle;
    forall k | 0 <= k < |needle|
      ensures needle[k] == hay[a + i + k]
    {
      assert needle[k] == hay[a..b][i..i + |needle|][k] == hay[a..b][i + k];
    }
    assert hay[a + i..a + i + |needle|] == needle;
    assert OccursAt(hay, needle, a + i);
  }

  /**
   * Python's `re.split` on a one-character class: the pieces between
   * delimiters, empty pieces included.
   */
  function SplitBy(s: string, isDelim: char -> bool): (parts: seq<string>)
    ensures |parts| == |Delims(s, isDelim)| + 1
    decreases |s|
  {
    if s == [] then [""]
    else
      var rest := SplitBy(s[1..], isDelim);
      if isDelim(s[0]) then [""] + rest
      else [[s[0]] + rest[0]] + rest[1..]
  }

  /** The delimiter characters of `s`, in order. */
  function Delims(s: string, isDelim: char -> bool): seq<char>
    decreases |s|
  {
    if s == [] then []
    else (if isDelim(s[0]) then [s[0]] else []) + Delims(s[1..], isDelim)
  }

  /** Puts the separators back between the pieces. */
  function Interleave(parts: seq<string>, seps: seq<char>): string
    requires |parts| == |seps| + 1
    decreases |seps|
  {
    if seps == [] then parts[0]
    else parts[0] + [seps[0]] + Interleave(parts[1..], seps[1..])
  }

  /**
   * Splitting loses nothing: putting the delimiters back between the pieces
   * rebuilds the input.
   */
  lemma {:induction false} SplitRoundTrip(s: string, isDelim: char -> bool)
    ensures Interleave(SplitBy(s, isDelim), Delims(s, isDelim)) == s
    decreases |s|
  {
    if s != [] {
      var rest := SplitBy(s[1..], isDelim);
      var d := Delims(s[1..], isDelim);
      SplitRoundTrip(s[1..], isDelim);
      assert s == [s[0]] + s[1..];
      if isDelim(s[0]) {
        assert SplitBy(s, isDelim) == [""] + rest;
        assert Delims(s, isDelim) == [s[0]] + d;
        assert ([""] + rest)[1..] == rest;
      } else {
        var parts := [[s[0]] + rest[0]] + rest[1..];
        assert SplitBy(s, isDelim) == parts;
        assert Delims(s, isDelim) == d;
        if d != [] {
          assert parts[1..] == rest[1..];
        }
      }
    }
  }

  /** No piece of a split holds a delimiter. */
  lemma {:induction false} SplitPiecesClean(s: string, isDelim: char -> bool)
    ensures forall p, k :: p in SplitBy(s, isDelim) && 0 <= k < |p| ==> !isDelim(p[k])
    decreases |s|
  {
    if s != [] {
      var rest := SplitBy(s[1..], isDelim);
      SplitPiecesClean(s[1..], isDelim);
      if !isDelim(s[0]) {
        var parts := [[s[0]] + rest[0]] + rest[1..];
        forall p, k | p in parts && 0 <= k < |p|
          ensures !isDelim(p[k])
        {
          if p != parts[0] {
            assert p in rest;
          } else if k > 0 {
            assert p[k] == rest[0][k - 1];
          }
        }
      }
    }
  }

  /** Python's `sep.join(parts)`. */
  function Join(parts: seq<string>, sep: string): string
    decreases |parts|
  {
    if parts == [] then ""
    else if |parts| == 1 then parts[0]
    else parts[0] + sep + Join(parts[1..], sep)
  }

  /** Every part of a joined sequence occurs in the joined string. */
  lemma {:induction false} JoinContainsPart(parts: seq<string>, sep: string, i: nat)
    requires i < |parts|
    ensures Contains(Join(parts, sep), parts[i])
    decreases |parts|
  {
    if |parts| == 1 {
      assert Join(parts, sep) == "" + parts[0] + "";
      ContainsMiddle("", parts[0], "");
    } else if i == 0 {
      assert Join(parts, sep) == "" + parts[0] + (sep + Join(parts[1..], sep));
      ContainsMiddle("", parts[0], sep + Join(parts[1..], sep));
    } else {
      var head := parts[0] + sep;
      var tail := Join(parts[1..], sep);
      var whole := Join(parts, sep);
      JoinContainsPart(parts[1..], sep, i - 1);
      assert whole == head + tail;
      assert whole[|head|..|whole|] == tail;
      ContainsInfix(whole, |head|, |whole|, parts[i]);
    }
  }

  /** Position of the last `c` in `s`, Python's `s.rfind(c)` when found. */
  function LastIndexOf(s: string, c: char): (r: Option<nat>)
    ensures r.None? <==> c !in s
    ensures r.Some? ==> r.value < |s| && s[r.value] == c
                        && forall k :: r.value < k < |s| ==> s[k] != c
    decreases |s|
  {
    if s == [] then None
    else if s[|s| - 1] == c then Some(|s| - 1)
    else
      assert c in s[..|s| - 1] <==> c in s;
      LastIndexOf(s[..|s| - 1], c)
  }

  /** Position of the first `c` in `s`, Python's `s.find(c)` when found. */
  function IndexOf(s: string, c: char): (r: Option<nat>)
    ensures r.None? <==> c !in s
    ensures r.Some? ==> r.value < |s| && s[r.value] == c && c !in s[..r.value]
    decreases |s|
  {
    if s == [] then None
    else if s[0] == c then Some(0)
    else
      var rest := IndexOf(s[1..], c);
      assert c in s <==> c in s[1..];
      match rest
      case None => None
      case Some(i) =>
        assert s[..i + 1] == [s[0]] + s[1..][..i];
        Some(i + 1)
  }

  /** Python's `s.replace(a, b)` for single characters. */
  function ReplaceChar(s: string, a: char, b: char): (r: string)
    ensures |r| == |s|
    ensures forall k :: 0 <= k < |s| ==> r[k] == (if s[k] == a then b else s[k])
  {
    seq(|s|, k requires 0 <= k < |s| => if s[k] == a then b else s[k])
  }

  lemma ReplaceCharConcat(a: string, b: string, x: char, y: char)
    ensures ReplaceChar(a + b, x, y) == ReplaceChar(a, x, y) + ReplaceChar(b, x, y)
  {
  }

  lemma ReplaceAbsent(a: string, x: char, y: char)
    requires x !in a
    ensures ReplaceChar(a, x, y) == a
  {
  }

  /** `LeadCount` is the only count with its defining properties. */
  lemma LeadCountIs(s: string, n: nat, drop: char -> bool)
    requires n <= |s| && (forall k :: 0 <= k < n ==> drop(s[k])) && (n < |s| ==> !drop(s[n]))
    ensures LeadCount(s, drop) == n
  {
  }

  /** `TrailCount` is the only count with its defining properties. */
  lemma TrailCountIs(s: string, n: nat, drop: char -> bool)
    requires n <= |s| && (forall k :: |s| - n <= k < |s| ==> drop(s[k]))
    requires n < |s| ==> !drop(s[|s| - n - 1])
    ensures TrailCount(s, drop) == n
  {
  }

  lemma LeadOfConcat(a: string, m: string, b: string, drop: char -> bool)
    requires forall k :: 0 <= k < |a| ==> drop(a[k])
    requires m != [] && !drop(m[0])
    ensures LeadCount(a + m + b, drop) == |a|
  {
    var s := a + m + b;
    assert s[|a|] == m[0];
    assert forall k :: 0 <= k < |a| ==> s[k] == a[k];
    LeadCountIs(s, |a|, drop);
  }

  lemma TrailOfConcat(m: string, b: string, drop: char -> bool)
    requires forall k :: 0 <= k < |b| ==> drop(b[k])
    requires m != [] && !drop(m[|m| - 1])
    ensures TrailCount(m + b, drop) == |b|
  {
    var s := m + b;
    assert s[|m| - 1] == m[|m| - 1];
    assert forall k :: |m| <= k < |s| ==> s[k] == b[k - |m|];
    TrailCountIs(s, |b|, drop);
  }

  lemma AllDropped(s: string, drop: char -> bool)
    requires forall k :: 0 <= k < |s| ==> drop(s[k])
    ensures StripBy(s, drop) == []
  {
    LeadCountIs(s, |s|, drop);
  }

  /** Stripping removes exactly the droppable surroundings of a core that neither starts nor ends droppable. */
  lemma StripAround(a: string, m: string, b: string, drop: char -> bool)
    requires forall k :: 0 <= k < |a| ==> drop(a[k])
    requires forall k :: 0 <= k < |b| ==> drop(b[k])
    requires m == [] || (!drop(m[0]) && !drop(m[|m| - 1]))
    ensures StripBy(a + m + b, drop) == m
  {
    var s := a + m + b;
    if m == [] {
      assert s == a + b;
      assert forall k :: 0 <= k < |s| ==> drop(s[k]) by {
        forall k | 0 <= k < |s| ensures drop(s[k]) {
          if k < |a| { assert s[k] == a[k]; } else { assert s[k] == b[k - |a|]; }
        }
      }
      AllDropped(s, drop);
    } else {
      LeadOfConcat(a, m, b, drop);
      assert s[|a|..] == m + b;
      TrailOfConcat(m, b, drop);
      assert s[|a|..|s| - |b|] == m;
    }
  }

  lemma DroppedFront(c: char, p: string, i: nat, drop: char -> bool)
    requires drop(c) && i <= |p| && forall k :: 0 <= k < i ==> drop(p[k])
    ensures forall k :: 0 <= k < i + 1 ==> drop(([c] + p[..i])[k])
  {
    forall k | 0 <= k < i + 1 ensures drop(([c] + p[..i])[k]) {
      if k > 0 { assert ([c] + p[..i])[k] == p[k - 1]; }
    }
  }

  lemma DroppedBack(p: string, j: nat, drop: char -> bool)
    requires j <= |p| && forall k :: j <= k < |p| ==> drop(p[k])
    ensures forall k :: 0 <= k < |p| - j ==> drop(p[j..][k])
  {
    forall k | 0 <= k < |p| - j ensures drop(p[j..][k]) {
      assert p[j..][k] == p[j + k];
    }
  }

  lemma ConsThree(c: char, p: string, i: nat, j: nat)
    requires i <= j <= |p|
    ensures [c] + p == ([c] + p[..i]) + p[i..j] + p[j..]
  {
    assert p == p[..i] + p[i..j] + p[j..];
  }

  /** Stripping ignores one more droppable character in front. */
  lemma StripDropsLead(c: char, p: string, drop: char -> bool)
    requires drop(c)
    ensures StripBy([c] + p, drop) == StripBy(p, drop)
  {
    var m := StripBy(p, drop);
    var i, j :| 0 <= i <= j <= |p| && m == p[i..j]
                && (forall k :: 0 <= k < i ==> drop(p[k]))
                && (forall k :: j <= k < |p| ==> drop(p[k]));
    DroppedFront(c, p, i, drop);
    DroppedBack(p, j, drop);
    ConsThree(c, p, i, j);
    StripAround([c] + p[..i], m, p[j..], drop);
  }

  /** A string with no delimiter splits into itself. */
  lemma {:induction false} SplitNoDelim(a: string, isDelim: char -> bool)
    requires forall k :: 0 <= k < |a| ==> !isDelim(a[k])
    ensures SplitBy(a, isDelim) == [a]
    decreases |a|
  {
    if a != [] {
      SplitNoDelim(a[1..], isDelim);
      assert [a[0]] + a[1..] == a;
    }
  }

  /** A delimiter-free piece followed by a delimiter splits off as the first piece. */
  lemma {:induction false} SplitAfterPiece(a: string, d: char, b: string, isDelim: char -> bool)
    requires forall k :: 0 <= k < |a| ==> !isDelim(a[k])
    requires isDelim(d)
    ensures SplitBy(a + [d] + b, isDelim) == [a] + SplitBy(b, isDelim)
    decreases |a|
  {
    var s := a + [d] + b;
    if a == [] {
      assert s == [d] + b && s[1..] == b;
    } else {
      assert s[1..] == a[1..] + [d] + b;
      SplitAfterPiece(a[1..], d, b, isDelim);
      assert [a[0]] + a[1..] == a;
    }
  }

  /** `c` at `i` and nowhere after it: `i` is the last index of `c`. */
  lemma LastIndexOfIs(s: string, c: char, i: nat)
    requires i < |s| && s[i] == c
    requires forall k :: i < k < |s| ==> s[k] != c
    ensures LastIndexOf(s, c) == Some(i)
  {
    assert c in s;
  }

  /** POSIX `os.path.basename`: everything after the last '/'. */
  function Basename(path: string): (r: string)
    ensures '/' !in r
    ensures |r| <= |path| && path[|path| - |r|..] == r
    ensures r == path || path[|path| - |r| - 1] == '/'
  {
    match LastIndexOf(path, '/')
    case None => path
    case Some(i) => path[i + 1..]
  }

  /** The name after the final separator is the basename. */
  lemma BasenameAfterSlash(dir: string, name: string)
    requires '/' !in name
    ensures Basename(dir + "/" + name) == name
  {
    var path := dir + "/" + name;
    assert path[|dir|] == '/';
    forall k | |dir| < k < |path| ensures path[k] != '/' {
      assert path[k] == name[k - |dir| - 1];
    }
    LastIndexOfIs(path, '/', |dir|);
    assert path[|dir| + 1..] == name;
  }

  /** Python's `a <= b` on `str`: lexicographic on code points, prefixes first. */
  predicate StrLe(a: string, b: string)
    decreases |a|
  {
    a == [] || (b != [] && (a[0] < b[0] || (a[0] == b[0] && StrLe(a[1..], b[1..]))))
  }

  lemma {:induction false} StrLeTotal(a: string, b: string)
    ensures StrLe(a, b) || StrLe(b, a)
    decreases |a|
  {
    if a != [] && b != [] && a[0] == b[0] {
      StrLeTotal(a[1..], b[1..]);
    }
  }

  lemma {:induction false} StrLeTransitive(a: string, b: string, c: string)
    requires StrLe(a, b) && StrLe(b, c)
    ensures StrLe(a, c)
    decreases |a|
  {
    if a != [] && a[0] == b[0] && b[0] == c[0] {
      StrLeTransitive(a[1..], b[1..], c[1..]);
    }
  }

  lemma {:induction false} StrLeAntisymmetric(a: string, b: string)
    requires StrLe(a, b) && StrLe(b, a)
    ensures a == b
    decreases |a|
  {
    if a != [] {
      StrLeAntisymmetric(a[1..], b[1..]);
      assert a == [a[0]] + a[1..] && b == [b[0]] + b[1..];
    }
  }
}

=== FILE: words.dfy ===
/**
 * The list-valued fields of a metadata record: trigger words, character names
 * and style names. Each merges several sources in a fixed order and then
 * applies the shared case-insensitive duplicate removal.
 */
module Words {
  import opened Common
  import opened Text
  import opened Seqs
  import opened Caseless
  import opened Metadata

  /** The delimiter class `[,;\n]` of plain trigger-word values. */
  predicate IsTriggerDelim(c: char) { c == ',' || c == ';' || c == '\n' }

  /** Character and style values are split on ',' only. */
  predicate IsComma(c: char) { c == ',' }

  /** `[p.strip() for p in parts]` */
  function StripAll(parts: seq<string>): (r: seq<string>)
    ensures |r| == |parts|
    ensures forall i :: 0 <= i < |parts| ==> r[i] == Strip(parts[i])
  {
    seq(|parts|, i requires 0 <= i < |parts| => Strip(parts[i]))
  }

  predicate NonEmpty(s: string) { s != "" }

  /** `[p.strip() for p in parts if p.strip()]` */
  function CleanPieces(parts: seq<string>): (r: seq<string>)
    ensures |r| <= |parts|
  {
    Filter(StripAll(parts), NonEmpty)
  }

  /** The cleaned pieces are exactly the non-empty trimmed parts. */
  lemma CleanPiecesMembers(parts: seq<string>)
    ensures forall x :: x in CleanPieces(parts) <==> x != "" && exists i :: 0 <= i < |parts| && x == Strip(parts[i])
  {
    var t := StripAll(parts);
    FilterMembers(t, NonEmpty);
    forall x | x in t ensures exists i :: 0 <= i < |parts| && x == Strip(parts[i]) {
      var i :| 0 <= i < |t| && t[i] == x;
      assert x == Strip(parts[i]);
    }
    forall x, i | 0 <= i < |parts| && x == Strip(parts[i]) ensures x in t {
      assert t[i] == x;
    }
  }

  lemma CleanPiecesCons(x: string, rest: seq<string>)
    ensures CleanPieces([x] + rest) == (if Strip(x) != "" then [Strip(x)] else []) + CleanPieces(rest)
  {
    StripAllCons(x, rest);
    FilterCons(Strip(x), StripAll(rest), NonEmpty);
  }

  lemma StripAllCons(x: string, rest: seq<string>)
    ensures StripAll([x] + rest) == [Strip(x)] + StripAll(rest)
  {
  }

  /** A word is a trimmed, non-empty string free of delimiters. */
  predicate IsWord(w: string, isDelim: char -> bool) {
    && w != ""
    && !IsSpace(w[0]) && !IsSpace(w[|w| - 1])
    && forall k :: 0 <= k < |w| ==> !isDelim(w[k])
  }

  /** A trimmed piece that held no delimiter is a word, unless empty. */
  lemma PieceWord(p: string, isDelim: char -> bool)
    requires forall k :: 0 <= k < |p| ==> !isDelim(p[k])
    requires Strip(p) != ""
    ensures IsWord(Strip(p), isDelim)
  {
    InfixKeepsAbsent(p, Strip(p), isDelim);
  }

  /** An infix of a string free of some class is free of it too. */
  lemma InfixKeepsAbsent(p: string, x: string, bad: char -> bool)
    requires forall k :: 0 <= k < |p| ==> !bad(p[k])
    requires exists a, b :: 0 <= a <= b <= |p| && x == p[a..b]
    ensures forall k :: 0 <= k < |x| ==> !bad(x[k])
  {
    var a, b :| 0 <= a <= b <= |p| && x == p[a..b];
    forall k | 0 <= k < |x|
      ensures !bad(x[k])
    {
      assert x[k] == p[a + k];
    }
  }

  /** Split on a delimiter class, trim every piece and drop the empty ones. */
  function SplitWords(v: string, isDelim: char -> bool): (r: seq<string>)
    ensures forall x :: x in r ==> IsWord(x, isDelim)
  {
    SplitWordsAreWords(v, isDelim);
    CleanPieces(SplitBy(v, isDelim))
  }

  lemma SplitWordsAreWords(v: string, isDelim: char -> bool)
    ensures forall x :: x in CleanPieces(SplitBy(v, isDelim)) ==> IsWord(x, isDelim)
  {
    var parts := SplitBy(v, isDelim);
    SplitPiecesClean(v, isDelim);
    CleanPiecesMembers(parts);
    forall x | x in CleanPieces(parts)
      ensures IsWord(x, isDelim)
    {
      var i :| 0 <= i < |parts| && x == Strip(parts[i]);
      assert parts[i] in parts;
      PieceWord(parts[i], isDelim);
    }
  }

  /** A leading space does not change the cleaned pieces. */
  lemma CleanLeadSpace(j: string, isDelim: char -> bool)
    requires !isDelim(' ')
    ensures CleanPieces(SplitBy([' '] + j, isDelim)) == CleanPieces(SplitBy(j, isDelim))
  {
    var pieces := SplitBy(j, isDelim);
    SplitLeadChar(' ', j, isDelim);
    StripDropsLead(' ', pieces[0], IsSpace);
    CleanPiecesCons([' '] + pieces[0], pieces[1..]);
    CleanPiecesCons(pieces[0], pieces[1..]);
    HeadSplit(pieces);
  }

  /** A leading non-delimiter joins the first piece. */
  lemma SplitLeadChar(c: char, j: string, isDelim: char -> bool)
    requires !isDelim(c)
    ensures SplitBy([c] + j, isDelim) == [[c] + SplitBy(j, isDelim)[0]] + SplitBy(j, isDelim)[1..]
  {
    assert ([c] + j)[1..] == j;
  }

  /** The cleaned pieces of "w, rest" are w followed by those of rest. */
  lemma SplitWordsCons(w: string, j: string, isDelim: char -> bool)
    requires isDelim(',') && !isDelim(' ')
    requires IsWord(w, isDelim)
    ensures SplitWords(w + ", " + j, isDelim) == [w] + SplitWords(j, isDelim)
  {
    assert w + ", " + j == w + [','] + ([' '] + j);
    StripByKeeps(w, IsSpace);
    SplitAfterPiece(w, ',', [' '] + j, isDelim);
    CleanLeadSpace(j, isDelim);
    CleanPiecesCons(w, SplitBy([' '] + j, isDelim));
  }

  /** A single word splits into itself. */
  lemma SplitWordsSingle(w: string, isDelim: char -> bool)
    requires IsWord(w, isDelim)
    ensures SplitWords(w, isDelim) == [w]
  {
    SplitNoDelim(w, isDelim);
    StripByKeeps(w, IsSpace);
    CleanPiecesCons(w, []);
  }

  /**
   * Round trip: words written out as "w1, w2, ..." split back into exactly
   * those words, for any delimiter class containing ',' but not ' '.
   */
  lemma {:induction false} SplitWordsJoin(ws: seq<string>, isDelim: char -> bool)
    requires isDelim(',') && !isDelim(' ')
    requires forall k :: 0 <= k < |ws| ==> IsWord(ws[k], isDelim)
    ensures SplitWords(Join(ws, ", "), isDelim) == ws
    decreases |ws|
  {
    if ws == [] {
      assert SplitBy("", isDelim) == [""];
      CleanPiecesCons("", []);
    } else if |ws| == 1 {
      SplitWordsSingle(ws[0], isDelim);
    } else {
      SplitWordsCons(ws[0], Join(ws[1..], ", "), isDelim);
      SplitWordsJoin(ws[1..], isDelim);
      assert ws == [ws[0]] + ws[1..];
    }
  }

  // ---- ss_tag_frequency ----

  /** The sort key: a numeric count ranks by its value, anything else as 0. */
  function Rank(e: TagEntry): real {
    if e.count.Number? then e.count.value else 0.0
  }

  /** `sorted(..., reverse=True)` order: `a` may stay ahead of `b`. */
  predicate RanksAbove(a: TagEntry, b: TagEntry) {
    Rank(a) >= Rank(b)
  }

  lemma RanksAboveTotal()
    ensures TotalPreorder(RanksAbove)
  {
  }

  /** Each dataset contributes at most this many tags. */
  const TopTagLimit: nat := 20

  /**
   * The leading entries of one dataset after a stable sort by decreasing
   * rank: as many as the limit allows, in non-increasing rank, and none
   * ranked below an entry left behind.
   */
  function TopEntries(entries: seq<TagEntry>): (r: seq<TagEntry>)
    ensures |r| == Min(TopTagLimit, |entries|)
    ensures Sorted(r, RanksAbove)
    ensures exists rest: seq<TagEntry> :: multiset(entries) == multiset(r) + multiset(rest)
              && forall a, b :: a in r && b in rest ==> Rank(a) >= Rank(b)
  {
    var s := SortBy(entries, RanksAbove);
    var n := Min(TopTagLimit, |s|);
    RanksAboveTotal();
    SortSorted(entries, RanksAbove);
    SortedCut(s, n);
    s[..n]
  }

  /** Cutting a sequence in non-increasing rank order leaves nothing behind that outranks what is kept. */
  lemma SortedCut(s: seq<TagEntry>, n: nat)
    requires Sorted(s, RanksAbove) && n <= |s|
    ensures Sorted(s[..n], RanksAbove)
    ensures multiset(s) == multiset(s[..n]) + multiset(s[n..])
    ensures forall a, b :: a in s[..n] && b in s[n..] ==> Rank(a) >= Rank(b)
  {
    assert s == s[..n] + s[n..];
    forall a, b | a in s[..n] && b in s[n..]
      ensures Rank(a) >= Rank(b)
    {
      var i :| 0 <= i < n && s[i] == a;
      var j :| 0 <= j < |s| - n && s[n..][j] == b;
      assert s[n + j] == b;
    }
  }

  /**
   * Ties are broken by input order: among entries of equal rank, the ones
   * kept are the earliest ones of the dataset, in their original order.
   */
  lemma TopEntriesStable(entries: seq<TagEntry>, k: TagEntry)
    ensures Filter(TopEntries(entries), EquivTo(RanksAbove, k)) <= Filter(entries, EquivTo(RanksAbove, k))
  {
    var s := SortBy(entries, RanksAbove);
    RanksAboveTotal();
    SortStable(entries, RanksAbove, k);
    FilterPrefix(s, Min(TopTagLimit, |s|), EquivTo(RanksAbove, k));
  }

  function TagNames(entries: seq<TagEntry>): (r: seq<string>)
    ensures |r| == |entries|
    ensures forall i :: 0 <= i < |entries| ==> r[i] == entries[i].tag
  {
    seq(|entries|, i requires 0 <= i < |entries| => entries[i].tag)
  }

  /** The tags of every dataset that is an object, dataset by dataset. */
  function DatasetTags(groups: seq<TagGroup>): (r: seq<string>)
    ensures |r| <= TopTagLimit * |groups|
  {
    if groups == [] then []
    else
      (match groups[0]
         case Tags(entries) => TagNames(TopEntries(entries))
         case NotTags => []) + DatasetTags(groups[1..])
  }

  // ---- ss_dataset_dirs ----

  /**
   * `name.split('_', 1)[1].replace('_', ' ')`: the text after the first
   * underscore with the other underscores turned into spaces; nothing when
   * the name has no underscore.
   */
  function DirWord(name: string): (r: Option<string>)
    ensures r.None? <==> '_' !in name
    ensures r.Some? ==> '_' !in r.value && |r.value| < |name|
  {
    match IndexOf(name, '_')
    case None => None
    case Some(i) => Some(ReplaceChar(name[i + 1..], '_', ' '))
  }

  /** The prefix up to the first underscore is discarded, whatever it holds. */
  lemma DirWordConvention(prefix: string, rest: string)
    requires '_' !in prefix
    ensures DirWord(prefix + "_" + rest) == Some(ReplaceChar(rest, '_', ' '))
  {
    var name := prefix + "_" + rest;
    assert name[|prefix|] == '_';
    assert name[..|prefix|] == prefix;
    assert name[|prefix| + 1..] == rest;
    var i := IndexOf(name, '_').value;
    assert forall k :: 0 <= k < |prefix| ==> name[k] == prefix[k];
  }

  function DirWords(dirs: seq<string>): (r: seq<string>)
    ensures |r| <= |dirs|
    ensures forall x :: x in r ==> '_' !in x
  {
    if dirs == [] then []
    else
      (match DirWord(dirs[0]) case Some(w) => [w] case None => []) + DirWords(dirs[1..])
  }

  // ---- trigger words ----

  /** What one trigger key contributes, by the shape its value has. */
  function SourceWords(h: Header, key: string): seq<string> {
    if !HasValue(h.raw, key) then []
    else if key == "ss_tag_frequency" then
      match h.tagFrequency case Some(groups) => DatasetTags(groups) case None => []
    else if key == "ss_dataset_dirs" then
      match h.datasetDirs case Some(dirs) => DirWords(dirs) case None => []
    else SplitWords(h.raw[key], IsTriggerDelim)
  }

  /** Every present trigger key, merged in the priority order of `TriggerKeys`. */
  function CollectTriggers(h: Header): seq<string> {
    SourceWords(h, TriggerKeys[0]) + SourceWords(h, TriggerKeys[1])
      + SourceWords(h, TriggerKeys[2]) + SourceWords(h, TriggerKeys[3])
  }

  /**
   * The trigger words: the merged sources with empties and case-insensitive
   * repeats removed, first casing kept.
   */
  function ExtractTriggerWords(h: Header): (r: seq<string>)
    ensures CaselessDistinct(r)
    ensures IsSubseq(r, CollectTriggers(h))
    ensures CoversCaseless(r, CollectTriggers(h))
  {
    DedupSpec(CollectTriggers(h));
    Dedup(CollectTriggers(h))
  }

  // ---- characters and styles ----

  /** The comma-separated words of every key, in order, that holds a non-empty value. */
  function KeyWords(raw: map<string, string>, keys: seq<string>): (r: seq<string>)
    ensures forall x :: x in r ==> IsWord(x, IsComma)
  {
    if keys == [] then []
    else (if HasValue(raw, keys[0]) then SplitWords(raw[keys[0]], IsComma) else []) + KeyWords(raw, keys[1..])
  }

  /**
   * Character names: those under the character keys, then `found`, the names
   * the description patterns picked out of the text, deduplicated.
   */
  function ExtractCharacters(h: Header, found: seq<string>): (r: seq<string>)
    ensures CaselessDistinct(r)
    ensures IsSubseq(r, KeyWords(h.raw, CharacterKeys) + found)
    ensures CoversCaseless(r, KeyWords(h.raw, CharacterKeys) + found)
  {
    DedupSpec(KeyWords(h.raw, CharacterKeys) + found);
    Dedup(KeyWords(h.raw, CharacterKeys) + found)
  }

  const StyleKeywords: seq<string> := [
    "anime", "realistic", "photorealistic", "cartoon", "manga",
    "watercolor", "oil painting", "digital art", "concept art",
    "illustration", "sketch", "line art", "cel shaded",
    "3d render", "pixel art", "fantasy", "sci-fi", "cyberpunk",
    "steampunk", "art nouveau", "art deco", "impressionist",
    "surreal", "abstract", "minimalist", "vintage", "retro"]

  /** One character of `str.title()`, given whether a letter precedes it. */
  function TitleChar(afterLetter: bool, c: char): (r: char)
    ensures LowerChar(r) == LowerChar(c)
    ensures IsLetter(r) == IsLetter(c)
    ensures !IsLetter(c) ==> r == c
    ensures IsLetter(c) ==> if afterLetter then IsLowerLetter(r) else IsUpper(r)
  {
    if afterLetter then LowerChar(c) else UpperChar(c)
  }

  /**
   * `str.title()`: a letter is upper-cased when it starts a run of letters
   * and lower-cased otherwise; other characters are kept.
   */
  function TitleCase(s: string): (r: string)
    ensures |r| == |s|
    ensures Lower(r) == Lower(s)
    ensures forall k :: 0 <= k < |s| && IsLetter(s[k]) ==>
              (if k == 0 || !IsLetter(s[k - 1]) then IsUpper(r[k]) else IsLowerLetter(r[k]))
    ensures forall k :: 0 <= k < |s| && !IsLetter(s[k]) ==> r[k] == s[k]
  {
    seq(|s|, k requires 0 <= k < |s| => TitleChar(k > 0 && IsLetter(s[k - 1]), s[k]))
  }

  /** Title-casing depends only on letters and their positions, so it is a fixed point. */
  lemma TitleCaseIdempotent(s: string)
    ensures TitleCase(TitleCase(s)) == TitleCase(s)
  {
    var t := TitleCase(s);
    assert forall k :: 0 <= k < |s| ==> (IsLetter(t[k]) <==> IsLetter(s[k]));
  }

  /** The title-cased keywords, in list order, that occur in the lower-cased text. */
  function KeywordHits(keywords: seq<string>, lowered: string): (r: seq<string>)
    ensures |r| <= |keywords|
    ensures forall x :: x in r <==> exists k :: k in keywords && Contains(lowered, k) && x == TitleCase(k)
  {
    if keywords == [] then []
    else
      var rest := KeywordHits(keywords[1..], lowered);
      assert forall k :: k in keywords <==> k == keywords[0] || k in keywords[1..];
      (if Contains(lowered, keywords[0]) then [TitleCase(keywords[0])] else []) + rest
  }

  /**
   * Styles: the keywords found in the text, title-cased, then the words under
   * the style keys, deduplicated.
   */
  function ExtractStyles(h: Header, text: string): (r: seq<string>)
    ensures CaselessDistinct(r)
    ensures IsSubseq(r, KeywordHits(StyleKeywords, Lower(text)) + KeyWords(h.raw, StyleKeys))
    ensures CoversCaseless(r, KeywordHits(StyleKeywords, Lower(text)) + KeyWords(h.raw, StyleKeys))
  {
    DedupSpec(KeywordHits(StyleKeywords, Lower(text)) + KeyWords(h.raw, StyleKeys));
    Dedup(KeywordHits(StyleKeywords, Lower(text)) + KeyWords(h.raw, StyleKeys))
  }

  /**
   * With keywords that are non-empty and lower-case, every keyword found in
   * the text survives deduplication in its title-cased form, whatever follows.
   */
  lemma HitKept(keywords: seq<string>, lowered: string, tail: seq<string>, kw: string)
    requires forall k :: k in keywords ==> k != "" && Lower(k) == k
    requires kw in keywords && Contains(lowered, kw)
    ensures TitleCase(kw) in Dedup(KeywordHits(keywords, lowered) + tail)
  {
    var hits := KeywordHits(keywords, lowered);
    var xs := hits + tail;
    assert TitleCase(kw) in hits;
    var j :| 0 <= j < |hits| && hits[j] == TitleCase(kw);
    assert xs[j] == hits[j];
    var i := EarliestWith(xs, kw, j);
    assert xs[i] == hits[i];
    assert hits[i] in hits;
    var k :| k in keywords && hits[i] == TitleCase(k);
    assert Lower(TitleCase(k)) == Lower(k) == k;
    assert Lower(hits[i]) == k;
    assert FirstSeen(xs, i);
    DedupMembership(xs);
  }

  /** Lower-case letters, digits, spaces and '-' only. */
  predicate PlainLower(k: string) {
    forall i :: 0 <= i < |k| ==> IsLowerLetter(k[i]) || IsDigit(k[i]) || k[i] == ' ' || k[i] == '-'
  }

  lemma StyleKeywordsPlainA()
    ensures forall i :: 0 <= i < 9 ==> PlainLower(StyleKeywords[i])
  {
  }

  lemma StyleKeywordsPlainB()
    ensures forall i :: 9 <= i < 18 ==> PlainLower(StyleKeywords[i])
  {
  }

  lemma StyleKeywordsPlainC()
    ensures forall i :: 18 <= i < 27 ==> PlainLower(StyleKeywords[i])
  {
  }

  /** The keyword list is already in lower case, and has no empty entry. */
  lemma StyleKeywordsLower()
    ensures forall k :: k in StyleKeywords ==> k != "" && Lower(k) == k
  {
    StyleKeywordsPlainA();
    StyleKeywordsPlainB();
    StyleKeywordsPlainC();
    assert forall i :: 0 <= i < |StyleKeywords| ==> StyleKeywords[i] != "" && PlainLower(StyleKeywords[i]);
    forall k | k in StyleKeywords
      ensures k != "" && Lower(k) == k
    {
      LowerKeeps(k);
    }
  }

  /** Every style keyword that occurs in the text is reported, title-cased. */
  lemma StyleKeywordFound(h: Header, text: string, kw: string)
    requires kw in StyleKeywords && Contains(Lower(text), kw)
    ensures TitleCase(kw) in ExtractStyles(h, text)
  {
    StyleKeywordsLower();
    HitKept(StyleKeywords, Lower(text), KeyWords(h.raw, StyleKeys), kw);
  }

  // ---- the documented cases ----

  /** `SplitWordsJoin` for a value known to be the joined words. */
  lemma SplitJoined(v: string, ws: seq<string>, isDelim: char -> bool)
    requires isDelim(',') && !isDelim(' ')
    requires forall k :: 0 <= k < |ws| ==> IsWord(ws[k], isDelim)
    requires v == Join(ws, ", ")
    ensures SplitWords(v, isDelim) == ws
  {
    SplitWordsJoin(ws, isDelim);
  }

  lemma SplitWordsEmpty(isDelim: char -> bool)
    ensures SplitWords("", isDelim) == []
  {
    assert SplitBy("", isDelim) == [""];
    CleanPiecesCons("", []);
  }

  /** The four trigger sources, in key order. */
  lemma TriggerSources(h: Header)
    ensures CollectTriggers(h) == SourceWords(h, "ss_tag_frequency") + SourceWords(h, "trigger_words")
                                  + SourceWords(h, "activation_text") + SourceWords(h, "ss_dataset_dirs")
  {
  }

  lemma TriggersAreDedup(h: Header)
    ensures ExtractTriggerWords(h) == Dedup(CollectTriggers(h))
  {
  }

  /**
   * Key priority survives deduplication: the words kept from the first
   * sources come first, so a kept `ss_tag_frequency` word precedes every
   * kept `trigger_words` word, and so on down `TriggerKeys`.
   */
  lemma SourcesInOrder(h: Header)
    ensures var s0 := SourceWords(h, TriggerKeys[0]);
      var s1 := SourceWords(h, TriggerKeys[1]);
      var s2 := SourceWords(h, TriggerKeys[2]);
      && Dedup(s0) <= Dedup(s0 + s1)
      && Dedup(s0 + s1) <= Dedup(s0 + s1 + s2)
      && Dedup(s0 + s1 + s2) <= ExtractTriggerWords(h)
  {
    var s0 := SourceWords(h, TriggerKeys[0]);
    var s1 := SourceWords(h, TriggerKeys[1]);
    var s2 := SourceWords(h, TriggerKeys[2]);
    var all := CollectTriggers(h);
    assert (s0 + s1)[..|s0|] == s0;
    DedupPrefix(s0 + s1, |s0|);
    assert (s0 + s1 + s2)[..|s0 + s1|] == s0 + s1;
    DedupPrefix(s0 + s1 + s2, |s0 + s1|);
    assert all[..|s0 + s1 + s2|] == s0 + s1 + s2;
    DedupPrefix(all, |s0 + s1 + s2|);
  }

  lemma SourceAbsent(h: Header, key: string)
    requires key !in h.raw
    ensures SourceWords(h, key) == []
  {
  }

  /** A key other than the two JSON-bearing ones contributes its split value. */
  lemma PlainSource(h: Header, key: string)
    requires key in h.raw && key != "ss_tag_frequency" && key != "ss_dataset_dirs"
    ensures SourceWords(h, key) == SplitWords(h.raw[key], IsTriggerDelim)
  {
    if h.raw[key] == "" {
      SplitWordsEmpty(IsTriggerDelim);
    }
  }

  /** Only `trigger_words` present: the merged list is its split value. */
  lemma OnlyTriggerWords(h: Header)
    requires "ss_tag_frequency" !in h.raw && "activation_text" !in h.raw && "ss_dataset_dirs" !in h.raw
    requires "trigger_words" in h.raw
    ensures CollectTriggers(h) == SplitWords(h.raw["trigger_words"], IsTriggerDelim)
  {
    TriggerSources(h);
    SourceAbsent(h, "ss_tag_frequency");
    SourceAbsent(h, "activation_text");
    SourceAbsent(h, "ss_dataset_dirs");
    PlainSource(h, "trigger_words");
  }

  lemma OnlyTriggerWordsKey(h: Header, v: string)
    requires h.raw == map["trigger_words" := v]
    ensures "ss_tag_frequency" !in h.raw && "activation_text" !in h.raw && "ss_dataset_dirs" !in h.raw
    ensures "trigger_words" in h.raw && h.raw["trigger_words"] == v
  {
  }

  /** Merged trigger words that are already clean are the result as they stand. */
  lemma CleanTriggers(h: Header, ws: seq<string>)
    requires CollectTriggers(h) == ws
    requires CaselessDistinct(ws)
    ensures ExtractTriggerWords(h) == ws
  {
    DedupKeepsClean(ws);
  }

  /**
   * A plain `trigger_words` value, the only trigger key present, whose
   * pieces are clean and case-distinct yields exactly those pieces.
   */
  lemma PlainTriggers(h: Header, ws: seq<string>)
    requires "ss_tag_frequency" !in h.raw && "activation_text" !in h.raw && "ss_dataset_dirs" !in h.raw
    requires "trigger_words" in h.raw
    requires SplitWords(h.raw["trigger_words"], IsTriggerDelim) == ws
    requires CaselessDistinct(ws)
    ensures ExtractTriggerWords(h) == ws
  {
    OnlyTriggerWords(h);
    CleanTriggers(h, ws);
  }

  lemma ThreeWords()
    ensures SplitWords("word1, word2, word3", IsTriggerDelim) == ["word1", "word2", "word3"]
  {
    var ws := ["word1", "word2", "word3"];
    assert Join(ws, ", ") == "word1, word2, word3" by {
      assert ws[1..] == ["word2", "word3"] && ws[1..][1..] == ["word3"];
    }
    SplitJoined("word1, word2, word3", ws, IsTriggerDelim);
  }

  lemma ThreeWordsDistinct()
    ensures CaselessDistinct(["word1", "word2", "word3"])
  {
    assert Lower("word1") == "word1" && Lower("word2") == "word2" && Lower("word3") == "word3";
  }

  /** 'word1, word2, word3' gives exactly those three words. */
  lemma PlainTriggersExample(h: Header)
    requires h.raw == map["trigger_words" := "word1, word2, word3"]
    ensures ExtractTriggerWords(h) == ["word1", "word2", "word3"]
  {
    ThreeWords();
    ThreeWordsDistinct();
    OnlyTriggerWordsKey(h, "word1, word2, word3");
    PlainTriggers(h, ["word1", "word2", "word3"]);
  }

  lemma FourTags()
    ensures SplitWords("tag1, tag2, TAG1, tag2", IsTriggerDelim) == ["tag1", "tag2", "TAG1", "tag2"]
  {
    var ws := ["tag1", "tag2", "TAG1", "tag2"];
    FourTagsJoined(ws);
    FourTagsWords(ws);
    SplitJoined("tag1, tag2, TAG1, tag2", ws, IsTriggerDelim);
  }

  lemma FourTagsJoined(ws: seq<string>)
    requires ws == ["tag1", "tag2", "TAG1", "tag2"]
    ensures Join(ws, ", ") == "tag1, tag2, TAG1, tag2"
  {
    assert Join(ws, ", ") == "tag1" + ", " + Join(ws[1..], ", ");
    assert Join(ws[1..], ", ") == "tag2" + ", " + Join(ws[1..][1..], ", ");
    assert Join(ws[1..][1..], ", ") == "TAG1" + ", " + Join(ws[1..][1..][1..], ", ");
    assert ws[1..] == ["tag2", "TAG1", "tag2"];
    assert ws[1..][1..] == ["TAG1", "tag2"];
    assert ws[1..][1..][1..] == ["tag2"];
  }

  lemma FourTagsWords(ws: seq<string>)
    requires ws == ["tag1", "tag2", "TAG1", "tag2"]
    ensures forall k :: 0 <= k < |ws| ==> IsWord(ws[k], IsTriggerDelim)
  {
  }

  /** 'tag1, tag2, TAG1, tag2' leaves two trigger words. */
  lemma RepeatedTriggersExample(h: Header)
    requires h.raw == map["trigger_words" := "tag1, tag2, TAG1, tag2"]
    ensures ExtractTriggerWords(h) == ["tag1", "tag2"]
  {
    FourTags();
    OnlyTriggerWordsKey(h, "tag1, tag2, TAG1, tag2");
    OnlyTriggerWords(h);
    TriggersAreDedup(h);
    DedupExample();
  }

  lemma EmptyHeaderTriggers(h: Header)
    requires h.raw == map[]
    ensures ExtractTriggerWords(h) == []
  {
    TriggerSources(h);
    SourceAbsent(h, "ss_tag_frequency");
    SourceAbsent(h, "trigger_words");
    SourceAbsent(h, "activation_text");
    SourceAbsent(h, "ss_dataset_dirs");
    TriggersAreDedup(h);
  }

  /** Only `ss_dataset_dirs` present: the merged list is the directories' words. */
  lemma OnlyDatasetDirs(h: Header, dirs: seq<string>)
    requires "ss_tag_frequency" !in h.raw && "trigger_words" !in h.raw && "activation_text" !in h.raw
    requires HasValue(h.raw, "ss_dataset_dirs") && h.datasetDirs == Some(dirs)
    ensures CollectTriggers(h) == DirWords(dirs)
  {
    TriggerSources(h);
    SourceAbsent(h, "ss_tag_frequency");
    SourceAbsent(h, "trigger_words");
    SourceAbsent(h, "activation_text");
  }

  /** A directory name "<prefix>_<a>_<b>" contributes "<a> <b>". */
  lemma DirWordOfTwo(name: string, prefix: string, a: string, b: string)
    requires name == prefix + "_" + (a + "_" + b)
    requires '_' !in prefix && '_' !in a && '_' !in b
    ensures DirWord(name) == Some(a + " " + b)
  {
    DirWordConvention(prefix, a + "_" + b);
    ReplaceCharConcat(a + "_", b, '_', ' ');
    ReplaceCharConcat(a, "_", '_', ' ');
    ReplaceAbsent(a, '_', ' ');
    ReplaceAbsent(b, '_', ' ');
    assert ReplaceChar("_", '_', ' ') == " ";
  }

  lemma DirWordsOfTwo(d1: string, d2: string, w1: string, w2: string)
    requires DirWord(d1) == Some(w1) && DirWord(d2) == Some(w2)
    ensures DirWords([d1, d2]) == [w1, w2]
  {
    assert [d1, d2][1..] == [d2];
  }

  lemma AnimeGirlDir(d: string)
    requires d == "10_anime_girl"
    ensures DirWord(d) == Some("anime girl")
  {
    AnimeGirlParts(d);
    DirWordOfTwo(d, "10", "anime", "girl");
    AnimeGirlWord();
  }

  lemma AnimeGirlParts(d: string)
    requires d == "10_anime_girl"
    ensures d == "10" + "_" + ("anime" + "_" + "girl")
    ensures '_' !in "10" && '_' !in "anime" && '_' !in "girl"
  {
  }

  lemma AnimeGirlWord()
    ensures "anime" + " " + "girl" == "anime girl"
  {
  }

  lemma CyberpunkDir(d: string)
    requires d == "5_cyberpunk_style"
    ensures DirWord(d) == Some("cyberpunk style")
  {
    CyberpunkParts(d);
    DirWordOfTwo(d, "5", "cyberpunk", "style");
    CyberpunkWord();
  }

  lemma CyberpunkParts(d: string)
    requires d == "5_cyberpunk_style"
    ensures d == "5" + "_" + ("cyberpunk" + "_" + "style")
    ensures '_' !in "5" && '_' !in "cyberpunk" && '_' !in "style"
  {
  }

  lemma CyberpunkWord()
    ensures "cyberpunk" + " " + "style" == "cyberpunk style"
  {
  }

  lemma TwoDirs(dirs: seq<string>)
    requires dirs == ["10_anime_girl", "5_cyberpunk_style"]
    ensures DirWords(dirs) == ["anime girl", "cyberpunk style"]
  {
    AnimeGirlDir(dirs[0]);
    CyberpunkDir(dirs[1]);
    DirWordsOfTwo(dirs[0], dirs[1], "anime girl", "cyberpunk style");
  }

  lemma TwoDirWordsDistinct()
    ensures CaselessDistinct(["anime girl", "cyberpunk style"])
  {
    assert Lower("anime girl")[0] == 'a' && Lower("cyberpunk style")[0] == 'c';
  }

  /** Dataset directories '10_anime_girl' and '5_cyberpunk_style' give 'anime girl' and 'cyberpunk style'. */
  lemma DatasetDirsExample(h: Header)
    requires HasValue(h.raw, "ss_dataset_dirs")
    requires "ss_tag_frequency" !in h.raw && "trigger_words" !in h.raw && "activation_text" !in h.raw
    requires h.datasetDirs == Some(["10_anime_girl", "5_cyberpunk_style"])
    ensures ExtractTriggerWords(h) == ["anime girl", "cyberpunk style"]
  {
    OnlyDatasetDirs(h, h.datasetDirs.value);
    TwoDirs(h.datasetDirs.value);
    TwoDirWordsDistinct();
    CleanTriggers(h, ["anime girl", "cyberpunk style"]);
  }

  /** Only `ss_tag_frequency` present: the merged list is the datasets' top tags. */
  lemma OnlyTagFrequency(h: Header, groups: seq<TagGroup>)
    requires "trigger_words" !in h.raw && "activation_text" !in h.raw && "ss_dataset_dirs" !in h.raw
    requires HasValue(h.raw, "ss_tag_frequency") && h.tagFrequency == Some(groups)
    ensures CollectTriggers(h) == DatasetTags(groups)
  {
    TriggerSources(h);
    SourceAbsent(h, "trigger_words");
    SourceAbsent(h, "activation_text");
    SourceAbsent(h, "ss_dataset_dirs");
  }

  /** A dataset already in non-increasing order, within the limit, is taken whole. */
  lemma OrderedDataset(entries: seq<TagEntry>)
    requires Sorted(entries, RanksAbove) && |entries| <= TopTagLimit
    ensures DatasetTags([Tags(entries)]) == TagNames(entries)
  {
    SortKeepsSorted(entries, RanksAbove);
    assert [Tags(entries)][1..] == [];
  }

  lemma ThreeTagsDistinct()
    ensures CaselessDistinct(["character_name", "style_tag", "rare_tag"])
  {
    assert Lower("character_name")[0] == 'c' && Lower("style_tag")[0] == 's' && Lower("rare_tag")[0] == 'r';
  }

  lemma SampleTags(entries: seq<TagEntry>)
    requires entries == [
      TagEntry("character_name", Number(50.0)),
      TagEntry("style_tag", Number(30.0)),
      TagEntry("rare_tag", Number(5.0))]
    ensures DatasetTags([Tags(entries)]) == ["character_name", "style_tag", "rare_tag"]
  {
    SampleSorted(entries);
    OrderedDataset(entries);
    SampleNames(entries);
  }

  lemma SampleSorted(entries: seq<TagEntry>)
    requires entries == [
      TagEntry("character_name", Number(50.0)),
      TagEntry("style_tag", Number(30.0)),
      TagEntry("rare_tag", Number(5.0))]
    ensures Sorted(entries, RanksAbove) && |entries| <= TopTagLimit
  {
    assert Rank(entries[0]) == 50.0 && Rank(entries[1]) == 30.0 && Rank(entries[2]) == 5.0;
  }

  lemma SampleNames(entries: seq<TagEntry>)
    requires entries == [
      TagEntry("character_name", Number(50.0)),
      TagEntry("style_tag", Number(30.0)),
      TagEntry("rare_tag", Number(5.0))]
    ensures TagNames(entries) == ["character_name", "style_tag", "rare_tag"]
  {
    assert TagNames(entries) == [entries[0].tag, entries[1].tag, entries[2].tag];
  }

  /** One dataset with counts 50, 30 and 5: all three tags, most frequent first. */
  lemma TagFrequencyExample(h: Header, entries: seq<TagEntry>)
    requires HasValue(h.raw, "ss_tag_frequency")
    requires "trigger_words" !in h.raw && "activation_text" !in h.raw && "ss_dataset_dirs" !in h.raw
    requires entries == [
      TagEntry("character_name", Number(50.0)),
      TagEntry("style_tag", Number(30.0)),
      TagEntry("rare_tag", Number(5.0))]
    requires h.tagFrequency == Some([Tags(entries)])
    ensures ExtractTriggerWords(h) == ["character_name", "style_tag", "rare_tag"]
  {
    OnlyTagFrequency(h, [Tags(entries)]);
    SampleTags(entries);
    ThreeTagsDistinct();
    CleanTriggers(h, ["character_name", "style_tag", "rare_tag"]);
  }

  /** Only `key` of `keys` holds a value: the comma-split words are that value's. */
  lemma SingleKeyWords(raw: map<string, string>, keys: seq<string>, i: nat)
    requires i < |keys| && keys[i] in raw
    requires forall j :: 0 <= j < |keys| && j != i ==> keys[j] !in raw
    ensures KeyWords(raw, keys) == SplitWords(raw[keys[i]], IsComma)
    decreases |keys|
  {
    if i == 0 {
      assert KeyWords(raw, keys[1..]) == [] by {
        NoKeyWords(raw, keys[1..]);
      }
      if raw[keys[0]] == "" {
        SplitWordsEmpty(IsComma);
      }
    } else {
      SingleKeyWords(raw, keys[1..], i - 1);
    }
  }

  lemma {:induction false} NoKeyWords(raw: map<string, string>, keys: seq<string>)
    requires forall j :: 0 <= j < |keys| ==> keys[j] !in raw
    ensures KeyWords(raw, keys) == []
    decreases |keys|
  {
    if keys != [] {
      NoKeyWords(raw, keys[1..]);
    }
  }

  lemma TwoNames()
    ensures SplitWords("Hatsune Miku, Luka Megurine", IsComma) == ["Hatsune Miku", "Luka Megurine"]
  {
    var ws := ["Hatsune Miku", "Luka Megurine"];
    TwoNamesJoined(ws);
    TwoNamesWords(ws);
    SplitJoined("Hatsune Miku, Luka Megurine", ws, IsComma);
  }

  lemma TwoNamesJoined(ws: seq<string>)
    requires ws == ["Hatsune Miku", "Luka Megurine"]
    ensures Join(ws, ", ") == "Hatsune Miku, Luka Megurine"
  {
    assert ws[1..] == ["Luka Megurine"];
  }

  lemma TwoNamesWords(ws: seq<string>)
    requires ws == ["Hatsune Miku", "Luka Megurine"]
    ensures forall k :: 0 <= k < |ws| ==> IsWord(ws[k], IsComma)
  {
  }

  /** Clean names under the character keys, and nothing found in the text, are the result as they stand. */
  lemma CleanCharacters(h: Header, ws: seq<string>)
    requires KeyWords(h.raw, CharacterKeys) == ws
    requires CaselessDistinct(ws)
    ensures ExtractCharacters(h, []) == ws
  {
    assert ws + [] == ws;
    DedupKeepsClean(ws);
  }

  lemma CharacterKeyOnly(h: Header, v: string)
    requires h.raw == map["character" := v]
    ensures KeyWords(h.raw, CharacterKeys) == SplitWords(v, IsComma)
  {
    assert CharacterKeys[1] == "character";
    SingleKeyWords(h.raw, CharacterKeys, 1);
  }

  lemma TwoNamesDistinct()
    ensures CaselessDistinct(["Hatsune Miku", "Luka Megurine"])
  {
    assert Lower("Hatsune Miku")[0] == 'h' && Lower("Luka Megurine")[0] == 'l';
  }

  /** 'Hatsune Miku, Luka Megurine' under `character` gives both names. */
  lemma CharacterKeyExample(h: Header)
    requires h.raw == map["character" := "Hatsune Miku, Luka Megurine"]
    ensures ExtractCharacters(h, []) == ["Hatsune Miku", "Luka Megurine"]
  {
    CharacterKeyOnly(h, "Hatsune Miku, Luka Megurine");
    TwoNames();
    TwoNamesDistinct();
    CleanCharacters(h, ["Hatsune Miku", "Luka Megurine"]);
  }

  /** The sentence of the documented case, written as its words and the gaps between them. */
  const StyleSentence: string :=
    "anime" + " style " + "illustration" + " with " + "watercolor" + " effects"

  lemma SentenceHasKeywords()
    ensures Contains(StyleSentence, "anime")
    ensures Contains(StyleSentence, "illustration")
    ensures Contains(StyleSentence, "watercolor")
  {
    var a, b, c, d, e, f := "anime", " style ", "illustration", " with ", "watercolor", " effects";
    assert StyleSentence == "" + a + (b + c + d + e + f);
    ContainsMiddle("", a, b + c + d + e + f);
    assert StyleSentence == (a + b) + c + (d + e + f);
    ContainsMiddle(a + b, c, d + e + f);
    assert StyleSentence == (a + b + c + d) + e + f;
    ContainsMiddle(a + b + c + d, e, f);
  }

  lemma SentenceIsLower()
    ensures Lower(StyleSentence) == StyleSentence
  {
    var a, b, c, d, e, f := "anime", " style ", "illustration", " with ", "watercolor", " effects";
    LowerKeeps(a);
    LowerKeeps(b);
    LowerKeeps(c);
    LowerKeeps(d);
    LowerKeeps(e);
    LowerKeeps(f);
    LowerConcat(a, b);
    LowerConcat(a + b, c);
    LowerConcat(a + b + c, d);
    LowerConcat(a + b + c + d, e);
    LowerConcat(a + b + c + d + e, f);
  }

  /** A lower-case word title-cases to its capitalised form. */
  lemma TitleCaseWord(c: char, rest: string)
    requires IsLowerLetter(c)
    requires forall k :: 0 <= k < |rest| ==> IsLowerLetter(rest[k])
    ensures TitleCase([c] + rest) == [UpperChar(c)] + rest
  {
    var s := [c] + rest;
    assert forall j :: 0 <= j < |rest| ==> s[j + 1] == rest[j];
  }

  lemma SentenceHits(text: string)
    requires text == StyleSentence
    ensures Contains(Lower(text), "anime")
    ensures Contains(Lower(text), "illustration")
    ensures Contains(Lower(text), "watercolor")
  {
    SentenceIsLower();
    SentenceHasKeywords();
  }

  lemma LowerLetters(a: string, b: string)
    requires forall k :: 0 <= k < |a| ==> IsLowerLetter(a[k])
    requires forall k :: 0 <= k < |b| ==> IsLowerLetter(b[k])
    ensures forall k :: 0 <= k < |a + b| ==> IsLowerLetter((a + b)[k])
  {
  }

  lemma TitleAnime()
    ensures TitleCase("anime") == "Anime"
  {
    TitleCaseWord('a', "nime");
    assert ['a'] + "nime" == "anime";
  }

  lemma IllustrationTail(rest: string)
    requires rest == "llustration"
    ensures forall k :: 0 <= k < |rest| ==> IsLowerLetter(rest[k])
  {
    LowerLetters("llust", "ration");
    assert "llust" + "ration" == rest;
  }

  lemma TitleIllustration(rest: string)
    requires rest == "llustration"
    ensures TitleCase(['i'] + rest) == ['I'] + rest
  {
    IllustrationTail(rest);
    TitleCaseWord('i', rest);
  }

  lemma TitleWatercolor()
    ensures TitleCase("watercolor") == "Watercolor"
  {
    WatercolorTail("atercolor");
    TitleCaseWord('w', "atercolor");
    WatercolorSpelling();
  }

  lemma WatercolorTail(rest: string)
    requires rest == "atercolor"
    ensures forall k :: 0 <= k < |rest| ==> IsLowerLetter(rest[k])
  {
    LowerLetters("ater", "color");
    assert "ater" + "color" == rest;
  }

  lemma WatercolorSpelling()
    ensures ['w'] + "atercolor" == "watercolor"
    ensures [UpperChar('w')] + "atercolor" == "Watercolor"
  {
  }

  lemma IllustrationStyle(h: Header, text: string, kw: string, rest: string)
    requires text == StyleSentence
    requires rest == "llustration" && kw == ['i'] + rest
    ensures ['I'] + rest in ExtractStyles(h, text)
  {
    SentenceHits(text);
    IllustrationKeyword(kw);
    StyleKeywordFound(h, text, kw);
    TitleIllustration(rest);
  }

  lemma IllustrationKeyword(kw: string)
    requires kw == ['i'] + "llustration"
    ensures kw in StyleKeywords && kw == "illustration"
  {
    assert StyleKeywords[9] == kw;
  }

  lemma AnimeStyle(h: Header, text: string)
    requires text == StyleSentence
    ensures "Anime" in ExtractStyles(h, text)
  {
    SentenceHits(text);
    assert StyleKeywords[0] == "anime";
    StyleKeywordFound(h, text, "anime");
    TitleAnime();
  }

  lemma WatercolorStyle(h: Header, text: string)
    requires text == StyleSentence
    ensures "Watercolor" in ExtractStyles(h, text)
  {
    SentenceHits(text);
    assert StyleKeywords[5] == "watercolor";
    StyleKeywordFound(h, text, "watercolor");
    TitleWatercolor();
  }

  /** 'anime style illustration with watercolor effects' reports Anime, Illustration and Watercolor. */
  lemma StyleTextExample(h: Header, text: string)
    requires text == StyleSentence
    ensures "Anime" in ExtractStyles(h, text)
    ensures "Illustration" in ExtractStyles(h, text)
    ensures "Watercolor" in ExtractStyles(h, text)
  {
    AnimeStyle(h, text);
    WatercolorStyle(h, text);
    IllustrationStyle(h, text, "illustration", "llustration");
    assert ['I'] + "llustration" == "Illustration";
  }

  /** No keyword found, no hit. */
  lemma {:induction false} NoHits(keywords: seq<string>, lowered: string)
    requires forall k :: k in keywords ==> !Contains(lowered, k)
    ensures KeywordHits(keywords, lowered) == []
    decreases |keywords|
  {
    if keywords != [] {
      assert keywords[0] in keywords;
      NoHits(keywords[1..], lowered);
    }
  }

  /** Empty text matches no keyword, so only the style keys count. */
  lemma NoTextNoHits()
    ensures KeywordHits(StyleKeywords, "") == []
  {
    StyleKeywordsLower();
    forall k | k in StyleKeywords
      ensures !Contains("", k)
    {
      assert forall i: nat :: i <= 0 ==> !OccursAt("", k, i);
    }
    NoHits(StyleKeywords, "");
  }

  lemma TwoStyles()
    ensures SplitWords("fantasy, sci-fi", IsComma) == ["fantasy", "sci-fi"]
  {
    var ws := ["fantasy", "sci-fi"];
    assert Join(ws, ", ") == "fantasy, sci-fi" by {
      assert ws[1..] == ["sci-fi"];
    }
    SplitJoined("fantasy, sci-fi", ws, IsComma);
  }

  lemma StyleKeyOnly(h: Header, v: string)
    requires h.raw == map["style" := v]
    ensures KeyWords(h.raw, StyleKeys) == SplitWords(v, IsComma)
  {
    assert StyleKeys[1] == "style";
    SingleKeyWords(h.raw, StyleKeys, 1);
  }

  lemma TwoStylesDistinct()
    ensures CaselessDistinct(["fantasy", "sci-fi"])
  {
    assert Lower("fantasy")[0] == 'f' && Lower("sci-fi")[0] == 's';
  }

  /** 'fantasy, sci-fi' under `style`, with no text, gives both, unchanged. */
  lemma StyleKeyExample(h: Header)
    requires h.raw == map["style" := "fantasy, sci-fi"]
    ensures ExtractStyles(h, "") == ["fantasy", "sci-fi"]
  {
    StyleKeyOnly(h, "fantasy, sci-fi");
    TwoStyles();
    NoTextNoHits();
    TwoStylesDistinct();
    CleanStyles(h, "", ["fantasy", "sci-fi"]);
  }

  /** With no keyword in the text, clean words under the style keys are the result as they stand. */
  lemma CleanStyles(h: Header, text: string, ws: seq<string>)
    requires KeywordHits(StyleKeywords, Lower(text)) == []
    requires KeyWords(h.raw, StyleKeys) == ws
    requires CaselessDistinct(ws)
    ensures ExtractStyles(h, text) == ws
  {
    assert [] + ws == ws;
    DedupKeepsClean(ws);
  }
}
